=== FILE: README.md ===
# actually-doom host core in Dafny

actually-doom runs DOOM as a headless host process that talks to an editor
client over a Unix socket. This project models the host side of that link and
the engine pieces next to it:

- **The receive ring** (`ringbuf_t`). It has 512 slots; one is always kept
  free, so it holds at most 511 bytes. Reads are all-or-nothing and wrap
  around the array. Module `Ring`.
- **The send buffer and its little-endian encoders** (`Comm_Write*`). The
  socket becomes a log of flushed bytes. `COMM_WRITE_MSG` becomes a guard
  flag. Module `SendBuffer`. Module `WireRead` is the client's reader of
  those bytes and serves as the encoders' inverse.
- **The resumable inbound decoder** (`Comm_HandleReceivedMsgs`). Its hidden
  `stage` / `msg_type` state is the datatype `Decoder.Stage`. It is defined
  twice: over a byte sequence, and over the ring through the ring primitives,
  with the corrected unsigned 16-bit read (see Findings). The ring form is
  proved to refine the sequence form. Module `Decoder`.
- **The receive loop** (`Comm_Receive`). This covers the two `iovec`
  lengths, the repositioning of an empty ring and the overflow exit. The peer
  becomes the bytes it has written plus an end-of-stream flag. Module
  `Receiver`.
- **The outbound messages.** These are the handshake, frames, player status,
  menu, intermission, finale and text messages. Modules `OutMsg`, `Frames`,
  `PlayerStatus`, `Screens` and `TextMessages`.
- **The input path.** `DG_GetInput` pops key pairs off the key ring, and
  `I_GetEvent` turns them into engine events using `shiftxform`. Module
  `Input`.
- **Menu logic of m_menu.c.** This covers cursor moves, hotkeys, back,
  sliders, save-name editing, messages, episode choice and the skull
  animation. Modules `MenuNav` and `MenuVars`.
- **The video glue of i_video.c.** This covers palette expansion,
  indexed-to-RGB conversion, RGB565 packing and the closest-colour search.
  Module `Video`.
- **The thinker list of p_tick.c.** This covers append, lazy removal, the
  unlink sweep and `leveltime`. Module `Thinkers`.

Some constants are defined in files that are not part of this model. They are
taken from the usual Doom and Linux definitions:

- `SCREENWIDTH` 320 and `SCREENHEIGHT` 200 (i_video.h).
- `NAME_MAX` 255.
- `SAVESTRINGSIZE` 24 and `NUMAMMO` 4.
- `KEY_RSHIFT`, `KEY_BACKSPACE`, `KEY_ESCAPE`, `KEY_ENTER` and the null keys
  (doomkeys.h).
- The order of the six key cards.

`HU_FONTSTART` (33) and `HU_FONTEND` (95) follow hu_stuff.h. The gamma table
and the font's glyph widths are parameters.

Where the code and its design description differ, the model follows the code:

- The finale-text message carries a `u8` finale stage before its string.
- The handshake carries the width and height with no tag byte.
- The game message's summed length is not range-checked (see Findings).

## Model

| member | source | states |
|---|---|---|
| Bytes.LE16 | doom/src/doomgeneric_actually.c:306-314 | a 16-bit value goes out as two bytes, low byte first, which recombine to the value |
| Bytes.LE32 | doom/src/doomgeneric_actually.c:316-326 | a 32-bit value goes out as four bytes, least significant first, which recombine to the value |
| Bytes.FromLE16 | doom/src/doomgeneric_actually.c:209-219 | the little-endian reading of two bytes is the inverse of LE16 |
| Bytes.FromLE32 | doom/src/doomgeneric_actually.c:316-326 | the client's reading of four bytes is the inverse of LE32 |
| Bytes.ToU8 | doom/src/doomgeneric_actually.c:297-304 | passing an int to a `uint8_t` parameter keeps it modulo 256 |
| Bytes.ToU16 | doom/src/doomgeneric_actually.c:306-314 | passing an int to a `uint16_t` parameter keeps it modulo 65536 |
| Bytes.ToU32 | doom/src/doomgeneric_actually.c:316-326 | passing an int to a `uint32_t` parameter keeps it modulo 2^32 |
| Bytes.SignedRoundTrip8 | doom/src/doomgeneric_actually.c:1007-1013 | a signed byte the menu asserts to fit survives the unsigned write |
| Bytes.SignedRoundTrip16 | doom/src/doomgeneric_actually.c:877-902 | a signed 16-bit status field survives the unsigned write |
| Bytes.SignedRoundTrip32 | doom/src/doomgeneric_actually.c:1046-1071 | a signed 32-bit statistic survives the unsigned write |
| Ring.Empty | doom/src/doomgeneric_actually.c:162-163 | a zero-initialised static ring is well formed and holds nothing |
| Ring.Len | doom/src/doomgeneric_actually.c:193-197 | the length is the index distance modulo 512 and never exceeds 511 |
| Ring.IsEmpty | doom/src/doomgeneric_actually.c:183-186 | true exactly when no byte is buffered |
| Ring.IsFull | doom/src/doomgeneric_actually.c:188-191 | true exactly when 511 bytes are buffered |
| Ring.IndexCharacterisation | doom/src/doomgeneric_actually.c:183-197 | empty iff the indices are equal, full iff end + 1 wraps onto start, length at most 511 |
| Ring.Read8 | doom/src/doomgeneric_actually.c:199-207 | fails exactly on an empty ring, else yields the first logical byte and drops only it |
| Ring.Read16 | doom/src/doomgeneric_actually.c:209-219 | fails exactly below two bytes, else yields the first two bytes as an unsigned little-endian value and drops only them (corrected reading) |
| Ring.ReadBytes | doom/src/doomgeneric_actually.c:221-245 | fails without consuming below n bytes, else yields the first n logical bytes, across the wrap point too, and drops exactly those |
| Ring.Write8 | doom/src/doomgeneric_actually.c:247-255 | fails exactly on a full ring, else appends the byte at the logical end |
| Ring.WriteAllAppends | doom/src/doomgeneric_actually.c:247-255 | bytes written one at a time into enough room are appended in order |
| Ring.WriteThenRead | doom/src/doomgeneric_actually.c:221-255 | up to 511 bytes written into an empty ring read back as the same bytes |
| Ring.Read16AsWritten | doom/src/doomgeneric_actually.c:209-219 | with a signed `char` array, the low byte is sign-extended into the result |
| Ring.SignedReadAgreement | doom/src/doomgeneric_actually.c:209-219 | the as-written read agrees with the little-endian value exactly when the low byte is below 0x80 or the high byte is 0xFF |
| Ring.SignedReadCounterexample | doom/src/doomgeneric_actually.c:209-219 | the bytes 0x80 0x00 read as 0xFF80 instead of 128 |
| SendBuffer.Initial | doom/src/doomgeneric_actually.c:129-139 | the send buffer starts empty, with nothing sent and no message open |
| SendBuffer.Flush | doom/src/doomgeneric_actually.c:257-295 | the staged bytes move to the sent log in order, and the byte stream is unchanged |
| SendBuffer.PutScalar | doom/src/doomgeneric_actually.c:297-326 | a scalar is appended whole; a flush happens first exactly when it would not fit |
| SendBuffer.Write8 | doom/src/doomgeneric_actually.c:297-304 | the stream grows by the value's low byte |
| SendBuffer.Write16 | doom/src/doomgeneric_actually.c:306-314 | the stream grows by the value's low 16 bits, little-endian |
| SendBuffer.Write32 | doom/src/doomgeneric_actually.c:316-326 | the stream grows by the value's low 32 bits, little-endian |
| SendBuffer.WriteBytes | doom/src/doomgeneric_actually.c:328-347 | the stream grows by exactly the input bytes; nothing is flushed if they fit, otherwise only whole buffers are flushed |
| SendBuffer.WriteString | doom/src/doomgeneric_actually.c:349-364 | fatal exactly above 65535 bytes, else a u16 length followed by the bytes |
| SendBuffer.WriteField | doom/src/doomgeneric_actually.c:297-364 | one field is written by its encoder; it fails only for an over-long string |
| SendBuffer.WriteMsg | doom/src/doomgeneric_actually.c:141-147 | a message inside another is refused; otherwise it succeeds exactly when every field is encodable, appears contiguously, and releases the guard |
| WireRead.ReadFieldEncoded | doom/src/doomgeneric_actually.c:297-364 | each field an encoder writes reads back as its value, whatever follows |
| WireRead.ReadEncoded | doom/src/doomgeneric_actually.c:297-364 | an encoded field list reads back as its values and consumes nothing after it |
| WireRead.ReadMessageEncoded | doom/src/doomgeneric_actually.c:141-147 | a whole message reads back as its values with nothing left over |
| OutMsg.InitMsg | doom/src/doomgeneric_actually.c:832-836 | the handshake is the bytes 64 1 200 0, with no tag |
| OutMsg.InitRoundTrip | doom/src/doomgeneric_actually.c:832-836 | the client reads the handshake as width 320 and height 200 |
| OutMsg.EncodeLength | doom/src/doomgeneric_actually.c:297-364 | an encoded message is as long as the sum of its fields' sizes |
| OutMsg.TextMsg | doom/src/doomgeneric_actually.c:1095-1109 | a tag-and-string message is encodable exactly when the text fits a u16 length |
| OutMsg.TextRoundTrip | doom/src/doomgeneric_actually.c:1095-1109 | the client reads a text message as its tag and exactly its text |
| TextMessages.GameMessageAsWritten | doom/src/doomgeneric_actually.c:1083-1093 | the game message as written: the summed length wraps modulo 65536 ahead of the raw text |
| TextMessages.GameMessageMsg | doom/src/doomgeneric_actually.c:1083-1093 | the game message as one string: refused when prefix plus text exceed 65535 bytes |
| TextMessages.GameMessageAgrees | doom/src/doomgeneric_actually.c:1083-1093 | below the limit both definitions give the same bytes, read back as prefix followed by text |
| TextMessages.GameMessageWraps | doom/src/doomgeneric_actually.c:1083-1093 | a 65536-byte text goes out with length 0, so the client reads an empty message and takes the text for further messages |
| Screens.MenuMsg | doom/src/doomgeneric_actually.c:980-1044 | the menu message is encodable when its asserted sizes hold and every name fits a string |
| Screens.MenuRoundTrip | doom/src/doomgeneric_actually.c:980-1044 | the client reads the tag, type, item count, each item name in order, and the selected index |
| Screens.OptionsVarsRoundTrip | doom/src/doomgeneric_actually.c:1001-1014 | the options trailer reads back as the two toggle bits and the signed sensitivity and screen size |
| Screens.IntermissionMsg | doom/src/doomgeneric_actually.c:1046-1071 | the intermission message has the five statistics fields exactly when statistics are given |
| Screens.IntermissionValues | doom/src/doomgeneric_actually.c:1046-1071 | the client's decoding recovers the signed state and the signed statistics |
| Screens.IntermissionRoundTrip | doom/src/doomgeneric_actually.c:1046-1071 | the message's layout depends only on whether statistics are given, and it reads back as written |
| Screens.FinaleCountMsg | doom/src/doomgeneric_actually.c:1073-1081 | the finale count is the tag followed by the count as u16 |
| Screens.FinaleCountRoundTrip | doom/src/doomgeneric_actually.c:1073-1081 | the client reads back the tag and the count |
| Screens.FinaleTextMsg | doom/src/doomgeneric_actually.c:1111-1119 | the finale text is the tag, the stage byte, then the text as a string; refused when over-long |
| Screens.FinaleTextRoundTrip | doom/src/doomgeneric_actually.c:1111-1119 | the client reads back the tag, the stage and exactly the text |
| PlayerStatus.ArmsBits | doom/src/doomgeneric_actually.c:856-859 | bits 0-5 say which of weapon slots 2-7 are owned; the top bits are clear |
| PlayerStatus.KeyBits | doom/src/doomgeneric_actually.c:860-864 | bits 0-2 say blue, yellow, red, each set for the key card or the skull key |
| PlayerStatus.StatusOf | doom/src/doomgeneric_actually.c:845-864 | the status copies health, armour and ammo, reads -1 for a weapon without ammo, and packs the bit sets |
| PlayerStatus.PlayerStatusMsg | doom/src/doomgeneric_actually.c:877-902 | the status message is encodable and has fourteen fields |
| PlayerStatus.StatusValues | doom/src/doomgeneric_actually.c:877-902 | the client's decoding of the values gives back the status that was sent |
| PlayerStatus.PlayerStatusRoundTrip | doom/src/doomgeneric_actually.c:877-902 | the message is always 25 bytes of fixed layout and reads back as the status sent |
| PlayerStatus.MaybeSendPlayerStatus | doom/src/doomgeneric_actually.c:839-903 | nothing is sent when the status equals the last one; otherwise the message is sent and remembered |
| PlayerStatus.StatusSentOnce | doom/src/doomgeneric_actually.c:866-875 | two calls in a row with the same player send its status once, or not at all when it equals the last one sent |
| Frames.DrawDetachedUI | doom/src/doomgeneric_actually.c:974-978 | sets the element's bit and leaves the other seven |
| Frames.FrameMsg | doom/src/doomgeneric_actually.c:907-916 | an inline frame is the tag, the frame's bytes, then the UI bits |
| Frames.DrawFrame | doom/src/doomgeneric_actually.c:905-972 | with no frame name the frame goes inline; otherwise it is published and only a ready notice is sent; either way the frame request and UI bits are cleared |
| Frames.FrameRoundTrip | doom/src/doomgeneric_actually.c:907-916 | an inline frame is one frame plus two bytes long and reads back as the pixels and the UI bits |
| Decoder.PushKey | doom/src/doomgeneric_actually.c:463-475 | a key pair is queued exactly when both bytes fit in the key ring; otherwise the ring is untouched |
| Decoder.PressKey | doom/src/doomgeneric_actually.c:451-481 | a completed press-key message queues its pair when both bytes fit and logs it as queued; otherwise the ring is untouched and the drop is logged; nothing else changes |
| Decoder.Step | doom/src/doomgeneric_actually.c:368-559 | one stage consumes a prefix of the buffered bytes and keeps the length invariants; a stage that consumes nothing moves to a lower-ranked stage |
| Decoder.Handle | doom/src/doomgeneric_actually.c:368-559 | decoding runs until the next stage would suspend, or fails fatally |
| Decoder.SuspendedBound | doom/src/doomgeneric_actually.c:428-444 | a suspended decoder waits on fewer than 255 bytes, so the 511-byte ring cannot fill with one incomplete message |
| Decoder.HandleKeeps | doom/src/doomgeneric_actually.c:368-559 | decoding keeps the stage invariant and leaves a suffix of its input unread |
| Decoder.StepExtend | doom/src/doomgeneric_actually.c:368-559 | a stage that completes or fails does the same when more bytes follow |
| Decoder.HandleSplit | doom/src/doomgeneric_actually.c:368-559 | decoding a buffer and then resuming with more bytes equals decoding everything at once |
| Decoder.ChunkingIrrelevant | doom/src/doomgeneric_actually.c:368-559 | however bytes are split across receive calls, the final state and the effects are those of one burst |
| Decoder.SuspendedIsFixed | doom/src/doomgeneric_actually.c:368-559 | re-entering a suspended decoder with no new bytes changes nothing |
| Decoder.DecodeShmName | doom/src/doomgeneric_actually.c:410-449 | a frame-name message replaces the stored name with exactly the name sent |
| Decoder.DecodePressKey | doom/src/doomgeneric_actually.c:451-481 | a press-key message has exactly the effect of pushing its pair |
| Decoder.DecodeConfigName | doom/src/doomgeneric_actually.c:483-506 | the name half of a config message is read into the value-length stage |
| Decoder.DecodeConfigValue | doom/src/doomgeneric_actually.c:510-541 | the value half of a config message hands the name and value over and returns to idle |
| Decoder.DecodeConfig | doom/src/doomgeneric_actually.c:483-546 | a config message hands exactly its name and value to the config handler |
| Decoder.DecodeOne | doom/src/doomgeneric_actually.c:398-553 | one encoded message, whatever follows it, is decoded to exactly its effect |
| Decoder.DecodeEncoded | doom/src/doomgeneric_actually.c:368-559 | a well-formed stream has one effect per message, in order, and leaves the decoder idle with nothing pending |
| Decoder.UnknownTagFatal | doom/src/doomgeneric_actually.c:548-553 | an unknown tag is fatal at once |
| Decoder.LongShmNameFatal | doom/src/doomgeneric_actually.c:417-424 | a frame-name length of 255 or more is fatal as soon as it is read |
| Decoder.LongConfigNameFatal | doom/src/doomgeneric_actually.c:486-496 | a config-name length of 64 or more is fatal as soon as it is read |
| Decoder.ValueLenTooLong | doom/src/doomgeneric_actually.c:510-520 | a config-value length of 128 or more is fatal as soon as it is read |
| Decoder.LongConfigValueFatal | doom/src/doomgeneric_actually.c:510-520 | after an acceptable name, an over-long value length ends decoding fatally |
| Decoder.StreamedRoundTrip | doom/src/doomgeneric_actually.c:368-559 | a well-formed stream fed in any chunks, down to single bytes, has one effect per message, in order |
| Decoder.TwoKeysBackpressure | doom/src/doomgeneric_actually.c:463-475 | of two key events, both are queued, only the first, or neither, according to the room left in the key ring |
| Decoder.RingStep | doom/src/doomgeneric_actually.c:368-559 | one stage read through the ring primitives keeps the ring well formed |
| Decoder.RingStepRefines | doom/src/doomgeneric_actually.c:368-559 | a ring stage does to the ring's contents what the sequence stage does to the bytes |
| Decoder.RingHandle | doom/src/doomgeneric_actually.c:368-559 | decoding on the ring gives the sequence decoder's outcome, with the ring holding the unread bytes |
| Decoder.ShmNameLengthAsWritten | doom/src/doomgeneric_actually.c:417-424 | with the as-written read, every frame name of 128 to 254 bytes is rejected as too long |
| Receiver.Window | doom/src/doomgeneric_actually.c:568-584 | the two receive pieces lie in the free part of the ring, the second only from slot 0; together they never reach the last free slot, and cover all free room when the ring is not empty or starts at 0 |
| Receiver.ReceiveInto | doom/src/doomgeneric_actually.c:615-616 | bytes read into the window are appended to the ring's contents, and no unread byte is overwritten |
| Receiver.Normalise | doom/src/doomgeneric_actually.c:619-621 | an empty ring is moved to the front; the contents do not change |
| Receiver.Start | doom/src/doomgeneric_actually.c:162-163 | a session starts with an idle decoder and an empty ring, ready to receive |
| Receiver.Absorb | doom/src/doomgeneric_actually.c:615-626 | one pass of the loop keeps the host state well formed |
| Receiver.AbsorbDecodes | doom/src/doomgeneric_actually.c:615-626 | one pass decodes the buffered bytes followed by the new ones, and the overflow exit is never taken |
| Receiver.Receive | doom/src/doomgeneric_actually.c:561-628 | a receive call that returns has drained the peer's pending bytes |
| Receiver.ReceiveDecodesAll | doom/src/doomgeneric_actually.c:561-628 | however the window splits the reads, a receive call decodes all buffered and received bytes at once: it fails with the decoder's error, or ends at end of stream, or returns exactly when the peer is still open |
| Receiver.ReceiveStep | doom/src/doomgeneric_actually.c:586-626 | each pass of the loop either fails with the error of decoding everything, or continues from a ready state that decodes the rest to the same result |
| Receiver.WindowOpen | doom/src/doomgeneric_actually.c:568-584 | a ring that is not full offers room for at least one byte, so an empty read means end of stream |
| Input.ToLower | doom/src/doomgeneric_actually.c:1142-1145 | capital letters are lowered and every other byte is kept |
| Input.Interpret | doom/src/doomgeneric_actually.c:1121-1152 | pressed 0xff means mouse buttons, nonzero means key-down, zero means key-up; key codes are lowered |
| Input.GetInput | doom/src/doomgeneric_actually.c:1121-1152 | nothing from an empty key ring, otherwise the oldest pair's input, with both bytes taken |
| Input.ShiftXform | doom/src/i_input.c:34-67 | the 128-entry table keeps control codes, capitals and DEL, maps lower-case letters to capitals, and holds the punctuation, bracket and brace rows at positions 32-64, 91-96 and 123-127 |
| Input.ShiftedSymbolsTable | doom/src/i_input.c:38-58 | shift gives the US symbols: `'` to `"`, `, - . /` to `< _ > ?`, the digits 0-9 to `) ! @ # $ % ^ & * (`, and `; < =` to `: < +` |
| Input.TypedChar | doom/src/i_input.c:71-80 | without shift the key is typed as itself; with shift, keys past the table give 0 and letters give capitals |
| Input.ShiftedDigits | doom/src/i_input.c:44-57 | shifted digits and symbols give the US keyboard's characters |
| Input.ShiftKeepsControls | doom/src/i_input.c:34-37 | shift leaves control codes and delete unchanged |
| Input.UpdateShift | doom/src/i_input.c:82-95 | only the right shift key moves the count: up on press, down on release |
| Input.Translate | doom/src/i_input.c:104-138 | key-down carries the typed character, key-up carries 0, key 0 is not posted, and mouse buttons are posted as they are |
| Input.GetEvents | doom/src/i_input.c:97-144 | draining the key ring posts the translated events in queue order and empties the ring |
| Input.DecoderKeepsPairs | doom/src/doomgeneric_actually.c:463-475 | the decoder only queues whole pairs, so the key ring's length stays even |
| Input.PressKeysQueueInOrder | doom/src/doomgeneric_actually.c:463-475 | press-key messages that fit are queued in arrival order, two bytes each |
| Input.PairsInterpret | doom/src/doomgeneric_actually.c:1121-1152 | the queued pairs read back as the inputs of those messages |
| Input.KeysArriveInOrder | doom/src/doomgeneric_actually.c:1121-1152 | the client's key messages reach the input path as exactly those inputs, in order |
| MenuNav.StepIsSuccOrPred | doom/src/m_menu.c:1406-1429 | each step of the cyclic search is one wrap-around increment or decrement of the cursor |
| MenuNav.FindNone | doom/src/m_menu.c:1406-1429 | the search fails exactly when no item qualifies |
| MenuNav.MoveDownSkipsSeparators | doom/src/m_menu.c:1406-1417 | moving down ends on the next non-separator in wrap-around order, skipping only separators; it fails only if all items are separators |
| MenuNav.MoveUpSkipsSeparators | doom/src/m_menu.c:1418-1429 | moving up ends on the previous non-separator in wrap-around order, skipping only separators |
| MenuNav.UpUndoesDown | doom/src/m_menu.c:1406-1429 | from a selectable item, moving down then up returns to it |
| MenuNav.HotkeySearch | doom/src/m_menu.c:1486-1502 | the two-loop search finds the first item with the hotkey in cyclic order after the cursor |
| MenuNav.SaveLastOn | doom/src/m_menu.c:1473 | the current menu remembers the cursor, and nothing else changes |
| MenuNav.SetupNextMenu | doom/src/m_menu.c:1702-1706 | switches to the menu at its remembered item |
| MenuNav.Back | doom/src/m_menu.c:1470-1479 | remembers the cursor; with a previous menu it goes there at its remembered item, otherwise nothing else changes |
| MenuNav.BackReturns | doom/src/m_menu.c:1448-1479 | opening a submenu and going back returns to the same menu and item |
| MenuNav.StartControlPanel | doom/src/m_menu.c:1510-1519 | does nothing while the menu is up; otherwise opens the main menu at its remembered item |
| MenuNav.StartControlPanelIdempotent | doom/src/m_menu.c:1510-1519 | opening the menu twice is the same as opening it once |
| MenuNav.MenuKey | doom/src/m_menu.c:1406-1505 | keys are tried in the order down, up, left, right, forward, activate, back; down and up move to the next or previous selectable item, staying put if there is none; left and right call the item's routine with 0 or 1 exactly when it has one and is a slider (status 2), changing nothing else; forward on an enabled item with a routine remembers the item and calls the routine with 1 for a slider and with the item index otherwise, and does nothing on other items; activate remembers the item and closes the menus; back is `Back`; only back changes the menu; any other key is consumed exactly when it types a character (or is one of Vanilla Doom's null keys) and some item has that hotkey, and then the cursor jumps to the first such item after it in cyclic order; unconsumed keys change nothing |
| MenuNav.MoveDown | doom/src/m_menu.c:1406-1417 | moving down lands on a non-separator, and has nowhere to land exactly when every item is a separator |
| MenuNav.MoveUp | doom/src/m_menu.c:1418-1429 | moving up lands on a non-separator, and has nowhere to land exactly when every item is a separator |
| MenuVars.Volume | doom/src/m_menu.c:639-669 | within 0..15 a volume step saturates at the bounds, and it moves by at most one |
| MenuVars.CharWidthIgnoresCase | doom/src/m_menu.c:1026-1031 | a lower-case letter is measured as its capital, because each character is upper-cased before the font lookup |
| MenuVars.StringWidth | doom/src/m_menu.c:1020-1034 | the reference definition of a string's width, with the glyph widths as a parameter: one character's width is its glyph's (4 for a character outside the font), and the width is never negative when no glyph width is |
| MenuVars.StringWidthAppend | doom/src/m_menu.c:1020-1034 | the width of a string is the sum of the widths of its parts, so the loop adds one glyph width per character |
| MenuVars.Sensitivity | doom/src/m_menu.c:922-934 | within 0..9 a sensitivity step saturates at the bounds, and it moves by at most one |
| MenuVars.SizeDisplay | doom/src/m_menu.c:950-964 | within 3..11 a screen-size step saturates at the bounds, and it moves by at most one |
| MenuVars.SlidersStayInRange | doom/src/m_menu.c:639-669 | no choice moves a slider out of its range |
| MenuVars.SliderStepsUndo | doom/src/m_menu.c:639-669 | away from the bounds, raising undoes lowering and lowering undoes raising |
| MenuVars.SaveSelect | doom/src/m_menu.c:437-447 | editing starts with the old text saved, an empty slot cleared, and the cursor at the end |
| MenuVars.TypedSaveChar | doom/src/m_menu.c:1259-1271 | a character is accepted exactly when, upper-cased, it is a space or a font glyph; it is taken from the key when the vanilla mapping is on and from the typed character otherwise |
| MenuVars.SaveNameKey | doom/src/m_menu.c:1229-1280 | backspace drops one character; escape restores the old text; enter stops editing and saves only a non-empty name; any other key appends its accepted character when the name has room and is not too wide, and otherwise leaves the name alone, still editing; the name always leaves room for its terminator |
| MenuVars.BackspaceUndoesTyping | doom/src/m_menu.c:1232-1277 | backspace removes exactly the character just typed |
| MenuVars.TypingAppends | doom/src/m_menu.c:1251-1277 | a space or font glyph is appended, upper-cased, exactly when the name has room and is not too wide; in every other case the name is unchanged and editing goes on |
| MenuVars.TypeThenBackspace | doom/src/m_menu.c:1232-1277 | a glyph typed into a name with room does grow it, and backspace then restores the editor |
| MenuVars.StartMessage | doom/src/m_menu.c:999-1009 | the menu state is remembered, the menu forced up, the answer routine and whether an answer is needed recorded, and the text goes to the client |
| MenuVars.StopMessage | doom/src/m_menu.c:1011-1015 | the remembered menu state is restored and the message dropped |
| MenuVars.StopUndoesStart | doom/src/m_menu.c:999-1015 | stopping a message restores the menu state from before it started |
| MenuVars.MessageKey | doom/src/m_menu.c:1282-1298 | a message that needs an answer takes only space, escape, confirm or abort; a taken key closes the message and the menu and is passed to the message's routine when one is set; a key not taken changes nothing and calls nothing |
| MenuVars.AnswerReachesRoutine | doom/src/m_menu.c:1282-1298 | a question asked with a routine and answered with the confirm key hands that key to the routine and closes the message and the menu |
| MenuVars.Episode | doom/src/m_menu.c:741-757 | shareware refuses every episode but the first; registered turns a choice above 2 into 0 |
| MenuVars.EpisodeOwned | doom/src/m_menu.c:741-757 | from any entry of the four-item episode menu, the episode chosen is one the game mode owns: only the first in shareware, the first three in registered |
| MenuVars.StringHeight | doom/src/m_menu.c:1040-1052 | the height is the font height times one more than the number of line breaks |
| MenuVars.Ticker | doom/src/m_menu.c:1711-1717 | the counter counts down; on reaching zero the image switches and the count restarts at 8 |
| MenuVars.SkullSwitches | doom/src/m_menu.c:1711-1717 | from a count of c the image switches after exactly c tics, and not before |
| MenuVars.SkullPeriod | doom/src/m_menu.c:1711-1717 | once started, the image switches every 8 tics |
| Video.SetPalette | doom/src/i_video.c:155-179 | colour i is the gamma-corrected triple at 3i of the palette |
| Video.CmapPixel | doom/src/i_video.c:74-85 | output bytes 3i to 3i+2 are the palette colour of input pixel i |
| Video.CmapToFb | doom/src/i_video.c:74-85 | the loop converts every pixel, three bytes each, in order |
| Video.FinishUpdate | doom/src/i_video.c:118-136 | the row loop converts the whole screen into one frame-sized buffer |
| Video.FramePixel | doom/src/i_video.c:118-136 | each frame pixel is the palette colour of the screen pixel at the same place |
| Video.Rgb565 | doom/src/i_video.c:149-150 | the packed colour fits in 16 bits |
| Video.Rgb565RoundTrip | doom/src/i_video.c:149-153 | unpacking gives the top 5, 6 and 5 bits of red, green and blue |
| Video.DistBounds | doom/src/i_video.c:183-213 | the squared distance fits an int and is zero exactly for the same colour |
| Video.ClosestIndex | doom/src/i_video.c:183-213 | the search returns the first index of least distance |
| Video.PaletteIndexAsWritten | doom/src/i_video.c:183-213 | with the search palette never filled, the result is always 0 |
| Video.PaletteIndex | doom/src/i_video.c:183-213 | the search over the installed colours returns a nearest entry, and an exact match when there is one |
| Video.WhiteIsMissed | doom/src/i_video.c:160-213 | with white in the palette but not at entry 0, the as-written result differs from the white entry found by the corrected search |
| Thinkers.InitThinkers | doom/src/p_tick.c:42-45 | the sentinel points to itself both ways, so the list is empty |
| Thinkers.AddThinker | doom/src/p_tick.c:51-57 | the thinker is linked in at the tail; the earlier order and all actions are kept |
| Thinkers.AddLinks | doom/src/p_tick.c:53-56 | the four pointer updates link every thinker of the longer list both ways |
| Thinkers.RemoveThinker | doom/src/p_tick.c:64-68 | only the thinker's action is marked removed; all links and other nodes are unchanged |
| Thinkers.RemoveKeepsList | doom/src/p_tick.c:64-68 | marking a thinker keeps its list intact |
| Thinkers.Unlinked | doom/src/p_tick.c:79-83 | the node is freed and no action changes |
| Thinkers.Unlink | doom/src/p_tick.c:79-83 | unlinking and freeing the node at position i leaves a list without it |
| Thinkers.RunThinkers | doom/src/p_tick.c:73-89 | the sweep frees exactly the marked thinkers and leaves the unmarked ones linked in their order |
| Thinkers.Ticker | doom/src/p_tick.c:95-119 | when paused, or in a local game with the menu up, nothing happens; otherwise the thinkers are swept and `leveltime` grows by one |

## Left out

- Sockets and system calls are not modelled: bind, listen, accept, `recvmsg`, `send`, errno handling and `EINTR` retries. A flush appends to a log, and a read returns what the peer has pending, up to the window.
- The shared-memory frame path is not modelled: `shm_open`, `ftruncate`, `mmap`, `msync`, `munmap`, `CloseFrameShm` and `UnlinkFrameShm` are system calls. Publishing a frame is recorded as the frame's contents.
- Signals, clocks, sleeping and `main`'s loop are left out; they are asynchronous or time-based.
- `Cleanup` is left out. Its AMSG_QUIT message is the constant `TextMessages.QUIT_MSG`.
- `Decoder.Env` records config settings as log entries, because `M_SetVariable` is not part of this model.
- `abort()` on an impossible decoder stage is left out; the stage datatype has no such value.
- C strings are byte sequences with their `strlen` length, and contain no NUL byte.
- The C `assert`s on field widths are preconditions: `Screens.MenuFits`, `PlayerStatus.StatusFits`, `Screens.StatsFit`, the u16 count of `Screens.FinaleCountMsg`, the u8 stage of `Screens.FinaleTextMsg`, the i8 state of `Screens.IntermissionMsg`, and the `ui < 8` of `Frames.DrawDetachedUI`.
- Screens.MenuFits: the menu type byte is not tied to the trailer variant. `DG_DrawMenu` chooses the trailer from the `duimenutype_t` value and asserts there is none for other types, but that enum's numeric values live in doomgeneric_actually.h, which is not part of this model; so `Screens.MenuMsg` also accepts type/trailer pairs the code never sends.
- Drawing, sound, `G_*` and `D_*` calls in m_menu.c are left out; they are external effects. A routine call in `MenuNav.MenuKey` is returned as a `Call` value, and the key `MenuVars.MessageKey` passes to `messageRoutine` as an optional key; the routines themselves are not modelled.
- `M_Responder` before the save-name branch is left out: joystick and mouse mapping, and `key == -1`. So are its function keys and other branches while the menu is inactive. The key bindings are parameters.
- `M_StringWidth` is modelled with the glyph widths as a parameter, because the font is loaded from the WAD.
- `M_ReadSaveStrings` is left out (file I/O).
- `M_ChangeDetail` is left out; it only toggles a flag and calls the renderer.
- MenuNav.MoveDown: where every item is a separator the source's loop never ends; the model returns None there and keeps the cursor.
- Think routines are left out, including routines that add or remove thinkers during the sweep; the sweep treats them as no-ops. P_PlayerThink, P_UpdateSpecials and P_RespawnSpecials are left out too.
- Thinkers.RunThinkers: the source reads `next` from a thinker after freeing it; the model reads the link before freeing.
- Thinkers.Ticker: `leveltime` is an unbounded integer, so the C `int` overflow is not modelled.
- Floating-point mouse acceleration and threshold in i_video.c are left out (floating point, unused).
- Video.PaletteIndex: inputs are bytes. The macros' unscaled 5- and 6-bit fields only matter for the as-written search, which never sees a filled palette.
- TextMessages.GameMessageAsWritten: the prefix and the text are merged into one raw write after the wrapped length, not written as two raw writes; the bytes on the wire are the same.
- doomgeneric.c, statdump.c and the headers are not part of this model, apart from the constants listed above.

## Findings

| source | as written | input that shows it | evidently intended | confidence | as-written member | corrected member |
|---|---|---|---|---|---|---|
| doom/src/doomgeneric_actually.c:209-219 | `Ring_Read16` takes the low byte from a `char` array. Where `char` is signed (x86-64), a low byte of 0x80 or more is sign-extended and sets the high eight bits. | A ring holding 0x80 0x00 reads as 0xFF80. A frame-name message whose name has 128 to 254 bytes is rejected as too long. | The unsigned little-endian value, the inverse of `Comm_Write16` | not executed | Ring.SignedReadCounterexample | Ring.Read16 |
| doom/src/doomgeneric_actually.c:1083-1093 | `DG_OnGameMessage` writes the summed length as a u16 without the 65535 check that `Comm_WriteString` makes | A 65536-byte message is sent with length 0, followed by its text | Refuse lengths above 65535, as every other string does | not executed | TextMessages.GameMessageWraps | TextMessages.GameMessageAgrees |
| doom/src/i_video.c:183-213 | `I_GetPaletteIndex` searches `rgb565_palette`, which nothing fills, because the filling loop of `I_SetPalette` is commented out | Asking for white when white is at a nonzero palette index returns 0 | Search the installed palette | not executed | Video.WhiteIsMissed | Video.PaletteIndex |

=== FILE: bytes.dfy ===
/** Bytes and the little-endian integer layout used on the wire. */
module Bytes {

  type byte = b: int | 0 <= b < 256

  const U16_LIMIT: int := 0x1_0000
  const U32_LIMIT: int := 0x1_0000_0000

  /** The two bytes of a 16-bit value, least significant first. */
  function LE16(v: int): (r: seq<byte>)
    requires 0 <= v < U16_LIMIT
    ensures |r| == 2
    ensures r[0] as int + 256 * r[1] as int == v
  {
    [v % 256, v / 256]
  }

  /** The four bytes of a 32-bit value, least significant first. */
  function LE32(v: int): (r: seq<byte>)
    requires 0 <= v < U32_LIMIT
    ensures |r| == 4
    ensures r[0] as int + 256 * (r[1] as int + 256 * (r[2] as int + 256 * r[3] as int)) == v
  {
    var w1 := v / 256;
    var w2 := w1 / 256;
    [v % 256, w1 % 256, w2 % 256, w2 / 256]
  }

  /** A byte and a non-negative rest, read as one number, split back apart. */
  lemma Split256(lo: int, hi: int)
    requires 0 <= lo < 256 && 0 <= hi
    ensures (lo + 256 * hi) % 256 == lo && (lo + 256 * hi) / 256 == hi
  {
  }

  /** Reads a little-endian 16-bit value from two bytes. */
  function FromLE16(lo: byte, hi: byte): (v: int)
    ensures 0 <= v < U16_LIMIT
    ensures LE16(v) == [lo, hi]
  {
    lo as int + 256 * hi as int
  }

  /** Reads a little-endian 32-bit value from four bytes. */
  function FromLE32(b: seq<byte>): (v: int)
    requires |b| == 4
    ensures 0 <= v < U32_LIMIT
    ensures LE32(v) == b
  {
    var w2 := b[2] as int + 256 * b[3] as int;
    var w1 := b[1] as int + 256 * w2;
    var v := b[0] as int + 256 * w1;
    assert LE32(v) == b by {
      Split256(b[0], w1);
      Split256(b[1], w2);
      Split256(b[2], b[3]);
    }
    v
  }

  /** The value a C conversion to a 16-bit unsigned type gives (wraps modulo 2^16). */
  function ToU16(v: int): (r: int)
    ensures 0 <= r < U16_LIMIT
    ensures (r - v) % U16_LIMIT == 0
  {
    v % U16_LIMIT
  }

  /** The value a C conversion to a 32-bit unsigned type gives (wraps modulo 2^32). */
  function ToU32(v: int): (r: int)
    ensures 0 <= r < U32_LIMIT
    ensures (r - v) % U32_LIMIT == 0
  {
    v % U32_LIMIT
  }

  /** The value a C conversion to an 8-bit unsigned type gives (wraps modulo 2^8). */
  function ToU8(v: int): (r: byte)
    ensures (r - v) % 256 == 0
  {
    v % 256
  }

  /** Two's-complement reading of a 16-bit pattern. */
  function AsI16(u: int): (v: int)
    requires 0 <= u < U16_LIMIT
    ensures -0x8000 <= v < 0x8000
    ensures ToU16(v) == u
  {
    if u < 0x8000 then u else u - U16_LIMIT
  }

  /** Two's-complement reading of a 32-bit pattern. */
  function AsI32(u: int): (v: int)
    requires 0 <= u < U32_LIMIT
    ensures -0x8000_0000 <= v < 0x8000_0000
    ensures ToU32(v) == u
  {
    if u < 0x8000_0000 then u else u - U32_LIMIT
  }

  /** Two's-complement reading of an 8-bit pattern. */
  function AsI8(u: byte): (v: int)
    ensures -0x80 <= v < 0x80
    ensures ToU8(v) == u
  {
    if u < 0x80 then u as int else u as int - 256
  }

  /** A signed 16-bit value survives the unsigned conversion done by the encoder. */
  lemma SignedRoundTrip16(v: int)
    requires -0x8000 <= v < 0x8000
    ensures AsI16(ToU16(v)) == v
  {
  }

  /** A signed 32-bit value survives the unsigned conversion done by the encoder. */
  lemma SignedRoundTrip32(v: int)
    requires -0x8000_0000 <= v < 0x8000_0000
    ensures AsI32(ToU32(v)) == v
  {
  }

  /** A signed 8-bit value survives the unsigned conversion done by the encoder. */
  lemma SignedRoundTrip8(v: int)
    requires -0x80 <= v < 0x80
    ensures AsI8(ToU8(v)) == v
  {
  }
}

=== FILE: decoder.dfy ===
/**
 * The resumable inbound decoder (`Comm_HandleReceivedMsgs`). Its hidden static
 * state (`stage`, `msg_type` and the per-message scratch union) is the typed
 * Stage below; every stage reads one field, and a short read suspends the
 * decoder with nothing consumed, to be resumed when more bytes arrive.
 *
 * Two definitions are given: Step/Handle over the sequence of buffered bytes,
 * and RingStep/RingHandle over the receive ring through the ring primitives,
 * reading length fields with the corrected unsigned Ring.Read16 (the code's
 * sign-extending read is Ring.Read16AsWritten; see ShmNameLengthAsWritten).
 * The contract of RingHandle ties the two together; the protocol properties
 * are proved on the sequence form.
 */
module Decoder {
  import opened Bytes
  import opened Wrappers
  import Ring

  /** Inbound message tags. */
  const TAG_WANT_FRAME: byte := 0
  const TAG_PRESS_KEY: byte := 1
  const TAG_SET_FRAME_SHM_NAME: byte := 2
  const TAG_SET_CONFIG_VAR: byte := 3

  /** Size of `frame_shm_name` (NAME_MAX on Linux); a name must be shorter. */
  const NAME_MAX: nat := 255
  /** Sizes of the config scratch buffers; name and value must be shorter. */
  const CONFIG_NAME_SIZE: nat := 64
  const CONFIG_VALUE_SIZE: nat := 128

  /** Where the decoder is within a message. */
  datatype Stage =
    | AwaitTag                                  // stage 0: no message in progress
    | ShmNameLen                                // SET_FRAME_SHM_NAME, stage 1
    | ShmNameBody(len: nat)                     // SET_FRAME_SHM_NAME, stage 2
    | KeyCode                                   // PRESS_KEY, stage 1
    | KeyPressed(key: byte)                     // PRESS_KEY, stage 2
    | ConfigNameLen                             // SET_CONFIG_VAR, stage 1
    | ConfigNameBody(len: nat)                  // SET_CONFIG_VAR, stage 2
    | ConfigValueLen(name: seq<byte>)           // SET_CONFIG_VAR, stage 3
    | ConfigValueBody(name: seq<byte>, len: nat) // SET_CONFIG_VAR, stage 4

  /** The observable side effect of one completed message. */
  datatype Effect =
    | FrameWanted
    | ShmNameSet(name: seq<byte>)
    | KeyQueued(key: byte, pressed: byte)
    | KeyDropped(key: byte, pressed: byte)
    | ConfigSet(name: seq<byte>, value: seq<byte>)

  /**
   * What the decoder's side effects act on: `screenvisible`, `frame_shm_name`,
   * the key-event ring, and a log of every effect in order (the config
   * collaborator `M_SetVariable` only sees the ConfigSet entries).
   */
  datatype Env = Env(screenVisible: bool, shmName: seq<byte>, keys: Ring.Ring, log: seq<Effect>)

  predicate ValidEnv(e: Env) {
    Ring.Valid(e.keys)
  }

  datatype DecodeError =
    | UnknownTag(tag: byte)
    | ShmNameTooLong(len: nat)
    | ConfigNameTooLong(len: nat)
    | ConfigValueTooLong(len: nat)

  /**
   * Pushes a received key pair onto the key ring when both bytes fit;
   * otherwise the event is dropped and the ring is left as it was.
   */
  function PushKey(keys: Ring.Ring, key: byte, pressed: byte): (res: (Ring.Ring, bool))
    requires Ring.Valid(keys)
    ensures Ring.Valid(res.0)
    ensures res.1 <==> |Ring.Contents(keys)| + 2 <= Ring.CAP
    ensures res.1 ==> Ring.Contents(res.0) == Ring.Contents(keys) + [key, pressed]
    ensures !res.1 ==> res.0 == keys
  {
    if Ring.Len(keys) + 2 <= Ring.CAP then
      var k1 := Ring.Write8(keys, key).value;
      var k2 := Ring.Write8(k1, pressed).value;
      assert Ring.Contents(keys) + [key] + [pressed] == Ring.Contents(keys) + [key, pressed];
      (k2, true)
    else (keys, false)
  }

  function WantFrame(e: Env): Env {
    e.(screenVisible := true, log := e.log + [FrameWanted])
  }

  function SetShmName(e: Env, name: seq<byte>): Env {
    e.(shmName := name, log := e.log + [ShmNameSet(name)])
  }

  /** A press-key message: the pair is queued when it fits and dropped otherwise; the log says which. */
  function PressKey(e: Env, key: byte, pressed: byte): (e': Env)
    requires ValidEnv(e)
    ensures ValidEnv(e') && e'.screenVisible == e.screenVisible && e'.shmName == e.shmName
    ensures |Ring.Contents(e.keys)| + 2 <= Ring.CAP ==>
      Ring.Contents(e'.keys) == Ring.Contents(e.keys) + [key, pressed] && e'.log == e.log + [KeyQueued(key, pressed)]
    ensures |Ring.Contents(e.keys)| + 2 > Ring.CAP ==>
      e'.keys == e.keys && e'.log == e.log + [KeyDropped(key, pressed)]
  {
    var (keys', queued) := PushKey(e.keys, key, pressed);
    e.(keys := keys', log := e.log + [if queued then KeyQueued(key, pressed) else KeyDropped(key, pressed)])
  }

  function SetConfig(e: Env, name: seq<byte>, value: seq<byte>): Env {
    e.(log := e.log + [ConfigSet(name, value)])
  }

  /** The lengths a stage carries are those the length checks let through. */
  predicate StageOk(st: Stage) {
    match st
    case ShmNameBody(len) => len < NAME_MAX
    case ConfigNameBody(len) => len < CONFIG_NAME_SIZE
    case ConfigValueLen(name) => |name| < CONFIG_NAME_SIZE
    case ConfigValueBody(name, len) => |name| < CONFIG_NAME_SIZE && len < CONFIG_VALUE_SIZE
    case _ => true
  }

  /** Termination measure for stages that may complete without consuming a byte
      (a zero-length body). */
  function Rank(st: Stage): nat {
    match st
    case ConfigNameBody(_) => 3
    case ConfigValueLen(_) => 2
    case ConfigValueBody(_, _) => 1
    case ShmNameBody(_) => 1
    case _ => 0
  }

  /** Outcome of one stage: a short read, an advance, or a fatal protocol error. */
  datatype StepResult<B> = Suspend | Advance(st: Stage, rest: B, env: Env) | Stop(err: DecodeError)

  /** The stage reached after a message's tag byte. */
  function AfterTag(tag: byte, e: Env): StepResult<()>
  {
    if tag == TAG_WANT_FRAME then Advance(AwaitTag, (), WantFrame(e))
    else if tag == TAG_SET_FRAME_SHM_NAME then Advance(ShmNameLen, (), e)
    else if tag == TAG_PRESS_KEY then Advance(KeyCode, (), e)
    else if tag == TAG_SET_CONFIG_VAR then Advance(ConfigNameLen, (), e)
    else Stop(UnknownTag(tag))
  }

  /** One stage of the decoder over the buffered bytes. */
  function Step(st: Stage, buf: seq<byte>, e: Env): (res: StepResult<seq<byte>>)
    requires ValidEnv(e)
    ensures res.Advance? ==> ValidEnv(res.env)
    ensures res.Advance? ==> |res.rest| <= |buf| && res.rest == buf[|buf| - |res.rest|..]
    ensures res.Advance? ==> |res.rest| < |buf| || Rank(res.st) < Rank(st)
    ensures res.Advance? && StageOk(st) ==> StageOk(res.st)
  {
    match st
    case AwaitTag =>
      if |buf| < 1 then Suspend
      else (
        match AfterTag(buf[0], e)
        case Advance(st', _, e') => Advance(st', buf[1..], e')
        case Stop(err) => Stop(err)
        case Suspend => Suspend)
    case ShmNameLen =>
      if |buf| < 2 then Suspend
      else
        var len := FromLE16(buf[0], buf[1]);
        if len >= NAME_MAX then Stop(ShmNameTooLong(len))
        else Advance(ShmNameBody(len), buf[2..], e)
    case ShmNameBody(len) =>
      if |buf| < len then Suspend
      else Advance(AwaitTag, buf[len..], SetShmName(e, buf[..len]))
    case KeyCode =>
      if |buf| < 1 then Suspend
      else Advance(KeyPressed(buf[0]), buf[1..], e)
    case KeyPressed(key) =>
      if |buf| < 1 then Suspend
      else Advance(AwaitTag, buf[1..], PressKey(e, key, buf[0]))
    case ConfigNameLen =>
      if |buf| < 2 then Suspend
      else
        var len := FromLE16(buf[0], buf[1]);
        if len >= CONFIG_NAME_SIZE then Stop(ConfigNameTooLong(len))
        else Advance(ConfigNameBody(len), buf[2..], e)
    case ConfigNameBody(len) =>
      if |buf| < len then Suspend
      else Advance(ConfigValueLen(buf[..len]), buf[len..], e)
    case ConfigValueLen(name) =>
      if |buf| < 2 then Suspend
      else
        var len := FromLE16(buf[0], buf[1]);
        if len >= CONFIG_VALUE_SIZE then Stop(ConfigValueTooLong(len))
        else Advance(ConfigValueBody(name, len), buf[2..], e)
    case ConfigValueBody(name, len) =>
      if |buf| < len then Suspend
      else Advance(AwaitTag, buf[len..], SetConfig(e, name, buf[..len]))
  }

  /** Decoder state that survives between calls: the stage, the unread bytes and the effects so far. */
  datatype Snapshot = Snapshot(st: Stage, pending: seq<byte>, env: Env)

  /** Runs stages until one suspends (or a fatal error), as the outer `while (true)` does. */
  function Handle(st: Stage, buf: seq<byte>, e: Env): (res: Result<Snapshot, DecodeError>)
    requires ValidEnv(e)
    ensures res.Ok? ==> ValidEnv(res.value.env)
    ensures res.Ok? ==> Step(res.value.st, res.value.pending, res.value.env).Suspend?
    decreases |buf|, Rank(st)
  {
    match Step(st, buf, e)
    case Suspend => Ok(Snapshot(st, buf, e))
    case Stop(err) => Fatal(err)
    case Advance(st', rest, e') => Handle(st', rest, e')
  }

  /**
   * A suspended decoder holds fewer than NAME_MAX bytes: the longest field it
   * can wait for is a frame name of at most 254 bytes. So the receive ring,
   * which holds 511, never fills up with an incomplete message.
   */
  lemma SuspendedBound(st: Stage, buf: seq<byte>, e: Env)
    requires ValidEnv(e) && StageOk(st) && Step(st, buf, e).Suspend?
    ensures |buf| < NAME_MAX
  {
  }

  /** Handling keeps the stage invariant and leaves a suffix of its input unread. */
  lemma {:induction false} HandleKeeps(st: Stage, buf: seq<byte>, e: Env)
    requires ValidEnv(e) && StageOk(st)
    ensures var res := Handle(st, buf, e);
      res.Ok? ==> (StageOk(res.value.st) && |res.value.pending| <= |buf|
                   && res.value.pending == buf[|buf| - |res.value.pending|..])
    decreases |buf|, Rank(st)
  {
    match Step(st, buf, e)
    case Suspend =>
    case Stop(_) =>
    case Advance(st', rest, e') =>
      HandleKeeps(st', rest, e');
  }

  /** Continues a decoding run after more bytes arrive. */
  function Resume(res: Result<Snapshot, DecodeError>, more: seq<byte>): (res': Result<Snapshot, DecodeError>)
    requires res.Ok? ==> ValidEnv(res.value.env)
    ensures res'.Ok? ==> ValidEnv(res'.value.env)
    ensures res.Fatal? ==> res' == res
  {
    match res
    case Fatal(err) => Fatal(err)
    case Ok(Snapshot(st, pending, e)) => Handle(st, pending + more, e)
  }

  /** A stage that completed on some bytes completes identically when more bytes follow. */
  predicate Extends(st: Stage, buf: seq<byte>, more: seq<byte>, e: Env)
    requires ValidEnv(e)
  {
    var r := Step(st, buf, e);
    && (r.Advance? ==> Step(st, buf + more, e) == Advance(r.st, r.rest + more, r.env))
    && (r.Stop? ==> Step(st, buf + more, e) == r)
  }

  lemma StepExtend(st: Stage, buf: seq<byte>, more: seq<byte>, e: Env)
    requires ValidEnv(e)
    ensures Step(st, buf, e).Advance? ==>
      Step(st, buf + more, e) == Advance(Step(st, buf, e).st, Step(st, buf, e).rest + more, Step(st, buf, e).env)
    ensures Step(st, buf, e).Stop? ==> Step(st, buf + more, e) == Step(st, buf, e)
  {
    match st
    case AwaitTag => ExtendTag(buf, more, e);
    case KeyCode => ExtendKey(st, buf, more, e);
    case KeyPressed(_) => ExtendKey(st, buf, more, e);
    case ShmNameLen => ExtendLength(st, buf, more, e);
    case ConfigNameLen => ExtendLength(st, buf, more, e);
    case ConfigValueLen(_) => ExtendLength(st, buf, more, e);
    case ShmNameBody(len) => ExtendBody(st, buf, more, e);
    case ConfigNameBody(len) => ExtendBody(st, buf, more, e);
    case ConfigValueBody(_, len) => ExtendBody(st, buf, more, e);
  }

  lemma ExtendTag(buf: seq<byte>, more: seq<byte>, e: Env)
    requires ValidEnv(e)
    ensures Extends(AwaitTag, buf, more, e)
  {
    if |buf| >= 1 { Extended(buf, more, 1); }
  }

  lemma ExtendKey(st: Stage, buf: seq<byte>, more: seq<byte>, e: Env)
    requires ValidEnv(e) && (st.KeyCode? || st.KeyPressed?)
    ensures Extends(st, buf, more, e)
  {
    if |buf| >= 1 { Extended(buf, more, 1); }
  }

  lemma ExtendLength(st: Stage, buf: seq<byte>, more: seq<byte>, e: Env)
    requires ValidEnv(e) && (st.ShmNameLen? || st.ConfigNameLen? || st.ConfigValueLen?)
    ensures Extends(st, buf, more, e)
  {
    if |buf| >= 2 { Extended(buf, more, 2); }
  }

  lemma ExtendBody(st: Stage, buf: seq<byte>, more: seq<byte>, e: Env)
    requires ValidEnv(e) && (st.ShmNameBody? || st.ConfigNameBody? || st.ConfigValueBody?)
    ensures Extends(st, buf, more, e)
  {
    if |buf| >= st.len { Extended(buf, more, st.len); }
  }

  /** The first `n` bytes of a buffer are unchanged by appending more, and the rest gains them. */
  lemma Extended(buf: seq<byte>, more: seq<byte>, n: nat)
    requires n <= |buf|
    ensures (buf + more)[..n] == buf[..n] && (buf + more)[n..] == buf[n..] + more
  {
  }

  /**
   * Resumability: decoding `buf` and then, after a suspension, the leftover
   * bytes with `more` appended, gives exactly what decoding `buf + more` in
   * one call gives.
   */
  lemma {:induction false} HandleSplit(st: Stage, buf: seq<byte>, more: seq<byte>, e: Env)
    requires ValidEnv(e)
    ensures Handle(st, buf + more, e) == Resume(Handle(st, buf, e), more)
    decreases |buf|, Rank(st)
  {
    StepExtend(st, buf, more, e);
    match Step(st, buf, e)
    case Suspend =>
    case Stop(_) =>
    case Advance(st', rest, e') =>
      HandleSplit(st', rest, more, e');
  }

  function Concat(chunks: seq<seq<byte>>): seq<byte> {
    if chunks == [] then [] else chunks[0] + Concat(chunks[1..])
  }

  /** Feeds the chunks one receive call at a time, decoding after each. */
  function FeedChunks(res: Result<Snapshot, DecodeError>, chunks: seq<seq<byte>>): (res': Result<Snapshot, DecodeError>)
    requires res.Ok? ==> ValidEnv(res.value.env)
    ensures res'.Ok? ==> ValidEnv(res'.value.env)
    decreases |chunks|
  {
    if chunks == [] then res
    else FeedChunks(Resume(res, chunks[0]), chunks[1..])
  }

  /**
   * However the bytes are split across receive calls, the decoder ends in the
   * same state with the same effects, in the same order, as when all bytes
   * arrive in one burst.
   */
  lemma {:induction false} ChunkingIrrelevant(st: Stage, pending: seq<byte>, e: Env, chunks: seq<seq<byte>>)
    requires ValidEnv(e)
    ensures FeedChunks(Handle(st, pending, e), chunks) == Handle(st, pending + Concat(chunks), e)
    decreases |chunks|
  {
    if chunks == [] {
      assert pending + Concat(chunks) == pending;
    } else {
      var h0 := Handle(st, pending, e);
      var h1 := Handle(st, pending + chunks[0], e);
      HandleSplit(st, pending, chunks[0], e);
      assert FeedChunks(h0, chunks) == FeedChunks(h1, chunks[1..]);
      ChunkingIrrelevant(st, pending + chunks[0], e, chunks[1..]);
      ConcatFirst(pending, chunks);
    }
  }

  lemma ConcatFirst(pending: seq<byte>, chunks: seq<seq<byte>>)
    requires chunks != []
    ensures pending + Concat(chunks) == (pending + chunks[0]) + Concat(chunks[1..])
  {
  }

  /** A decoder at a suspension point stays put when handled again without new bytes. */
  lemma SuspendedIsFixed(s: Snapshot)
    requires ValidEnv(s.env) && Step(s.st, s.pending, s.env).Suspend?
    ensures Handle(s.st, s.pending, s.env) == Ok(s)
  {
  }

  // ----- The client side of the protocol, as the partner of the decoder -----

  /** An inbound message as the client means it. */
  datatype ClientMsg =
    | WantFrameMsg
    | SetFrameShmNameMsg(name: seq<byte>)
    | PressKeyMsg(key: byte, pressed: byte)
    | SetConfigVarMsg(name: seq<byte>, value: seq<byte>)

  /** The bounds the decoder accepts. */
  predicate Acceptable(m: ClientMsg) {
    match m
    case SetFrameShmNameMsg(name) => |name| < NAME_MAX
    case SetConfigVarMsg(name, value) => |name| < CONFIG_NAME_SIZE && |value| < CONFIG_VALUE_SIZE
    case _ => true
  }

  /** Wire bytes of an inbound message: tag, then the payload (strings are u16 length + bytes). */
  function EncodeClient(m: ClientMsg): seq<byte>
    requires Acceptable(m)
  {
    match m
    case WantFrameMsg => [TAG_WANT_FRAME]
    case SetFrameShmNameMsg(name) => [TAG_SET_FRAME_SHM_NAME] + LE16(|name|) + name
    case PressKeyMsg(key, pressed) => [TAG_PRESS_KEY, key, pressed]
    case SetConfigVarMsg(name, value) =>
      [TAG_SET_CONFIG_VAR] + LE16(|name|) + name + LE16(|value|) + value
  }

  /** The effect a message is meant to have. */
  function Apply(e: Env, m: ClientMsg): (e': Env)
    requires ValidEnv(e)
    ensures ValidEnv(e')
    ensures |e'.log| == |e.log| + 1 && e'.log[..|e.log|] == e.log
  {
    match m
    case WantFrameMsg => WantFrame(e)
    case SetFrameShmNameMsg(name) => SetShmName(e, name)
    case PressKeyMsg(key, pressed) => PressKey(e, key, pressed)
    case SetConfigVarMsg(name, value) => SetConfig(e, name, value)
  }

  predicate AllAcceptable(ms: seq<ClientMsg>) {
    forall i :: 0 <= i < |ms| ==> Acceptable(ms[i])
  }

  function EncodeAll(ms: seq<ClientMsg>): seq<byte>
    requires AllAcceptable(ms)
  {
    if ms == [] then [] else EncodeClient(ms[0]) + EncodeAll(ms[1..])
  }

  function ApplyAll(e: Env, ms: seq<ClientMsg>): (e': Env)
    requires ValidEnv(e)
    ensures ValidEnv(e')
    ensures |e'.log| == |e.log| + |ms|
    decreases |ms|
  {
    if ms == [] then e else ApplyAll(Apply(e, ms[0]), ms[1..])
  }

  /** Handling continues from wherever a completed stage leaves off. */
  lemma HandleAdvance(st: Stage, buf: seq<byte>, e: Env, st': Stage, rest: seq<byte>, e': Env)
    requires ValidEnv(e) && Step(st, buf, e) == Advance(st', rest, e')
    ensures ValidEnv(e')
    ensures Handle(st, buf, e) == Handle(st', rest, e')
  {
  }

  /** Handling ends with the error of a stage that fails. */
  lemma HandleStop(st: Stage, buf: seq<byte>, e: Env, err: DecodeError)
    requires ValidEnv(e) && Step(st, buf, e) == Stop(err)
    ensures Handle(st, buf, e) == Fatal(err)
  {
  }

  /** The u16 length at the front of `LE16(n) + tail` reads back as n, leaving the tail. */
  lemma LengthPrefix(n: nat, tail: seq<byte>)
    requires n < U16_LIMIT
    ensures var b := LE16(n) + tail; |b| >= 2 && FromLE16(b[0], b[1]) == n && b[2..] == tail
  {
    var b := LE16(n) + tail;
    assert b[0] == LE16(n)[0] && b[1] == LE16(n)[1];
    assert b[2..] == tail;
  }

  /** A counted body at the front of `body + tail` is read as `body`, leaving the tail. */
  lemma CountedBody(body: seq<byte>, tail: seq<byte>)
    ensures (body + tail)[..|body|] == body && (body + tail)[|body|..] == tail
  {
  }

  lemma DecodeShmName(name: seq<byte>, more: seq<byte>, e: Env)
    requires ValidEnv(e) && |name| < NAME_MAX
    ensures Handle(AwaitTag, EncodeClient(SetFrameShmNameMsg(name)) + more, e)
      == Handle(AwaitTag, more, SetShmName(e, name))
  {
    var b := EncodeClient(SetFrameShmNameMsg(name)) + more;
    var b1 := LE16(|name|) + (name + more);
    assert b[0] == TAG_SET_FRAME_SHM_NAME && b[1..] == b1;
    HandleAdvance(AwaitTag, b, e, ShmNameLen, b1, e);
    LengthPrefix(|name|, name + more);
    HandleAdvance(ShmNameLen, b1, e, ShmNameBody(|name|), name + more, e);
    CountedBody(name, more);
    HandleAdvance(ShmNameBody(|name|), name + more, e, AwaitTag, more, SetShmName(e, name));
  }

  lemma DecodePressKey(key: byte, pressed: byte, more: seq<byte>, e: Env)
    requires ValidEnv(e)
    ensures Handle(AwaitTag, EncodeClient(PressKeyMsg(key, pressed)) + more, e)
      == Handle(AwaitTag, more, PressKey(e, key, pressed))
  {
    var b := EncodeClient(PressKeyMsg(key, pressed)) + more;
    PressKeyBytes(key, pressed, more);
    HandleAdvance(AwaitTag, b, e, KeyCode, [key, pressed] + more, e);
    HandleAdvance(KeyCode, [key, pressed] + more, e, KeyPressed(key), [pressed] + more, e);
    HandleAdvance(KeyPressed(key), [pressed] + more, e, AwaitTag, more, PressKey(e, key, pressed));
  }

  /** The bytes of a press-key message, one at a time from the front. */
  lemma PressKeyBytes(key: byte, pressed: byte, more: seq<byte>)
    ensures var b := EncodeClient(PressKeyMsg(key, pressed)) + more;
      && b[0] == TAG_PRESS_KEY && b[1..] == [key, pressed] + more
      && ([key, pressed] + more)[0] == key && ([key, pressed] + more)[1..] == [pressed] + more
      && ([pressed] + more)[0] == pressed && ([pressed] + more)[1..] == more
  {
  }

  /** The value half of a config message: its length, then its bytes. */
  lemma DecodeConfigValue(name: seq<byte>, value: seq<byte>, more: seq<byte>, e: Env)
    requires ValidEnv(e) && |value| < CONFIG_VALUE_SIZE
    ensures Handle(ConfigValueLen(name), LE16(|value|) + (value + more), e)
      == Handle(AwaitTag, more, SetConfig(e, name, value))
  {
    var b3 := LE16(|value|) + (value + more);
    LengthPrefix(|value|, value + more);
    HandleAdvance(ConfigValueLen(name), b3, e, ConfigValueBody(name, |value|), value + more, e);
    CountedBody(value, more);
    HandleAdvance(ConfigValueBody(name, |value|), value + more, e, AwaitTag, more, SetConfig(e, name, value));
  }

  /** The name half of a config message: the tag, the name's length, then its bytes. */
  lemma DecodeConfigName(name: seq<byte>, tail: seq<byte>, e: Env)
    requires ValidEnv(e) && |name| < CONFIG_NAME_SIZE
    ensures Handle(AwaitTag, [TAG_SET_CONFIG_VAR] + LE16(|name|) + name + tail, e)
      == Handle(ConfigValueLen(name), tail, e)
  {
    var b := [TAG_SET_CONFIG_VAR] + LE16(|name|) + name + tail;
    var b2 := name + tail;
    var b1 := LE16(|name|) + b2;
    TagFirst(TAG_SET_CONFIG_VAR, LE16(|name|), name, tail);
    HandleAdvance(AwaitTag, b, e, ConfigNameLen, b1, e);
    LengthPrefix(|name|, b2);
    HandleAdvance(ConfigNameLen, b1, e, ConfigNameBody(|name|), b2, e);
    CountedBody(name, tail);
    HandleAdvance(ConfigNameBody(|name|), b2, e, ConfigValueLen(name), tail, e);
  }

  lemma TagFirst(tag: byte, a: seq<byte>, b: seq<byte>, c: seq<byte>)
    ensures ([tag] + a + b + c)[0] == tag && ([tag] + a + b + c)[1..] == a + (b + c)
  {
    assert [tag] + a + b + c == [tag] + (a + (b + c));
  }

  lemma DecodeConfig(name: seq<byte>, value: seq<byte>, more: seq<byte>, e: Env)
    requires ValidEnv(e) && |name| < CONFIG_NAME_SIZE && |value| < CONFIG_VALUE_SIZE
    ensures Handle(AwaitTag, EncodeClient(SetConfigVarMsg(name, value)) + more, e)
      == Handle(AwaitTag, more, SetConfig(e, name, value))
  {
    var tail := LE16(|value|) + (value + more);
    assert EncodeClient(SetConfigVarMsg(name, value)) + more
      == [TAG_SET_CONFIG_VAR] + LE16(|name|) + name + tail;
    DecodeConfigName(name, tail, e);
    DecodeConfigValue(name, value, more, e);
  }

  /** One encoded message, followed by anything, is decoded to exactly its effect. */
  lemma DecodeOne(m: ClientMsg, more: seq<byte>, e: Env)
    requires ValidEnv(e) && Acceptable(m)
    ensures Handle(AwaitTag, EncodeClient(m) + more, e) == Handle(AwaitTag, more, Apply(e, m))
  {
    match m
    case WantFrameMsg =>
      var b := EncodeClient(m) + more;
      assert b[0] == TAG_WANT_FRAME && b[1..] == more;
      HandleAdvance(AwaitTag, b, e, AwaitTag, more, WantFrame(e));
    case PressKeyMsg(key, pressed) => DecodePressKey(key, pressed, more, e);
    case SetFrameShmNameMsg(name) => DecodeShmName(name, more, e);
    case SetConfigVarMsg(name, value) => DecodeConfig(name, value, more, e);
  }

  /**
   * Round trip with the client: a well-formed stream of messages is decoded to
   * exactly one effect per message, in order, and the decoder ends idle with
   * nothing left over.
   */
  lemma {:induction false} DecodeEncoded(ms: seq<ClientMsg>, e: Env)
    requires ValidEnv(e) && AllAcceptable(ms)
    ensures Handle(AwaitTag, EncodeAll(ms), e) == Ok(Snapshot(AwaitTag, [], ApplyAll(e, ms)))
    decreases |ms|
  {
    if ms != [] {
      DecodeOne(ms[0], EncodeAll(ms[1..]), e);
      DecodeEncoded(ms[1..], Apply(e, ms[0]));
    }
  }

  /** An unknown tag is fatal at once; nothing after it is looked at. */
  lemma UnknownTagFatal(tag: byte, more: seq<byte>, e: Env)
    requires ValidEnv(e) && tag > TAG_SET_CONFIG_VAR
    ensures Handle(AwaitTag, [tag] + more, e) == Fatal(UnknownTag(tag))
  {
    assert ([tag] + more)[0] == tag;
  }

  /** A frame-name length of NAME_MAX or more is fatal as soon as the length is read. */
  lemma LongShmNameFatal(len: nat, more: seq<byte>, e: Env)
    requires ValidEnv(e) && NAME_MAX <= len < U16_LIMIT
    ensures Handle(AwaitTag, [TAG_SET_FRAME_SHM_NAME] + LE16(len) + more, e) == Fatal(ShmNameTooLong(len))
  {
    var b := [TAG_SET_FRAME_SHM_NAME] + LE16(len) + more;
    assert b[0] == TAG_SET_FRAME_SHM_NAME && b[1..] == LE16(len) + more;
    HandleAdvance(AwaitTag, b, e, ShmNameLen, LE16(len) + more, e);
    LengthPrefix(len, more);
  }

  /** A config name of 64 bytes or more is fatal as soon as its length is read. */
  lemma LongConfigNameFatal(len: nat, more: seq<byte>, e: Env)
    requires ValidEnv(e) && CONFIG_NAME_SIZE <= len < U16_LIMIT
    ensures Handle(AwaitTag, [TAG_SET_CONFIG_VAR] + LE16(len) + more, e) == Fatal(ConfigNameTooLong(len))
  {
    var b := [TAG_SET_CONFIG_VAR] + LE16(len) + more;
    assert b[0] == TAG_SET_CONFIG_VAR && b[1..] == LE16(len) + more;
    HandleAdvance(AwaitTag, b, e, ConfigNameLen, LE16(len) + more, e);
    LengthPrefix(len, more);
  }

  /** With an acceptable name, a config value of 128 bytes or more is fatal once its length is read. */
  lemma ValueLenTooLong(name: seq<byte>, buf: seq<byte>, e: Env)
    requires ValidEnv(e) && |buf| >= 2 && FromLE16(buf[0], buf[1]) >= CONFIG_VALUE_SIZE
    ensures Handle(ConfigValueLen(name), buf, e) == Fatal(ConfigValueTooLong(FromLE16(buf[0], buf[1])))
  {
  }

  lemma LongConfigValueFatal(name: seq<byte>, vlen: nat, more: seq<byte>, e: Env)
    requires ValidEnv(e) && |name| < CONFIG_NAME_SIZE && CONFIG_VALUE_SIZE <= vlen < U16_LIMIT
    ensures Handle(AwaitTag, [TAG_SET_CONFIG_VAR] + LE16(|name|) + name + (LE16(vlen) + more), e)
      == Fatal(ConfigValueTooLong(vlen))
  {
    var tail := LE16(vlen) + more;
    DecodeConfigName(name, tail, e);
    LengthPrefix(vlen, more);
    ValueLenTooLong(name, tail, e);
  }

  /**
   * The round trip survives any split of the stream into receive calls: a
   * well-formed stream fed in arbitrary chunks, down to one byte at a time,
   * yields one effect per message, in order, and leaves the decoder idle.
   */
  lemma StreamedRoundTrip(ms: seq<ClientMsg>, chunks: seq<seq<byte>>, e: Env)
    requires ValidEnv(e) && AllAcceptable(ms) && Concat(chunks) == EncodeAll(ms)
    ensures FeedChunks(Handle(AwaitTag, [], e), chunks) == Ok(Snapshot(AwaitTag, [], ApplyAll(e, ms)))
  {
    ChunkingIrrelevant(AwaitTag, [], e, chunks);
    assert [] + Concat(chunks) == EncodeAll(ms);
    DecodeEncoded(ms, e);
  }

  /**
   * Back-pressure of the key ring: of two key events arriving with L bytes
   * queued, both are kept when L + 4 fits, exactly the first when only L + 2
   * fits, and neither otherwise; the ring is never overrun.
   */
  lemma TwoKeysBackpressure(e: Env, k1: byte, p1: byte, k2: byte, p2: byte)
    requires ValidEnv(e)
    ensures var e' := ApplyAll(e, [PressKeyMsg(k1, p1), PressKeyMsg(k2, p2)]);
      var l := |Ring.Contents(e.keys)|;
      && (l + 4 <= Ring.CAP ==>
            (e'.log == e.log + [KeyQueued(k1, p1), KeyQueued(k2, p2)]
             && Ring.Contents(e'.keys) == Ring.Contents(e.keys) + [k1, p1, k2, p2]))
      && (l + 2 <= Ring.CAP < l + 4 ==>
            (e'.log == e.log + [KeyQueued(k1, p1), KeyDropped(k2, p2)]
             && Ring.Contents(e'.keys) == Ring.Contents(e.keys) + [k1, p1]))
      && (Ring.CAP < l + 2 ==>
            (e'.log == e.log + [KeyDropped(k1, p1), KeyDropped(k2, p2)] && e'.keys == e.keys))
  {
    var ms := [PressKeyMsg(k1, p1), PressKeyMsg(k2, p2)];
    assert ms[1..] == [PressKeyMsg(k2, p2)];
    assert ms[1..][1..] == [];
    var e1 := Apply(e, ms[0]);
    var e2 := Apply(e1, PressKeyMsg(k2, p2));
    assert ApplyAll(e1, ms[1..]) == ApplyAll(e2, []) == e2;
    assert ApplyAll(e, ms) == e2;
    var l := |Ring.Contents(e.keys)|;
    if l + 2 <= Ring.CAP {
      assert |Ring.Contents(e1.keys)| == l + 2;
    }
  }

  // ----- The decoder as the code runs it, on the receive ring -----

  /** One stage of `Comm_HandleReceivedMsgs`, reading through the ring primitives. */
  function RingStep(st: Stage, r: Ring.Ring, e: Env): (res: StepResult<Ring.Ring>)
    requires Ring.Valid(r) && ValidEnv(e)
    ensures res.Advance? ==> Ring.Valid(res.rest)
  {
    match st
    case AwaitTag =>
      (match Ring.Read8(r)
       case None => Suspend
       case Some((tag, r')) =>
         match AfterTag(tag, e)
         case Advance(st', _, e') => Advance(st', r', e')
         case Stop(err) => Stop(err)
         case Suspend => Suspend)
    case ShmNameLen =>
      (match Ring.Read16(r)
       case None => Suspend
       case Some((len, r')) =>
         if len >= NAME_MAX then Stop(ShmNameTooLong(len)) else Advance(ShmNameBody(len), r', e))
    case ShmNameBody(len) =>
      (match Ring.ReadBytes(r, len)
       case None => Suspend
       case Some((name, r')) => Advance(AwaitTag, r', SetShmName(e, name)))
    case KeyCode =>
      (match Ring.Read8(r)
       case None => Suspend
       case Some((key, r')) => Advance(KeyPressed(key), r', e))
    case KeyPressed(key) =>
      (match Ring.Read8(r)
       case None => Suspend
       case Some((pressed, r')) => Advance(AwaitTag, r', PressKey(e, key, pressed)))
    case ConfigNameLen =>
      (match Ring.Read16(r)
       case None => Suspend
       case Some((len, r')) =>
         if len >= CONFIG_NAME_SIZE then Stop(ConfigNameTooLong(len)) else Advance(ConfigNameBody(len), r', e))
    case ConfigNameBody(len) =>
      (match Ring.ReadBytes(r, len)
       case None => Suspend
       case Some((name, r')) => Advance(ConfigValueLen(name), r', e))
    case ConfigValueLen(name) =>
      (match Ring.Read16(r)
       case None => Suspend
       case Some((len, r')) =>
         if len >= CONFIG_VALUE_SIZE then Stop(ConfigValueTooLong(len)) else Advance(ConfigValueBody(name, len), r', e))
    case ConfigValueBody(name, len) =>
      (match Ring.ReadBytes(r, len)
       case None => Suspend
       case Some((value, r')) => Advance(AwaitTag, r', SetConfig(e, name, value)))
  }

  /** A ring stage does what the sequence stage does to the ring's contents. */
  lemma RingStepRefines(st: Stage, r: Ring.Ring, e: Env)
    requires Ring.Valid(r) && ValidEnv(e)
    ensures var a := Step(st, Ring.Contents(r), e);
      match RingStep(st, r, e)
      case Suspend => a.Suspend?
      case Stop(err) => a == Stop(err)
      case Advance(st', r', e') => a == Advance(st', Ring.Contents(r'), e')
  {
  }

  datatype RingSnapshot = RingSnapshot(st: Stage, ring: Ring.Ring, env: Env)

  /** `Comm_HandleReceivedMsgs` on the receive ring. */
  function RingHandle(st: Stage, r: Ring.Ring, e: Env): (res: Result<RingSnapshot, DecodeError>)
    requires Ring.Valid(r) && ValidEnv(e)
    ensures res.Ok? ==> Ring.Valid(res.value.ring) && ValidEnv(res.value.env)
    ensures match Handle(st, Ring.Contents(r), e)
      case Fatal(err) => res == Fatal(err)
      case Ok(s) =>
        (res.Ok? && res.value.st == s.st && res.value.env == s.env
         && Ring.Contents(res.value.ring) == s.pending)
    decreases |Ring.Contents(r)|, Rank(st)
  {
    RingStepRefines(st, r, e);
    match RingStep(st, r, e)
    case Suspend => Ok(RingSnapshot(st, r, e))
    case Stop(err) => Fatal(err)
    case Advance(st', r', e') => RingHandle(st', r', e')
  }

  /**
   * The sign-extension slip of `Ring_Read16` (see Ring.Read16AsWritten) on the
   * frame-name length: every name of 128 to 254 bytes, which fits the buffer,
   * would be rejected as too long.
   */
  lemma ShmNameLengthAsWritten(len: nat)
    requires 0x80 <= len < NAME_MAX
    ensures FromLE16(LE16(len)[0], LE16(len)[1]) < NAME_MAX
    ensures Ring.SignedCharLE16(LE16(len)[0], LE16(len)[1]) >= NAME_MAX
  {
  }
}

=== FILE: frame.dfy ===
/** Frame delivery: inline frames, shared-memory notices and detached UI bits. */
module Frames {
  import opened Bytes
  import opened Wrappers
  import opened SendBuffer
  import opened WireRead
  import opened OutMsg
  import Screen

  // ----- Frames -----

  /**
   * Frame-related host state: the shared-memory name (empty when frames go
   * inline), `screenvisible`, `enabled_dui_types`, and the contents last
   * published through shared memory.
   */
  datatype FrameState = FrameState(shmName: seq<byte>, screenVisible: bool, duiBits: bv8, shmFrame: seq<byte>)

  /** The name is stored NUL-terminated, so a leading NUL byte reads as no name. */
  predicate NoShmName(name: seq<byte>) {
    |name| == 0 || name[0] == 0
  }

  /** `DG_DrawDetachedUI`: sets the bit for one detached UI element, leaving the others. */
  function DrawDetachedUI(bits: bv8, ui: nat): (r: bv8)
    requires ui < 8
    ensures Bit(r, ui)
    ensures forall j :: 0 <= j < 8 && j != ui ==> (Bit(r, j) <==> Bit(bits, j))
  {
    bits | (1 << ui)
  }

  /** AMSG_FRAME: tag, the whole RGB frame, then the detached-UI bits. */
  function FrameMsg(pixels: seq<byte>, dui: bv8): (fs: seq<Field>)
    ensures Encodable(fs)
    ensures Encode(fs) == [AMSG_FRAME] + pixels + [dui as int]
  {
    Encode3(U8(AMSG_FRAME), Raw(pixels), U8(dui as int));
    [U8(AMSG_FRAME), Raw(pixels), U8(dui as int)]
  }

  /**
   * `DG_DrawFrame`: inline when there is no shared-memory name, otherwise the
   * frame is published through shared memory and only a ready notice is sent.
   * Either way the frame request and the detached-UI bits are cleared.
   */
  method DrawFrame(s: Sender, fr: FrameState, pixels: seq<byte>) returns (res: Result<(Sender, FrameState), SendError>)
    requires Valid(s) && |pixels| == Screen.SCREEN_BUF_SIZE
    ensures res.Fatal? <==> s.writing
    ensures res.Ok? ==> Valid(res.value.0) && !res.value.0.writing
    ensures res.Ok? ==> !res.value.1.screenVisible && res.value.1.duiBits == 0 && res.value.1.shmName == fr.shmName
    ensures res.Ok? && NoShmName(fr.shmName) ==>
      Wire(res.value.0) == Wire(s) + [AMSG_FRAME] + pixels + [fr.duiBits as int]
      && res.value.1.shmFrame == fr.shmFrame
    ensures res.Ok? && !NoShmName(fr.shmName) ==>
      Wire(res.value.0) == Wire(s) + [AMSG_FRAME_SHM_READY] && res.value.1.shmFrame == pixels
  {
    var fr' := fr;
    var fs: seq<Field>;
    if NoShmName(fr.shmName) {
      fs := FrameMsg(pixels, fr.duiBits);
    } else {
      fr' := fr'.(shmFrame := pixels);
      fs := [U8(AMSG_FRAME_SHM_READY)];
      assert Encode(fs) == [AMSG_FRAME_SHM_READY];
    }
    var w := WriteMsg(s, fs);
    if w.Fatal? {
      return Fatal(w.error);
    }
    assert Wire(s) + ([AMSG_FRAME] + pixels + [fr.duiBits as int]) == Wire(s) + [AMSG_FRAME] + pixels + [fr.duiBits as int];
    return Ok((w.value, fr'.(screenVisible := false, duiBits := 0)));
  }

  /** An inline frame is read back by the client as its pixels and the UI bits. */
  lemma FrameRoundTrip(pixels: seq<byte>, dui: bv8)
    requires |pixels| == Screen.SCREEN_BUF_SIZE
    ensures |Encode(FrameMsg(pixels, dui))| == Screen.SCREEN_BUF_SIZE + 2
    ensures ReadMessage([KU8, KBytes(Screen.SCREEN_BUF_SIZE), KU8], Encode(FrameMsg(pixels, dui)))
      == Some([Num(AMSG_FRAME), Blob(pixels), Num(dui as int)])
  {
    var fs := FrameMsg(pixels, dui);
    ReadMessageEncoded(fs);
    ThreeFields(U8(AMSG_FRAME), Raw(pixels), U8(dui as int));
  }

  /** The kinds and values of a three-field message, field by field. */
  lemma ThreeFields(a: Field, b: Field, c: Field)
    ensures Kinds([a, b, c]) == [KindOf(a), KindOf(b), KindOf(c)]
    ensures Values([a, b, c]) == [ValueOf(a), ValueOf(b), ValueOf(c)]
  {
  }
}

=== FILE: input.dfy ===
/**
 * The input path: `DG_GetInput` pops (key, pressed) pairs from the key-event
 * ring filled by the decoder, and `I_GetEvent` turns them into engine events,
 * tracking the right shift key to produce typed characters.
 */
module Input {
  import opened Bytes
  import opened Wrappers
  import Ring
  import Decoder

  /** Value of `pressed` that marks the key byte as a mouse-button bitfield. */
  const PK_MOUSEBUTTONS: byte := 0xff
  /** KEY_RSHIFT from the engine's key table. */
  const KEY_RSHIFT: byte := 0xb6

  /** `input_t`: what `DG_GetInput` hands to the engine. */
  datatype InputEvent = KeyDown(key: byte) | KeyUp(key: byte) | MouseButtons(buttons: byte)

  predicate IsUpper(c: byte) { 'A' as int <= c <= 'Z' as int }
  predicate IsLower(c: byte) { 'a' as int <= c <= 'z' as int }

  /** ASCII-only lowering, without locale. */
  function ToLower(k: byte): (r: byte)
    ensures IsUpper(k) ==> IsLower(r) && r == k + 32
    ensures !IsUpper(k) ==> r == k
    ensures !IsUpper(r)
  {
    if IsUpper(k) then k - 'A' as int + 'a' as int else k
  }

  /** The input one queued (key, pressed) pair stands for. */
  function Interpret(key: byte, pressed: byte): (ev: InputEvent)
    ensures pressed == PK_MOUSEBUTTONS <==> ev.MouseButtons?
    ensures ev.MouseButtons? ==> ev.buttons == key
    ensures ev.KeyDown? <==> pressed != 0 && pressed != PK_MOUSEBUTTONS
    ensures ev.KeyUp? <==> pressed == 0
    ensures !ev.MouseButtons? ==> ev.key == ToLower(key) && !IsUpper(ev.key)
  {
    if pressed == PK_MOUSEBUTTONS then MouseButtons(key)
    else if pressed != 0 then KeyDown(ToLower(key))
    else KeyUp(ToLower(key))
  }

  /** The inputs a sequence of queued pairs stands for, in queue order. */
  function Interpretations(c: seq<byte>): (evs: seq<InputEvent>)
    requires |c| % 2 == 0
    ensures |evs| == |c| / 2
    ensures forall i :: 0 <= i < |evs| ==> evs[i] == Interpret(c[2 * i], c[2 * i + 1])
  {
    if c == [] then [] else [Interpret(c[0], c[1])] + Interpretations(c[2..])
  }

  /**
   * `DG_GetInput`: nothing when the ring is empty; otherwise both bytes of the
   * oldest pair are taken. The queue only ever holds whole pairs.
   */
  function GetInput(keys: Ring.Ring): (res: Option<(InputEvent, Ring.Ring)>)
    requires Ring.Valid(keys) && |Ring.Contents(keys)| % 2 == 0
    ensures res.None? <==> Ring.Contents(keys) == []
    ensures res.Some? ==> Ring.Valid(res.value.1)
    ensures res.Some? ==> Ring.Contents(res.value.1) == Ring.Contents(keys)[2..]
    ensures res.Some? ==> res.value.0 == Interpretations(Ring.Contents(keys))[0]
  {
    match Ring.Read8(keys)
    case None => None
    case Some((key, k1)) =>
      match Ring.Read8(k1)
      case None => assert false; None
      case Some((pressed, k2)) => Some((Interpret(key, pressed), k2))
  }

  // ----- Shift translation (i_input.c) -----

  /** `shiftxform` positions 32 to 64: punctuation and digits with their shifted symbols. */
  const SHIFTED_SYMBOLS: seq<byte> := [
    ' ' as byte, '!' as byte, '"' as byte, '#' as byte, '$' as byte, '%' as byte, '&' as byte,
    '"' as byte,
    '(' as byte, ')' as byte, '*' as byte, '+' as byte,
    '<' as byte, '_' as byte, '>' as byte, '?' as byte,
    ')' as byte, '!' as byte, '@' as byte, '#' as byte, '$' as byte,
    '%' as byte, '^' as byte, '&' as byte, '*' as byte, '(' as byte,
    ':' as byte, ':' as byte, '<' as byte, '+' as byte,
    '>' as byte, '?' as byte, '@' as byte]

  /** `shiftxform` positions 91 to 96: brackets, backslash, caret, underscore, backquote. */
  const SHIFTED_BRACKETS: seq<byte> := ['[' as byte, '!' as byte, ']' as byte, '"' as byte, '_' as byte, '\'' as byte]

  /** `shiftxform` positions 123 to 127. */
  const SHIFTED_TAIL: seq<byte> := ['{' as byte, '|' as byte, '}' as byte, '~' as byte, 127]

  /** The 26 capital letters, in order. */
  function Capitals(): (c: seq<byte>)
    ensures |c| == 26 && forall i :: 0 <= i < 26 ==> c[i] == 'A' as int + i
  {
    seq(26, i requires 0 <= i < 26 => 'A' as int + i)
  }

  /** The codes below 32, each standing for itself. */
  function Controls(): (c: seq<byte>)
    ensures |c| == 32 && forall i :: 0 <= i < 32 ==> c[i] == i
  {
    seq(32, i requires 0 <= i < 32 => i)
  }

  /**
   * `shiftxform`: the character a key types with shift held, on a US layout,
   * for the 128 ASCII codes. Control codes and capitals map to themselves and
   * lower-case letters to capitals.
   */
  function ShiftXform(): (t: seq<byte>)
    ensures |t| == 128
    ensures forall i :: 0 <= i < 32 ==> t[i] == i
    ensures forall i :: 'A' as int <= i <= 'Z' as int ==> t[i] == i
    ensures forall i :: 'a' as int <= i <= 'z' as int ==> t[i] == i - 32
    ensures t[127] == 127
    ensures t[32..65] == SHIFTED_SYMBOLS && t[91..97] == SHIFTED_BRACKETS && t[123..128] == SHIFTED_TAIL
  {
    Pieces(Controls(), SHIFTED_SYMBOLS, Capitals(), SHIFTED_BRACKETS, Capitals(), SHIFTED_TAIL);
    Controls() + SHIFTED_SYMBOLS + Capitals() + SHIFTED_BRACKETS + Capitals() + SHIFTED_TAIL
  }

  /** Where each of six concatenated pieces sits. */
  lemma Pieces(a: seq<byte>, b: seq<byte>, c: seq<byte>, d: seq<byte>, e: seq<byte>, f: seq<byte>)
    ensures var t := a + b + c + d + e + f;
      var i1, i2, i3 := |a|, |a| + |b|, |a| + |b| + |c|;
      var i4, i5 := i3 + |d|, i3 + |d| + |e|;
      && t[..i1] == a && t[i1..i2] == b && t[i2..i3] == c
      && t[i3..i4] == d && t[i4..i5] == e && t[i5..] == f
  {
  }

  /** The US shifted punctuation and digits of the table. */
  lemma ShiftedSymbolsTable()
    ensures ShiftXform()[39] == '"' as byte
    ensures ShiftXform()[44..48] == ['<' as byte, '_' as byte, '>' as byte, '?' as byte]
    ensures ShiftXform()[48..58] == [')' as byte, '!' as byte, '@' as byte, '#' as byte, '$' as byte,
                                     '%' as byte, '^' as byte, '&' as byte, '*' as byte, '(' as byte]
    ensures ShiftXform()[59..62] == [':' as byte, '<' as byte, '+' as byte]
  {
    var t := ShiftXform();
    SliceOfSlice(t, 32, 65, 12, 16);
    SliceOfSlice(t, 32, 65, 16, 26);
    SliceOfSlice(t, 32, 65, 27, 30);
    assert t[39] == SHIFTED_SYMBOLS[7];
  }

  /** A slice of a slice is a slice of the whole. */
  lemma SliceOfSlice(t: seq<byte>, lo: int, hi: int, i: int, j: int)
    requires 0 <= lo <= hi <= |t| && 0 <= i <= j <= hi - lo
    ensures t[lo..hi][i..j] == t[lo + i..lo + j]
  {
    forall k | 0 <= k < j - i ensures t[lo..hi][i..j][k] == t[lo + i..lo + j][k] {
      assert t[lo..hi][i..j][k] == t[lo + i + k];
    }
  }

  /** `GetTypedChar`: the key itself, or its shifted character while shift is down. */
  function TypedChar(key: byte, shiftDown: int): (c: byte)
    ensures shiftDown <= 0 ==> c == key
    ensures shiftDown > 0 && key >= 128 ==> c == 0
    ensures shiftDown > 0 && IsLower(key) ==> IsUpper(c) && c == key - 32
    ensures shiftDown > 0 && IsUpper(key) ==> c == key
  {
    if shiftDown > 0 then (if key < |ShiftXform()| then ShiftXform()[key] else 0) else key
  }

  /** The shifted digits of the top row, as printed on a US keyboard. */
  lemma ShiftedDigits()
    ensures TypedChar('1' as byte, 1) == '!' as byte && TypedChar('2' as byte, 1) == '@' as byte
    ensures TypedChar('9' as byte, 1) == '(' as byte && TypedChar('0' as byte, 1) == ')' as byte
    ensures TypedChar('-' as byte, 1) == '_' as byte && TypedChar('=' as byte, 1) == '+' as byte
  {
  }

  /** Control characters are unchanged by shift; only printable keys are translated. */
  lemma ShiftKeepsControls(key: byte)
    requires key < 32 || key == 127
    ensures TypedChar(key, 1) == key
  {
  }

  /** `UpdateShiftStatus`: only the right shift key moves the count. */
  function UpdateShift(shiftDown: int, pressed: bool, key: byte): (s: int)
    ensures key != KEY_RSHIFT ==> s == shiftDown
    ensures key == KEY_RSHIFT && pressed ==> s == shiftDown + 1
    ensures key == KEY_RSHIFT && !pressed ==> s == shiftDown - 1
  {
    if key == KEY_RSHIFT then shiftDown + (if pressed then 1 else -1) else shiftDown
  }

  /** `event_t` as `I_GetEvent` posts it (a key-up carries data2 = 0, a mouse event data2 = data3 = 0). */
  datatype Event = EvKeyDown(data1: byte, data2: byte) | EvKeyUp(data1: byte) | EvMouse(data1: byte)

  /**
   * How one input becomes at most one posted event; key events with key 0 are
   * not posted. Returns the posted events (zero or one) and the new shift count.
   */
  function Translate(input: InputEvent, shiftDown: int): (res: (seq<Event>, int))
    ensures |res.0| <= 1
    ensures input.MouseButtons? ==> res == ([EvMouse(input.buttons)], shiftDown)
    ensures input.KeyDown? ==> res.1 == UpdateShift(shiftDown, true, input.key)
    ensures input.KeyUp? ==> res.1 == UpdateShift(shiftDown, false, input.key)
    ensures !input.MouseButtons? ==> (res.0 == [] <==> input.key == 0)
    ensures input.KeyDown? && input.key != 0 ==> res.0 == [EvKeyDown(input.key, TypedChar(input.key, res.1))]
    ensures input.KeyUp? && input.key != 0 ==> res.0 == [EvKeyUp(input.key)]
  {
    match input
    case MouseButtons(b) => ([EvMouse(b)], shiftDown)
    case KeyDown(k) =>
      var s := UpdateShift(shiftDown, true, k);
      (if k != 0 then [EvKeyDown(k, TypedChar(k, s))] else [], s)
    case KeyUp(k) =>
      var s := UpdateShift(shiftDown, false, k);
      (if k != 0 then [EvKeyUp(k)] else [], s)
  }

  /** The events a sequence of inputs produces, in order, and the final shift count. */
  function TranslateAll(inputs: seq<InputEvent>, shiftDown: int): (res: (seq<Event>, int))
    ensures |res.0| <= |inputs|
    decreases |inputs|
  {
    if inputs == [] then ([], shiftDown)
    else
      var (evs, s) := Translate(inputs[0], shiftDown);
      var (rest, s') := TranslateAll(inputs[1..], s);
      (evs + rest, s')
  }

  lemma {:induction false} TranslateAllAppend(inputs: seq<InputEvent>, last: InputEvent, shiftDown: int)
    ensures var (evs, s) := TranslateAll(inputs, shiftDown);
      TranslateAll(inputs + [last], shiftDown) == (evs + Translate(last, s).0, Translate(last, s).1)
    decreases |inputs|
  {
    if inputs == [] {
      assert [] + [last] == [last];
      assert [last][1..] == [];
      var (evs, s) := Translate(last, shiftDown);
      assert TranslateAll([last], shiftDown) == (evs + [], s);
      assert evs + [] == [] + evs;
    } else {
      assert (inputs + [last])[0] == inputs[0];
      assert (inputs + [last])[1..] == inputs[1..] + [last];
      var (evs0, s0) := Translate(inputs[0], shiftDown);
      TranslateAllAppend(inputs[1..], last, s0);
      var (evs1, s1) := TranslateAll(inputs[1..], s0);
      assert TranslateAll(inputs, shiftDown) == (evs0 + evs1, s1);
      assert TranslateAll(inputs + [last], shiftDown)
        == (evs0 + (evs1 + Translate(last, s1).0), Translate(last, s1).1);
      assert evs0 + (evs1 + Translate(last, s1).0) == (evs0 + evs1) + Translate(last, s1).0;
    }
  }

  /**
   * `I_GetEvent`: drains the key ring through `DG_GetInput`, posting the
   * translated events in queue order, and leaves the ring empty.
   */
  method GetEvents(keys: Ring.Ring, shiftDown: int) returns (posted: seq<Event>, keys': Ring.Ring, shiftDown': int)
    requires Ring.Valid(keys) && |Ring.Contents(keys)| % 2 == 0
    ensures Ring.Valid(keys') && Ring.Contents(keys') == []
    ensures (posted, shiftDown') == TranslateAll(Interpretations(Ring.Contents(keys)), shiftDown)
    ensures |posted| <= |Ring.Contents(keys)| / 2
  {
    var all := Interpretations(Ring.Contents(keys));
    posted, keys', shiftDown' := [], keys, shiftDown;
    ghost var done := 0;
    while true
      invariant Ring.Valid(keys') && |Ring.Contents(keys')| % 2 == 0
      invariant 0 <= done <= |all| && Ring.Contents(keys') == Ring.Contents(keys)[2 * done..]
      invariant (posted, shiftDown') == TranslateAll(all[..done], shiftDown)
      decreases |Ring.Contents(keys')|
    {
      var next := GetInput(keys');
      if next.None? {
        break;
      }
      var (input, k) := next.value;
      DrainStep(Ring.Contents(keys), done);
      TranslateAllAppend(all[..done], input, shiftDown);
      var (evs, s) := Translate(input, shiftDown');
      posted, shiftDown', keys' := posted + evs, s, k;
      done := done + 1;
    }
    assert all[..done] == all;
  }

  /** Draining one more pair past the first `done` reads the next interpretation. */
  lemma DrainStep(c: seq<byte>, done: nat)
    requires |c| % 2 == 0 && 2 * done < |c|
    ensures |c[2 * done..]| % 2 == 0 && c[2 * done..][2..] == c[2 * (done + 1)..]
    ensures Interpretations(c[2 * done..])[0] == Interpretations(c)[done]
    ensures Interpretations(c)[..done + 1] == Interpretations(c)[..done] + [Interpretations(c)[done]]
  {
    assert c[2 * done..][0] == c[2 * done] && c[2 * done..][1] == c[2 * done + 1];
  }

  // ----- The key ring between the decoder and the input path -----

  /** The decoder only ever queues whole pairs, so the key ring's length stays even. */
  lemma {:induction false} DecoderKeepsPairs(st: Decoder.Stage, buf: seq<byte>, e: Decoder.Env)
    requires Decoder.ValidEnv(e) && |Ring.Contents(e.keys)| % 2 == 0
    ensures var d := Decoder.Handle(st, buf, e);
      d.Ok? ==> |Ring.Contents(d.value.env.keys)| % 2 == 0
    decreases |buf|, Decoder.Rank(st)
  {
    match Decoder.Step(st, buf, e)
    case Suspend =>
    case Stop(_) =>
    case Advance(st', rest, e') =>
      DecoderKeepsPairs(st', rest, e');
  }

  /** The bytes a sequence of press-key messages queues, when they all fit. */
  function PairBytes(ms: seq<Decoder.ClientMsg>): (c: seq<byte>)
    requires forall i :: 0 <= i < |ms| ==> ms[i].PressKeyMsg?
    ensures |c| == 2 * |ms|
  {
    if ms == [] then [] else [ms[0].key, ms[0].pressed] + PairBytes(ms[1..])
  }

  /**
   * Press-key messages that fit in the key ring are queued in arrival order,
   * each as its two bytes.
   */
  lemma {:induction false} PressKeysQueueInOrder(e: Decoder.Env, ms: seq<Decoder.ClientMsg>)
    requires Decoder.ValidEnv(e) && forall i :: 0 <= i < |ms| ==> ms[i].PressKeyMsg?
    requires |Ring.Contents(e.keys)| + 2 * |ms| <= Ring.CAP
    ensures Ring.Contents(Decoder.ApplyAll(e, ms).keys) == Ring.Contents(e.keys) + PairBytes(ms)
    decreases |ms|
  {
    if ms != [] {
      var e1 := Decoder.Apply(e, ms[0]);
      var pair := [ms[0].key, ms[0].pressed];
      PressQueues(e, ms[0]);
      PressesRemain(ms);
      PressKeysQueueInOrder(e1, ms[1..]);
      ConcatAssoc(Ring.Contents(e.keys), pair, PairBytes(ms[1..]));
    }
  }

  /** One press-key message appends its two bytes to the key ring. */
  lemma PressQueues(e: Decoder.Env, m: Decoder.ClientMsg)
    requires Decoder.ValidEnv(e) && m.PressKeyMsg?
    requires |Ring.Contents(e.keys)| + 2 <= Ring.CAP
    ensures Ring.Contents(Decoder.Apply(e, m).keys) == Ring.Contents(e.keys) + [m.key, m.pressed]
  {
  }

  lemma PressesRemain(ms: seq<Decoder.ClientMsg>)
    requires ms != [] && forall i :: 0 <= i < |ms| ==> ms[i].PressKeyMsg?
    ensures forall i :: 0 <= i < |ms[1..]| ==> ms[1..][i].PressKeyMsg?
  {
    forall i | 0 <= i < |ms[1..]| ensures ms[1..][i].PressKeyMsg? {
      assert ms[1..][i] == ms[i + 1];
    }
  }

  lemma ConcatAssoc(a: seq<byte>, b: seq<byte>, c: seq<byte>)
    ensures a + b + c == a + (b + c)
  {
  }

  lemma {:induction false} InterpretationsAppend(a: seq<byte>, b: seq<byte>)
    requires |a| % 2 == 0 && |b| % 2 == 0
    ensures Interpretations(a + b) == Interpretations(a) + Interpretations(b)
    decreases |a|
  {
    if a != [] {
      assert (a + b)[2..] == a[2..] + b;
      InterpretationsAppend(a[2..], b);
    }
  }

  /** The queued bytes of press-key messages read back as those messages' inputs. */
  lemma PairsInterpret(ms: seq<Decoder.ClientMsg>)
    requires forall i :: 0 <= i < |ms| ==> ms[i].PressKeyMsg?
    ensures |Interpretations(PairBytes(ms))| == |ms|
    ensures forall i :: 0 <= i < |ms| ==> Interpretations(PairBytes(ms))[i] == Interpret(ms[i].key, ms[i].pressed)
  {
    forall i | 0 <= i < |ms|
      ensures Interpretations(PairBytes(ms))[i] == Interpret(ms[i].key, ms[i].pressed)
    {
      PairBytesAt(ms, i);
    }
  }

  /**
   * End to end: a client's press-key messages, once decoded into an empty key
   * ring, are drained by the input path as exactly those inputs, in order.
   */
  lemma KeysArriveInOrder(e: Decoder.Env, ms: seq<Decoder.ClientMsg>)
    requires Decoder.ValidEnv(e) && Ring.Contents(e.keys) == []
    requires forall i :: 0 <= i < |ms| ==> ms[i].PressKeyMsg?
    requires 2 * |ms| <= Ring.CAP
    ensures Decoder.AllAcceptable(ms)
    ensures var e' := Decoder.ApplyAll(e, ms);
      && Decoder.Handle(Decoder.AwaitTag, Decoder.EncodeAll(ms), e) == Ok(Decoder.Snapshot(Decoder.AwaitTag, [], e'))
      && Ring.Contents(e'.keys) == PairBytes(ms)
  {
    Decoder.DecodeEncoded(ms, e);
    PressKeysQueueInOrder(e, ms);
    assert [] + PairBytes(ms) == PairBytes(ms);
  }

  lemma {:induction false} PairBytesAt(ms: seq<Decoder.ClientMsg>, i: nat)
    requires forall j :: 0 <= j < |ms| ==> ms[j].PressKeyMsg?
    requires i < |ms|
    ensures PairBytes(ms)[2 * i] == ms[i].key && PairBytes(ms)[2 * i + 1] == ms[i].pressed
    decreases i
  {
    if i > 0 {
      PairBytesAt(ms[1..], i - 1);
    }
  }
}

=== FILE: menu_nav.dfy ===
/**
 * Menu navigation (m_menu.c): the cursor moves cyclically through a menu's
 * items, skipping separators; hotkeys search cyclically from the item after
 * the cursor; Back returns to the previous menu at the item last used there.
 *
 * Both cursor moves and the hotkey search are one concept here: the first
 * item, in cyclic order from the cursor, that passes a test.
 */
module MenuNav {
  import opened Wrappers

  /** `menuitem_t` without its name and drawing data; `hasRoutine` says the routine pointer is set. */
  datatype Item = Item(status: int, hasRoutine: bool, alphaKey: int)

  /** The menus of m_menu.c, in place of `menu_t` pointers. */
  datatype MenuId = MainDef | EpiDef | NewDef | OptionsDef | ReadDef1 | ReadDef2 | SoundDef | LoadDef | SaveDef

  /** `menu_t` without drawing data. */
  datatype Menu = Menu(items: seq<Item>, prevMenu: Option<MenuId>, lastOn: int)

  /** The navigation state: all menus, `currentMenu` and `itemOn`. */
  datatype Nav = Nav(menus: map<MenuId, Menu>, current: MenuId, itemOn: int)

  predicate MenuOk(m: Menu) {
    |m.items| > 0 && 0 <= m.lastOn < |m.items|
  }

  /** Every menu exists and is non-empty, remembered positions and the cursor are in range. */
  predicate NavOk(nav: Nav) {
    (forall id: MenuId :: id in nav.menus)
    && (forall id :: id in nav.menus ==> MenuOk(nav.menus[id]))
    && 0 <= nav.itemOn < |nav.menus[nav.current].items|
  }

  /** A separator line the cursor never rests on. */
  predicate IsSeparator(it: Item) {
    it.status == -1
  }

  // ----- Cyclic search -----

  /** What a search looks for: an item the cursor may rest on, or an item with a given hotkey. */
  datatype Want = Selectable | Hotkey(ch: int)

  predicate Wanted(it: Item, w: Want) {
    match w
    case Selectable => !IsSeparator(it)
    case Hotkey(ch) => it.alphaKey == ch
  }

  /** The index k steps (at most one turn) from `from`, forwards or backwards, wrapping around n items. */
  function At(from: int, forward: bool, k: int, n: int): (j: nat)
    requires 0 <= from < n && 0 <= k <= n
    ensures j < n
  {
    if forward then (if from + k < n then from + k else from + k - n)
    else (if from - k >= 0 then from - k else from - k + n)
  }

  /**
   * The number of steps, from k on and at most a full turn, to the first
   * wanted item; None if there is none.
   */
  function Scan(items: seq<Item>, from: int, forward: bool, w: Want, k: nat): (r: Option<nat>)
    requires 0 <= from < |items| && 1 <= k <= |items|
    ensures r.Some? ==> k <= r.value <= |items| && Wanted(items[At(from, forward, r.value, |items|)], w)
    ensures r.Some? ==> forall m :: k <= m < r.value ==> !Wanted(items[At(from, forward, m, |items|)], w)
    ensures r.None? ==> forall m :: k <= m <= |items| ==> !Wanted(items[At(from, forward, m, |items|)], w)
    decreases |items| - k
  {
    if Wanted(items[At(from, forward, k, |items|)], w) then Some(k)
    else if k == |items| then None
    else Scan(items, from, forward, w, k + 1)
  }

  /** The first wanted item after `from` in cyclic order (`from` itself is looked at last). */
  function Find(items: seq<Item>, from: int, forward: bool, w: Want): Option<nat>
    requires 0 <= from < |items|
  {
    match Scan(items, from, forward, w, 1)
    case Some(k) => Some(At(from, forward, k, |items|))
    case None => None
  }

  /** The step the source takes: `itemOn + 1`, or 0 past the last item. */
  function Succ(i: int, n: int): int {
    if i + 1 > n - 1 then 0 else i + 1
  }

  /** The step back: `itemOn - 1`, or the last item from item 0. */
  function Pred(i: int, n: int): int {
    if i == 0 then n - 1 else i - 1
  }

  /** Taking one more step in the search is one more `Succ` or `Pred` from where the last step ended. */
  lemma StepIsSuccOrPred(from: int, forward: bool, k: nat, n: int)
    requires 0 <= from < n && k < n
    ensures At(from, forward, 0, n) == from
    ensures forward ==> At(from, forward, k + 1, n) == Succ(At(from, forward, k, n), n)
    ensures !forward ==> At(from, forward, k + 1, n) == Pred(At(from, forward, k, n), n)
  {
  }

  /** Every index is reached within one full turn, forwards and backwards. */
  lemma Reaches(from: int, forward: bool, j: nat, n: int) returns (m: nat)
    requires n > 0 && 0 <= from < n && j < n
    ensures 1 <= m <= n && At(from, forward, m, n) == j
  {
    if forward {
      m := if j > from then j - from else j - from + n;
      assert from + m == j || from + m == j + n;
    } else {
      m := if j < from then from - j else from - j + n;
      assert from - m == j || from - m == j - n;
    }
  }

  /** The search fails exactly when no item at all is wanted. */
  lemma FindNone(items: seq<Item>, from: int, forward: bool, w: Want)
    requires |items| > 0 && 0 <= from < |items|
    ensures Find(items, from, forward, w).None? <==> forall j :: 0 <= j < |items| ==> !Wanted(items[j], w)
  {
    if Find(items, from, forward, w).None? {
      forall j | 0 <= j < |items| ensures !Wanted(items[j], w) {
        var m := Reaches(from, forward, j, |items|);
      }
    }
  }

  /** If the wanted items are first met after exactly r steps, the search stops there. */
  lemma ScanFirst(items: seq<Item>, from: int, forward: bool, w: Want, r: nat)
    requires 0 <= from < |items| && 1 <= r <= |items| && Wanted(items[At(from, forward, r, |items|)], w)
    requires forall m :: 1 <= m < r ==> !Wanted(items[At(from, forward, m, |items|)], w)
    ensures Scan(items, from, forward, w, 1) == Some(r)
  {
  }

  // ----- Cursor moves -----

  /**
   * Moving down: `Succ` until a non-separator item; None where the source's
   * loop would never end because every item is a separator.
   */
  function MoveDown(items: seq<Item>, itemOn: int): (m: Option<nat>)
    requires 0 <= itemOn < |items|
    ensures m.Some? ==> m.value < |items| && !IsSeparator(items[m.value])
    ensures m.None? <==> forall j :: 0 <= j < |items| ==> IsSeparator(items[j])
  {
    FindNone(items, itemOn, true, Selectable);
    Find(items, itemOn, true, Selectable)
  }

  /** Moving up: `Pred` until a non-separator item. */
  function MoveUp(items: seq<Item>, itemOn: int): (m: Option<nat>)
    requires 0 <= itemOn < |items|
    ensures m.Some? ==> m.value < |items| && !IsSeparator(items[m.value])
    ensures m.None? <==> forall j :: 0 <= j < |items| ==> IsSeparator(items[j])
  {
    FindNone(items, itemOn, false, Selectable);
    Find(items, itemOn, false, Selectable)
  }

  /**
   * Moving down ends on a non-separator and skips only separators; it fails
   * only when every item is a separator.
   */
  lemma MoveDownSkipsSeparators(items: seq<Item>, itemOn: int)
    requires |items| > 0 && 0 <= itemOn < |items|
    ensures match MoveDown(items, itemOn)
      case Some(j) =>
        !IsSeparator(items[j])
        && exists k :: 1 <= k <= |items| && j == At(itemOn, true, k, |items|)
             && forall m :: 1 <= m < k ==> IsSeparator(items[At(itemOn, true, m, |items|)])
      case None => forall j :: 0 <= j < |items| ==> IsSeparator(items[j])
  {
    FindNone(items, itemOn, true, Selectable);
    match Scan(items, itemOn, true, Selectable, 1)
    case Some(k) =>
    case None =>
  }

  lemma MoveUpSkipsSeparators(items: seq<Item>, itemOn: int)
    requires |items| > 0 && 0 <= itemOn < |items|
    ensures match MoveUp(items, itemOn)
      case Some(j) =>
        !IsSeparator(items[j])
        && exists k :: 1 <= k <= |items| && j == At(itemOn, false, k, |items|)
             && forall m :: 1 <= m < k ==> IsSeparator(items[At(itemOn, false, m, |items|)])
      case None => forall j :: 0 <= j < |items| ==> IsSeparator(items[j])
  {
    FindNone(items, itemOn, false, Selectable);
    match Scan(items, itemOn, false, Selectable, 1)
    case Some(k) =>
    case None =>
  }

  /** Stepping m back from k steps ahead is k - m steps ahead. */
  lemma BackFromAhead(from: int, k: int, m: int, n: int)
    requires 0 <= from < n && 0 <= m <= k <= n
    ensures At(At(from, true, k, n), false, m, n) == At(from, true, k - m, n)
  {
  }

  /** Moving up undoes moving down from an item the cursor may rest on. */
  lemma UpUndoesDown(items: seq<Item>, itemOn: int)
    requires |items| > 0 && 0 <= itemOn < |items| && !IsSeparator(items[itemOn])
    ensures MoveDown(items, itemOn).Some?
    ensures MoveUp(items, MoveDown(items, itemOn).value) == Some(itemOn)
  {
    var n := |items|;
    assert At(itemOn, true, n, n) == itemOn;
    assert Scan(items, itemOn, true, Selectable, 1).Some?;
    var k := Scan(items, itemOn, true, Selectable, 1).value;
    var j := At(itemOn, true, k, n);
    forall m | 1 <= m < k
      ensures !Wanted(items[At(j, false, m, n)], Selectable)
    {
      BackFromAhead(itemOn, k, m, n);
    }
    BackFromAhead(itemOn, k, k, n);
    assert At(itemOn, true, 0, n) == itemOn;
    ScanFirst(items, j, false, Selectable, k);
  }

  // ----- Hotkeys -----

  /**
   * The hotkey search as the source writes it: items after the cursor first,
   * then from item 0 up to and including the cursor.
   */
  method HotkeySearch(items: seq<Item>, itemOn: int, ch: int) returns (r: Option<nat>)
    requires |items| > 0 && 0 <= itemOn < |items|
    ensures r == Find(items, itemOn, true, Hotkey(ch))
  {
    var n := |items|;
    var i := itemOn + 1;
    while i < n
      invariant itemOn + 1 <= i <= n
      invariant forall m :: 1 <= m < i - itemOn ==> !Wanted(items[At(itemOn, true, m, n)], Hotkey(ch))
    {
      assert At(itemOn, true, i - itemOn, n) == i;
      if items[i].alphaKey == ch {
        ScanFirst(items, itemOn, true, Hotkey(ch), i - itemOn);
        return Some(i);
      }
      i := i + 1;
    }
    i := 0;
    while i <= itemOn
      invariant 0 <= i <= itemOn + 1
      invariant forall m :: 1 <= m < n - itemOn + i ==> !Wanted(items[At(itemOn, true, m, n)], Hotkey(ch))
    {
      assert At(itemOn, true, n - itemOn + i, n) == i by {
        assert itemOn + (n - itemOn + i) == i + n;
      }
      if items[i].alphaKey == ch {
        ScanFirst(items, itemOn, true, Hotkey(ch), n - itemOn + i);
        return Some(i);
      }
      i := i + 1;
    }
    return None;
  }

  // ----- Menu changes -----

  function Items(nav: Nav): seq<Item>
    requires NavOk(nav)
  {
    nav.menus[nav.current].items
  }

  /** `currentMenu->lastOn = itemOn`. */
  function SaveLastOn(nav: Nav): (nav': Nav)
    requires NavOk(nav)
    ensures NavOk(nav') && nav'.current == nav.current && nav'.itemOn == nav.itemOn
    ensures nav'.menus[nav.current].lastOn == nav.itemOn
    ensures nav'.menus[nav.current].items == Items(nav)
    ensures forall id :: id != nav.current ==> nav'.menus[id] == nav.menus[id]
  {
    nav.(menus := nav.menus[nav.current := nav.menus[nav.current].(lastOn := nav.itemOn)])
  }

  /** `M_SetupNextMenu`: switch menus and put the cursor where it was last left there. */
  function SetupNextMenu(nav: Nav, next: MenuId): (nav': Nav)
    requires NavOk(nav)
    ensures NavOk(nav') && nav'.menus == nav.menus
    ensures nav'.current == next && nav'.itemOn == nav.menus[next].lastOn
  {
    Nav(nav.menus, next, nav.menus[next].lastOn)
  }

  /**
   * Back: remember the cursor in the current menu; with a previous menu, go
   * there at its remembered item; without one, nothing else changes.
   */
  function Back(nav: Nav): (nav': Nav)
    requires NavOk(nav)
    ensures NavOk(nav')
    ensures nav'.menus == SaveLastOn(nav).menus
    ensures nav.menus[nav.current].prevMenu.None? ==> nav'.current == nav.current && nav'.itemOn == nav.itemOn
    ensures nav.menus[nav.current].prevMenu.Some? ==>
      var p := nav.menus[nav.current].prevMenu.value;
      nav'.current == p && nav'.itemOn == nav'.menus[p].lastOn
  {
    var saved := SaveLastOn(nav);
    match nav.menus[nav.current].prevMenu
    case None => saved
    case Some(p) => SetupNextMenu(saved, p)
  }

  /**
   * Activating an item that opens a submenu whose previous menu is this one,
   * then going back, returns to the same menu and item.
   */
  lemma BackReturns(nav: Nav, next: MenuId)
    requires NavOk(nav) && nav.menus[next].prevMenu == Some(nav.current)
    ensures var there := SetupNextMenu(SaveLastOn(nav), next);
      Back(there).current == nav.current && Back(there).itemOn == nav.itemOn
  {
  }

  /**
   * `M_StartControlPanel`: nothing if the menu is already up; otherwise show
   * the main menu at its remembered item.
   */
  function StartControlPanel(nav: Nav, menuActive: bool): (res: (Nav, bool))
    requires NavOk(nav)
    ensures NavOk(res.0) && res.1
    ensures menuActive ==> res.0 == nav
    ensures !menuActive ==> res.0.current == MainDef && res.0.itemOn == nav.menus[MainDef].lastOn
  {
    if menuActive then (nav, true) else (SetupNextMenu(nav, MainDef), true)
  }

  lemma StartControlPanelIdempotent(nav: Nav, menuActive: bool)
    requires NavOk(nav)
    ensures var once := StartControlPanel(nav, menuActive);
      StartControlPanel(once.0, once.1) == once
  {
  }

  // ----- Keys within the menu -----

  /** The configurable menu keys (`key_menu_*`). */
  datatype Bindings = Bindings(up: int, down: int, left: int, right: int, back: int, forward: int, activate: int)

  /** Keys Vanilla Doom treated as a null character (pause, caps lock, scroll lock, num lock). */
  const KEY_PAUSE := 0xff
  const KEY_CAPSLOCK := 0x80 + 0x3a
  const KEY_SCRLCK := 0x80 + 0x46
  const KEY_NUMLOCK := 0x80 + 0x45

  predicate IsNullKey(key: int) {
    key == KEY_PAUSE || key == KEY_CAPSLOCK || key == KEY_SCRLCK || key == KEY_NUMLOCK
  }

  /** A call the key asks for: an item routine with its choice, or closing the menus. */
  datatype Call = Routine(item: nat, choice: int) | ClearMenus

  datatype Reaction = Reaction(nav: Nav, consumed: bool, call: Option<Call>)

  /**
   * The part of `M_Responder` that runs while the menu is up and no message
   * or save name is being entered. `ch` is the typed character of the key.
   */
  method MenuKey(nav: Nav, b: Bindings, key: int, ch: int) returns (r: Reaction)
    requires NavOk(nav)
    ensures NavOk(r.nav)
    ensures r.nav.current != nav.current ==> key == b.back
    // The keys are tried in the order down, up, left, right, forward, activate, back.
    ensures key == b.down ==>
      r.consumed && r.call.None? && r.nav == nav.(itemOn := match MoveDown(Items(nav), nav.itemOn) case Some(j) => j case None => nav.itemOn)
    ensures key != b.down && key == b.up ==>
      r.consumed && r.call.None? && r.nav == nav.(itemOn := match MoveUp(Items(nav), nav.itemOn) case Some(j) => j case None => nav.itemOn)
    ensures key !in {b.down, b.up} && key in {b.left, b.right} ==>
      var it := Items(nav)[nav.itemOn];
      r.consumed && r.nav == nav
      && (r.call.Some? <==> it.hasRoutine && it.status == 2)
      && (r.call.Some? ==> r.call.value == Routine(nav.itemOn, if key == b.left then 0 else 1))
    ensures key !in {b.down, b.up, b.left, b.right} && key == b.forward ==>
      var it := Items(nav)[nav.itemOn];
      r.consumed
      && (it.hasRoutine && it.status != 0 ==>
            r.nav == SaveLastOn(nav) && r.call == Some(Routine(nav.itemOn, if it.status == 2 then 1 else nav.itemOn)))
      && (!(it.hasRoutine && it.status != 0) ==> r.nav == nav && r.call.None?)
    ensures key !in {b.down, b.up, b.left, b.right, b.forward} && key == b.activate ==>
      r.consumed && r.nav == SaveLastOn(nav) && r.call == Some(ClearMenus)
    ensures key !in {b.down, b.up, b.left, b.right, b.forward, b.activate} && key == b.back ==>
      r.consumed && r.nav == Back(nav) && r.call.None?
    ensures key in {b.up, b.down, b.left, b.right, b.back, b.forward, b.activate} ==> r.consumed
    ensures r.call.Some? && r.call.value.Routine? ==>
      var it := Items(nav)[nav.itemOn];
      r.call.value.item == nav.itemOn && it.hasRoutine && it.status != 0
    ensures !r.consumed ==> r.nav == nav && r.call.None?
    ensures key !in {b.up, b.down, b.left, b.right, b.back, b.forward, b.activate} ==>
      var hit := Find(Items(nav), nav.itemOn, true, Hotkey(ch));
      && (r.consumed <==> (ch != 0 || IsNullKey(key)) && hit.Some?)
      && (r.consumed ==> r.nav == nav.(itemOn := hit.value) && r.call.None?)
    ensures r.consumed && !(key in {b.up, b.down, b.left, b.right, b.back, b.forward, b.activate}) ==>
      (ch != 0 || IsNullKey(key)) && Find(Items(nav), nav.itemOn, true, Hotkey(ch)) == Some(r.nav.itemOn)
      && Items(nav)[r.nav.itemOn].alphaKey == ch
  {
    var items := Items(nav);
    var it := items[nav.itemOn];
    if key == b.down || key == b.up {
      var moved := if key == b.down then MoveDown(items, nav.itemOn) else MoveUp(items, nav.itemOn);
      FindNone(items, nav.itemOn, key == b.down, Selectable);
      var on := if moved.Some? then moved.value else nav.itemOn;
      return Reaction(nav.(itemOn := on), true, None);
    } else if key == b.left || key == b.right {
      var call := if it.hasRoutine && it.status == 2 then Some(Routine(nav.itemOn, if key == b.left then 0 else 1)) else None;
      return Reaction(nav, true, call);
    } else if key == b.forward {
      if it.hasRoutine && it.status != 0 {
        return Reaction(SaveLastOn(nav), true, Some(Routine(nav.itemOn, if it.status == 2 then 1 else nav.itemOn)));
      }
      return Reaction(nav, true, None);
    } else if key == b.activate {
      return Reaction(SaveLastOn(nav), true, Some(ClearMenus));
    } else if key == b.back {
      return Reaction(Back(nav), true, None);
    } else if ch != 0 || IsNullKey(key) {
      var found := HotkeySearch(items, nav.itemOn, ch);
      if found.Some? {
        return Reaction(nav.(itemOn := found.value), true, None);
      }
    }
    return Reaction(nav, false, None);
  }
}

=== FILE: menu_vars.dfy ===
/**
 * Menu variables and modal input (m_menu.c): the sliders, save-name editing,
 * messages, the episode choice, string height and the skull animation.
 */
module MenuVars {
  import opened Bytes
  import opened Wrappers
  import opened SendBuffer
  import MenuNav
  import TextMessages

  // ----- Sliders -----

  /** What a slider does, stated once: choice 0 lowers and 1 raises, saturating at the bounds. */
  function Saturating(v: int, lo: int, hi: int, choice: int): int {
    if choice == 0 then (if v - 1 < lo then lo else v - 1)
    else if choice == 1 then (if v + 1 > hi then hi else v + 1)
    else v
  }

  /** `M_SfxVol` and `M_MusicVol`: lower unless zero, raise below 15. */
  function Volume(v: int, choice: int): (r: int)
    ensures 0 <= v <= 15 ==> r == Saturating(v, 0, 15, choice)
    ensures r == v || r == v - 1 || r == v + 1
  {
    if choice == 0 then (if v != 0 then v - 1 else v)
    else if choice == 1 then (if v < 15 then v + 1 else v)
    else v
  }

  /** `M_ChangeSensitivity`: lower unless zero, raise below 9. */
  function Sensitivity(v: int, choice: int): (r: int)
    ensures 0 <= v <= 9 ==> r == Saturating(v, 0, 9, choice)
    ensures r == v || r == v - 1 || r == v + 1
  {
    if choice == 0 then (if v != 0 then v - 1 else v)
    else if choice == 1 then (if v < 9 then v + 1 else v)
    else v
  }

  /** `M_SizeDisplay`: `screenblocks` is lowered above 3 and raised below 11. */
  function SizeDisplay(v: int, choice: int): (r: int)
    ensures 3 <= v <= 11 ==> r == Saturating(v, 3, 11, choice)
    ensures r == v || r == v - 1 || r == v + 1
  {
    if choice == 0 then (if v > 3 then v - 1 else v)
    else if choice == 1 then (if v < 11 then v + 1 else v)
    else v
  }

  /** Within its range a slider stays in its range, whatever the choices. */
  lemma SlidersStayInRange(v: int, s: int, b: int, choice: int)
    requires 0 <= v <= 15 && 0 <= s <= 9 && 3 <= b <= 11
    ensures 0 <= Volume(v, choice) <= 15
    ensures 0 <= Sensitivity(s, choice) <= 9
    ensures 3 <= SizeDisplay(b, choice) <= 11
  {
  }

  /** Away from the top, raising undoes lowering; away from the bottom, lowering undoes raising. */
  lemma SliderStepsUndo(v: int, b: int)
    requires 0 < v <= 15 && 3 < b <= 11
    ensures Volume(Volume(v, 0), 1) == v
    ensures SizeDisplay(SizeDisplay(b, 0), 1) == b
    ensures v < 15 ==> Volume(Volume(v, 1), 0) == v
    ensures b < 11 ==> SizeDisplay(SizeDisplay(b, 1), 0) == b
  {
  }

  // ----- Save-name editing -----

  const SAVESTRINGSIZE := 24
  const HU_FONTSTART := 33
  const HU_FONTEND := 95
  const HU_FONTSIZE := HU_FONTEND - HU_FONTSTART + 1
  const KEY_BACKSPACE := 0x7f
  const KEY_ESCAPE := 27
  const KEY_ENTER := 13

  /** C `toupper` on the character codes that reach it. */
  function ToUpper(c: int): (r: int)
    ensures 'a' as int <= c <= 'z' as int ==> r == c - 32 && 'A' as int <= r <= 'Z' as int
    ensures !('a' as int <= c <= 'z' as int) ==> r == c
  {
    if 'a' as int <= c <= 'z' as int then c - 32 else c
  }

  /** Pixel width of one character in the heads-up font; 4 for characters it lacks. */
  function CharWidth(c: int, font: seq<int>): int
    requires |font| == HU_FONTSIZE
  {
    var g := ToUpper(c) - HU_FONTSTART;
    if g < 0 || g >= HU_FONTSIZE then 4 else font[g]
  }

  /** A lower-case letter is as wide as its capital, since the font has capitals only. */
  lemma CharWidthIgnoresCase(c: int, font: seq<int>)
    requires |font| == HU_FONTSIZE && 'a' as int <= c <= 'z' as int
    ensures CharWidth(c, font) == CharWidth(c - 32, font)
  {
  }

  /**
   * `M_StringWidth` for the font's glyph widths: the reference definition,
   * one glyph width per character, never negative when no glyph width is.
   * With StringWidthAppend it is the sum of the characters' widths.
   */
  function StringWidth(s: seq<int>, font: seq<int>): (w: int)
    requires |font| == HU_FONTSIZE
    ensures (forall i :: 0 <= i < |font| ==> 0 <= font[i]) ==> 0 <= w
    ensures |s| == 1 ==> w == CharWidth(s[0], font)
  {
    if s == [] then 0 else StringWidth(s[..|s| - 1], font) + CharWidth(s[|s| - 1], font)
  }

  /** The width of two strings written one after the other is the sum of their widths. */
  lemma {:induction false} StringWidthAppend(s: seq<int>, t: seq<int>, font: seq<int>)
    requires |font| == HU_FONTSIZE
    ensures StringWidth(s + t, font) == StringWidth(s, font) + StringWidth(t, font)
    decreases |t|
  {
    if t == [] {
      assert s + t == s;
    } else {
      var t' := t[..|t| - 1];
      assert (s + t)[..|s + t| - 1] == s + t';
      StringWidthAppend(s, t', font);
    }
  }

  /**
   * The save-name editor: whether names are being entered, the slot's text
   * (the characters before its NUL), `saveCharIndex`, and `saveOldString`.
   */
  datatype SaveEdit = SaveEdit(entering: bool, text: seq<int>, index: int, saved: seq<int>)

  /** The cursor is at the end of the text, and the text leaves room for the NUL. */
  predicate EditOk(e: SaveEdit) {
    e.index == |e.text| && |e.text| < SAVESTRINGSIZE && |e.saved| < SAVESTRINGSIZE
  }

  /** `M_SaveSelect`: start editing a slot, clearing the placeholder text of an empty slot. */
  function SaveSelect(slotText: seq<int>, emptyText: seq<int>): (e: SaveEdit)
    requires |slotText| < SAVESTRINGSIZE
    ensures EditOk(e) && e.entering && e.saved == slotText
    ensures e.text == if slotText == emptyText then [] else slotText
  {
    var t := if slotText == emptyText then [] else slotText;
    SaveEdit(true, t, |t|, slotText)
  }

  /** A key's outcome: the editor afterwards, and whether the game is saved now. */
  datatype SaveKey = SaveKey(edit: SaveEdit, save: bool)

  /** The character a key types into a save name, or None when it is dropped. */
  function TypedSaveChar(key: int, ch: int, vanillaMapping: bool): (r: Option<int>)
    ensures r.Some? ==> r.value == 32 || HU_FONTSTART <= r.value <= HU_FONTEND
    ensures r.Some? ==> r.value == ToUpper(if vanillaMapping then key else ch)
    ensures var c := ToUpper(if vanillaMapping then key else ch);
      r.Some? <==> c == 32 || HU_FONTSTART <= c <= HU_FONTEND
  {
    var c := ToUpper(if vanillaMapping then key else ch);
    if c != 32 && (c - HU_FONTSTART < 0 || c - HU_FONTSTART >= HU_FONTSIZE) then None
    else if c >= 32 && c <= 127 then Some(c)
    else None
  }

  /** The save-name branch of `M_Responder`; every key is consumed. */
  function SaveNameKey(e: SaveEdit, key: int, ch: int, vanillaMapping: bool, font: seq<int>): (r: SaveKey)
    requires EditOk(e) && e.entering && |font| == HU_FONTSIZE
    ensures EditOk(r.edit)
    ensures r.save ==> key == KEY_ENTER && r.edit.text != []
    ensures key == KEY_ENTER ==> !r.edit.entering && r.edit.text == e.text && (r.save <==> e.text != [])
    ensures key == KEY_ESCAPE ==> !r.edit.entering && r.edit.text == e.saved
    ensures key == KEY_BACKSPACE ==> r.edit.entering && r.edit.text == (if e.text == [] then [] else e.text[..|e.text| - 1])
    ensures key != KEY_ESCAPE ==> |r.edit.text| <= |e.text| + 1
    ensures key !in {KEY_BACKSPACE, KEY_ESCAPE, KEY_ENTER} ==>
      var t := TypedSaveChar(key, ch, vanillaMapping);
      !r.save && r.edit.entering
      && r.edit.text == if t.Some? && |e.text| < SAVESTRINGSIZE - 1 && StringWidth(e.text, font) < (SAVESTRINGSIZE - 2) * 8
                        then e.text + [t.value] else e.text
    ensures r.edit.saved == e.saved
  {
    if key == KEY_BACKSPACE then
      if e.index > 0 then SaveKey(e.(text := e.text[..e.index - 1], index := e.index - 1), false)
      else SaveKey(e, false)
    else if key == KEY_ESCAPE then
      SaveKey(e.(entering := false, text := e.saved, index := |e.saved|), false)
    else if key == KEY_ENTER then
      SaveKey(e.(entering := false), e.text != [])
    else
      match TypedSaveChar(key, ch, vanillaMapping)
      case Some(c) =>
        if e.index < SAVESTRINGSIZE - 1 && StringWidth(e.text, font) < (SAVESTRINGSIZE - 2) * 8
        then SaveKey(e.(text := e.text + [c], index := e.index + 1), false)
        else SaveKey(e, false)
      case None => SaveKey(e, false)
  }

  /** Backspace removes exactly the character a key just typed. */
  lemma BackspaceUndoesTyping(e: SaveEdit, key: int, ch: int, vanillaMapping: bool, font: seq<int>)
    requires EditOk(e) && e.entering && |font| == HU_FONTSIZE
    requires key != KEY_BACKSPACE && key != KEY_ESCAPE && key != KEY_ENTER
    requires |SaveNameKey(e, key, ch, vanillaMapping, font).edit.text| == |e.text| + 1
    ensures var typed := SaveNameKey(e, key, ch, vanillaMapping, font).edit;
      SaveNameKey(typed, KEY_BACKSPACE, 0, vanillaMapping, font).edit == e
  {
  }

  /**
   * A space or font glyph is appended, upper-cased, exactly when the name has
   * room and is not too wide; any other typed key leaves the name as it was.
   */
  lemma TypingAppends(e: SaveEdit, key: int, ch: int, vanillaMapping: bool, font: seq<int>)
    requires EditOk(e) && e.entering && |font| == HU_FONTSIZE
    requires key != KEY_BACKSPACE && key != KEY_ESCAPE && key != KEY_ENTER
    ensures var r := SaveNameKey(e, key, ch, vanillaMapping, font);
      var c := ToUpper(if vanillaMapping then key else ch);
      var fits := |e.text| < SAVESTRINGSIZE - 1 && StringWidth(e.text, font) < (SAVESTRINGSIZE - 2) * 8;
      && !r.save && r.edit.entering
      && ((c == 32 || HU_FONTSTART <= c <= HU_FONTEND) && fits ==> r.edit.text == e.text + [c])
      && (!((c == 32 || HU_FONTSTART <= c <= HU_FONTEND) && fits) ==> r.edit.text == e.text)
  {
  }

  /** A glyph typed into a name with room grows it, so backspace then takes it away again. */
  lemma TypeThenBackspace(e: SaveEdit, key: int, ch: int, vanillaMapping: bool, font: seq<int>)
    requires EditOk(e) && e.entering && |font| == HU_FONTSIZE
    requires key != KEY_BACKSPACE && key != KEY_ESCAPE && key != KEY_ENTER
    requires HU_FONTSTART <= ToUpper(if vanillaMapping then key else ch) <= HU_FONTEND
    requires |e.text| < SAVESTRINGSIZE - 1 && StringWidth(e.text, font) < (SAVESTRINGSIZE - 2) * 8
    ensures var typed := SaveNameKey(e, key, ch, vanillaMapping, font).edit;
      |typed.text| == |e.text| + 1 && SaveNameKey(typed, KEY_BACKSPACE, 0, vanillaMapping, font).edit == e
  {
    BackspaceUndoesTyping(e, key, ch, vanillaMapping, font);
  }

  // ----- Messages -----

  /**
   * `menuactive` and the message fields of m_menu.c; `hasRoutine` says
   * `messageRoutine` is set.
   */
  datatype MsgState = MsgState(menuActive: bool, toPrint: bool, needsInput: bool, hasRoutine: bool, lastMenuActive: bool)

  /**
   * `M_StartMessage`: remember whether the menu was up, show it, and send the
   * text to the client as a menu message.
   */
  function StartMessage(m: MsgState, text: seq<byte>, hasRoutine: bool, needsInput: bool): (r: (MsgState, seq<Field>))
    ensures r.0.menuActive && r.0.toPrint && r.0.needsInput == needsInput && r.0.hasRoutine == hasRoutine
    ensures r.0.lastMenuActive == m.menuActive
    ensures r.1 == TextMessages.MenuMessageMsg(text)
  {
    (MsgState(true, true, needsInput, hasRoutine, m.menuActive), TextMessages.MenuMessageMsg(text))
  }

  /** `M_StopMessage`: put `menuactive` back and drop the message. */
  function StopMessage(m: MsgState): (r: MsgState)
    ensures !r.toPrint && r.menuActive == m.lastMenuActive
  {
    m.(menuActive := m.lastMenuActive, toPrint := false)
  }

  /** Stopping a message restores the menu state from before it started. */
  lemma StopUndoesStart(m: MsgState, text: seq<byte>, hasRoutine: bool, needsInput: bool)
    ensures StopMessage(StartMessage(m, text, hasRoutine, needsInput).0).menuActive == m.menuActive
  {
  }

  /**
   * A key while a message is shown: a message that needs an answer takes only
   * space, escape, confirm or abort; otherwise, or for those keys, the message
   * closes, its routine (when set) is called with the key, and the menu goes
   * down. The result is the new state, whether the key was taken, and the key
   * handed to the routine.
   */
  function MessageKey(m: MsgState, key: int, confirm: int, abort: int): (r: (MsgState, bool, Option<int>))
    requires m.toPrint
    ensures r.1 <==> !m.needsInput || key == 32 || key == KEY_ESCAPE || key == confirm || key == abort
    ensures !r.1 ==> r.0 == m && r.2.None?
    ensures r.1 ==> !r.0.toPrint && !r.0.menuActive
    ensures r.1 && m.hasRoutine ==> r.2 == Some(key)
    ensures !r.1 || !m.hasRoutine ==> r.2.None?
  {
    if m.needsInput && key != 32 && key != KEY_ESCAPE && key != confirm && key != abort then (m, false, None)
    else (StopMessage(m).(menuActive := false), true, if m.hasRoutine then Some(key) else None)
  }

  /**
   * A question asked with a routine is answered by the confirm key: the
   * routine receives that key, the message is gone and the menu is down.
   */
  lemma AnswerReachesRoutine(m: MsgState, text: seq<byte>, confirm: int, abort: int)
    ensures var asked := StartMessage(m, text, true, true).0;
      var r := MessageKey(asked, confirm, confirm, abort);
      r.1 && r.2 == Some(confirm) && !r.0.toPrint && !r.0.menuActive
  {
  }

  // ----- Episode choice -----

  datatype GameMode = Shareware | Registered | Commercial | Retail | Indetermined

  /** `M_Episode`: shareware offers only the first episode; registered has three. */
  datatype EpisodeOutcome = SharewareNotice | EpisodeChosen(epi: int)

  function Episode(mode: GameMode, choice: int): (r: (EpisodeOutcome, MenuNav.MenuId))
    ensures r.0.SharewareNotice? <==> mode == Shareware && choice != 0
    ensures r.1 == if r.0.SharewareNotice? then MenuNav.ReadDef1 else MenuNav.NewDef
    ensures r.0.EpisodeChosen? && mode == Registered && choice > 2 ==> r.0.epi == 0
    ensures r.0.EpisodeChosen? && !(mode == Registered && choice > 2) ==> r.0.epi == choice
  {
    if mode == Shareware && choice != 0 then (SharewareNotice, MenuNav.ReadDef1)
    else if mode == Registered && choice > 2 then (EpisodeChosen(0), MenuNav.NewDef)
    else (EpisodeChosen(choice), MenuNav.NewDef)
  }

  /**
   * The episodes a game mode ships: one in shareware, three in registered,
   * four in the retail game (the commercial game never shows the episode menu).
   */
  function EpisodesOwned(mode: GameMode): nat {
    match mode
    case Shareware => 1
    case Registered => 3
    case _ => 4
  }

  /**
   * Whatever item of the four-entry episode menu is chosen, a game is only
   * ever started in an episode the game mode owns.
   */
  lemma EpisodeOwned(mode: GameMode, choice: int)
    requires 0 <= choice < 4
    ensures Episode(mode, choice).0.EpisodeChosen? ==> 0 <= Episode(mode, choice).0.epi < EpisodesOwned(mode)
  {
  }

  // ----- String height -----

  /** The number of line breaks in a string. */
  function Newlines(s: seq<int>): nat {
    if s == [] then 0 else Newlines(s[..|s| - 1]) + (if s[|s| - 1] == '\n' as int then 1 else 0)
  }

  /** `M_StringHeight`: one font height per line. */
  method StringHeight(s: seq<int>, height: int) returns (h: int)
    ensures h == height * (1 + Newlines(s))
  {
    h := height;
    var i := 0;
    while i < |s|
      invariant 0 <= i <= |s|
      invariant h == height * (1 + Newlines(s[..i]))
    {
      assert s[..i + 1][..i] == s[..i];
      if s[i] == '\n' as int {
        h := h + height;
      }
      i := i + 1;
    }
    assert s[..|s|] == s;
  }

  // ----- Skull animation -----

  /** `skullAnimCounter` and which of the two skull images `whichSkull` shows. */
  datatype Skull = Skull(counter: int, second: bool)

  /** `M_Ticker`: count down, and on reaching zero switch image and restart at 8. */
  function Ticker(s: Skull): (r: Skull)
    ensures s.counter > 1 ==> r == Skull(s.counter - 1, s.second)
    ensures s.counter <= 1 ==> r == Skull(8, !s.second)
  {
    if s.counter - 1 <= 0 then Skull(8, !s.second) else Skull(s.counter - 1, s.second)
  }

  function Ticks(s: Skull, n: nat): Skull
    decreases n
  {
    if n == 0 then s else Ticks(Ticker(s), n - 1)
  }

  /** From a count of c, the image switches after exactly c tics, and not before. */
  lemma {:induction false} SkullSwitches(c: int, second: bool, k: nat)
    requires 1 <= c && k <= c
    ensures k < c ==> Ticks(Skull(c, second), k) == Skull(c - k, second)
    ensures k == c ==> Ticks(Skull(c, second), k) == Skull(8, !second)
    decreases k
  {
    if k > 0 {
      if c == 1 {
        assert Ticks(Skull(c, second), 1) == Ticks(Skull(8, !second), 0);
      } else {
        SkullSwitches(c - 1, second, k - 1);
      }
    }
  }

  /** Once started, the image switches every 8 tics. */
  lemma SkullPeriod(second: bool)
    ensures Ticks(Skull(8, second), 8) == Skull(8, !second)
    ensures Ticks(Skull(8, second), 16) == Skull(8, second)
  {
    SkullSwitches(8, second, 8);
    SkullSwitches(8, !second, 8);
    TicksAdd(Skull(8, second), 8, 8);
  }

  lemma {:induction false} TicksAdd(s: Skull, a: nat, b: nat)
    ensures Ticks(s, a + b) == Ticks(Ticks(s, a), b)
    decreases a
  {
    if a > 0 {
      TicksAdd(Ticker(s), a - 1, b);
    }
  }
}

=== FILE: outmsg.dfy ===
/**
 * What the host's outbound messages share. Each message is a list of fields
 * written inside one COMM_WRITE_MSG block (SendBuffer.WriteMsg); the first
 * field is the message tag, except for the initial handshake, which has none.
 */
module OutMsg {
  import opened Bytes
  import opened Wrappers
  import opened SendBuffer
  import opened WireRead
  import Screen

  const AMSG_FRAME: byte := 0
  const AMSG_SET_TITLE: byte := 1
  const AMSG_QUIT: byte := 2
  const AMSG_FRAME_SHM_READY: byte := 3
  const AMSG_GAME_MESSAGE: byte := 4
  const AMSG_PLAYER_STATUS: byte := 5
  const AMSG_MENU_MESSAGE: byte := 6
  const AMSG_AUTOMAP_TITLE: byte := 7
  const AMSG_FRAME_MENU: byte := 8
  const AMSG_FRAME_INTERMISSION: byte := 9
  const AMSG_FINALE_TEXT: byte := 10
  const AMSG_FRAME_FINALE: byte := 11

  predicate IsI8(v: int) { -0x80 <= v < 0x80 }
  predicate IsI16(v: int) { -0x8000 <= v < 0x8000 }
  predicate IsI32(v: int) { -0x8000_0000 <= v < 0x8000_0000 }

  /** Bit i of an 8-bit set. */
  function Bit(x: bv8, i: nat): bool
    requires i < 8
  {
    ((x >> i) & 1) == 1
  }

  /** Encoding a field list is encoding its head, then its tail. */
  lemma EncodeCons(f: Field, fs: seq<Field>)
    requires FieldEncodable(f) && Encodable(fs)
    ensures Encodable([f] + fs) && Encode([f] + fs) == EncodeField(f) + Encode(fs)
  {
    var g := [f] + fs;
    assert g[0] == f && g[1..] == fs;
  }

  /** Encoding a short literal field list, field by field. */
  lemma Encode2(a: Field, b: Field)
    requires FieldEncodable(a) && FieldEncodable(b)
    ensures Encodable([a, b]) && Encode([a, b]) == EncodeField(a) + EncodeField(b)
  {
    EncodeCons(b, []);
    assert [b] + [] == [b];
    EncodeCons(a, [b]);
    assert [a] + [b] == [a, b];
  }

  lemma Encode3(a: Field, b: Field, c: Field)
    requires FieldEncodable(a) && FieldEncodable(b) && FieldEncodable(c)
    ensures Encodable([a, b, c]) && Encode([a, b, c]) == EncodeField(a) + EncodeField(b) + EncodeField(c)
  {
    Encode2(b, c);
    EncodeCons(a, [b, c]);
    assert [a] + [b, c] == [a, b, c];
  }

  // ----- Handshake -----

  /** The first message after a client connects: the resolution, with no tag byte. */
  function InitMsg(): (fs: seq<Field>)
    ensures Encodable(fs)
    ensures Encode(fs) == [64, 1, 200, 0]
  {
    Encode2(U16(Screen.SCREENWIDTH), U16(Screen.SCREENHEIGHT));
    [U16(Screen.SCREENWIDTH), U16(Screen.SCREENHEIGHT)]
  }

  /** The client reads the handshake back as the screen width and height. */
  lemma InitRoundTrip()
    ensures ReadMessage([KU16, KU16], Encode(InitMsg())) == Some([Num(Screen.SCREENWIDTH), Num(Screen.SCREENHEIGHT)])
  {
    var fs := InitMsg();
    ReadMessageEncoded(fs);
    assert Kinds(fs) == [KU16, KU16];
    assert Values(fs) == [Num(Screen.SCREENWIDTH), Num(Screen.SCREENHEIGHT)];
  }

  /** Encoded size of a field list whose strings and raw blocks are known. */
  function FieldSize(f: Field): nat {
    match f
    case U8(_) => 1
    case U16(_) => 2
    case U32(_) => 4
    case Raw(b) => |b|
    case Str(s) => 2 + |s|
  }

  function EncodedSize(fs: seq<Field>): nat {
    if fs == [] then 0 else FieldSize(fs[0]) + EncodedSize(fs[1..])
  }

  lemma {:induction false} EncodeLength(fs: seq<Field>)
    requires Encodable(fs)
    ensures |Encode(fs)| == EncodedSize(fs)
    decreases |fs|
  {
    if fs != [] {
      EncodeLength(fs[1..]);
    }
  }

  /** A tag followed by one string: menu message, automap title, window title. */
  function TextMsg(tag: byte, text: seq<byte>): (fs: seq<Field>)
    ensures Encodable(fs) <==> |text| <= MAX_STRING
    ensures Encodable(fs) ==> Encode(fs) == [tag] + LE16(|text|) + text
  {
    var fs := [U8(tag), Str(text)];
    assert |text| <= MAX_STRING ==> Encodable(fs) && Encode(fs) == [tag] + LE16(|text|) + text by {
      if |text| <= MAX_STRING {
        Encode2(U8(tag), Str(text));
      }
    }
    assert !FieldEncodable(fs[1]) ==> !Encodable(fs);
    fs
  }

  /** A text message is read back by the client as its tag and exactly its text. */
  lemma TextRoundTrip(tag: byte, text: seq<byte>)
    requires |text| <= MAX_STRING
    ensures ReadMessage([KU8, KStr], Encode(TextMsg(tag, text))) == Some([Num(tag), Blob(text)])
  {
    var fs := TextMsg(tag, text);
    ReadMessageEncoded(fs);
    assert Kinds(fs) == [KU8, KStr];
    assert Values(fs) == [Num(tag), Blob(text)];
  }
}

=== FILE: receive.dfy ===
/**
 * `Comm_Receive`: reads from the socket straight into the free part of the
 * receive ring (at most two pieces, because the free part may wrap), decodes
 * whatever complete fields arrived, and repeats until the socket would block.
 *
 * The socket is abstracted as the bytes the peer has written but the host has
 * not read yet, plus whether the peer has closed its end.
 */
module Receiver {
  import opened Bytes
  import opened Wrappers
  import Ring
  import opened Decoder

  /** Lengths of the two receive pieces: from `end` onwards, then from slot 0. */
  function Window(r: Ring.Ring): (w: (nat, nat))
    requires Ring.Valid(r)
    ensures r.end + w.0 <= Ring.SIZE
    ensures w.1 > 0 ==> 0 < r.start < r.end && r.end + w.0 == Ring.SIZE && w.1 < r.start
    ensures w.0 + w.1 <= Ring.CAP - Ring.Len(r)
    ensures r.start == r.end ==> r.start == 0 ==> w.0 + w.1 == Ring.CAP - Ring.Len(r)
    ensures r.start != r.end ==> w.0 + w.1 == Ring.CAP - Ring.Len(r)
  {
    var first := (if r.start > r.end then r.start - 1 else Ring.SIZE - (if r.start == 0 then 1 else 0)) - r.end;
    var second := if r.start > 0 && r.start < r.end then r.start - 1 else 0;
    (first, second)
  }

  function WindowSize(r: Ring.Ring): nat
    requires Ring.Valid(r)
  {
    Window(r).0 + Window(r).1
  }

  /**
   * A scatter read of `bytes` into the window: the first piece is filled
   * before the second, and `end` moves on by the number of bytes read.
   */
  function ReceiveInto(r: Ring.Ring, bytes: seq<byte>): (r': Ring.Ring)
    requires Ring.Valid(r) && |bytes| <= WindowSize(r)
    ensures Ring.Valid(r') && r'.start == r.start
    ensures Ring.Contents(r') == Ring.Contents(r) + bytes
  {
    var w0 := Window(r).0;
    var k0 := if |bytes| <= w0 then |bytes| else w0;
    var k1 := |bytes| - k0;
    var data := seq(Ring.SIZE, j requires 0 <= j < Ring.SIZE =>
      if r.end <= j < r.end + k0 then bytes[j - r.end]
      else if j < k1 then bytes[k0 + j]
      else r.data[j]);
    var r' := Ring.Ring(data, r.start, (r.end + |bytes|) % Ring.SIZE);
    ScatterContents(r, bytes, k0, r');
    r'
  }

  lemma ScatterContents(r: Ring.Ring, bytes: seq<byte>, k0: nat, r': Ring.Ring)
    requires Ring.Valid(r) && |bytes| <= WindowSize(r)
    requires k0 == if |bytes| <= Window(r).0 then |bytes| else Window(r).0
    requires |r'.data| == Ring.SIZE && r'.start == r.start && r'.end == (r.end + |bytes|) % Ring.SIZE
    requires forall j :: 0 <= j < Ring.SIZE ==>
      r'.data[j] == if r.end <= j < r.end + k0 then bytes[j - r.end]
                    else if j < |bytes| - k0 then bytes[k0 + j]
                    else r.data[j]
    ensures Ring.Valid(r')
    ensures Ring.Contents(r') == Ring.Contents(r) + bytes
  {
    var n := |bytes|;
    var len := Ring.Len(r);
    assert Ring.Len(r') == len + n;
    forall i | 0 <= i < len + n
      ensures Ring.Contents(r')[i] == (Ring.Contents(r) + bytes)[i]
    {
      ScatterAt(r, bytes, k0, r', i);
    }
  }

  /** Logical byte i of the grown ring is byte i of the old contents followed by the new bytes. */
  lemma ScatterAt(r: Ring.Ring, bytes: seq<byte>, k0: nat, r': Ring.Ring, i: nat)
    requires Ring.Valid(r) && |bytes| <= WindowSize(r)
    requires k0 == if |bytes| <= Window(r).0 then |bytes| else Window(r).0
    requires |r'.data| == Ring.SIZE && r'.start == r.start && r'.end == (r.end + |bytes|) % Ring.SIZE
    requires forall j :: 0 <= j < Ring.SIZE ==>
      r'.data[j] == if r.end <= j < r.end + k0 then bytes[j - r.end]
                    else if j < |bytes| - k0 then bytes[k0 + j]
                    else r.data[j]
    requires Ring.Len(r') == Ring.Len(r) + |bytes| && i < Ring.Len(r')
    ensures Ring.Contents(r')[i] == (Ring.Contents(r) + bytes)[i]
  {
    ScatterSlot(r, bytes, k0, i);
  }

  /** Where logical byte i of the grown ring lives, and that nothing else landed there. */
  lemma ScatterSlot(r: Ring.Ring, bytes: seq<byte>, k0: nat, i: nat)
    requires Ring.Valid(r) && |bytes| <= WindowSize(r)
    requires k0 == if |bytes| <= Window(r).0 then |bytes| else Window(r).0
    requires i < Ring.Len(r) + |bytes|
    ensures var p := (r.start + i) % Ring.SIZE;
      && (i < Ring.Len(r) ==> !(r.end <= p < r.end + k0) && !(p < |bytes| - k0))
      && (Ring.Len(r) <= i < Ring.Len(r) + k0 ==> p == r.end + (i - Ring.Len(r)))
      && (Ring.Len(r) + k0 <= i ==> p == i - Ring.Len(r) - k0 && !(r.end <= p < r.end + k0))
  {
  }

  /** How a call to `Comm_Receive` ends the session. */
  datatype Quit = EndOfStream | Protocol(err: DecodeError) | Overflow

  /** The host's receive-side state: decoder stage, receive ring, and effects so far. */
  datatype Host = Host(st: Stage, ring: Ring.Ring, env: Env)

  /** Unread bytes from the peer, and whether the peer has closed its end. */
  datatype Link = Link(incoming: seq<byte>, closed: bool)

  predicate HostValid(h: Host) {
    Ring.Valid(h.ring) && ValidEnv(h.env)
  }

  /** An empty ring is moved back to the front of the array; contents are unchanged. */
  function Normalise(r: Ring.Ring): (r': Ring.Ring)
    requires Ring.Valid(r)
    ensures Ring.Valid(r') && Ring.Contents(r') == Ring.Contents(r)
    ensures Ring.Contents(r) == [] ==> r'.start == 0 && r'.end == 0
  {
    if Ring.IsEmpty(r) then Ring.Ring(r.data, 0, 0) else r
  }

  /**
   * The state `Comm_Receive` keeps between reads: a sane decoder stage that is
   * suspended on the ring's bytes, a ring that is not full, and an empty ring
   * kept at the front.
   */
  predicate Ready(h: Host) {
    HostValid(h) && StageOk(h.st) && Step(h.st, Ring.Contents(h.ring), h.env).Suspend?
    && !Ring.IsFull(h.ring) && (Ring.IsEmpty(h.ring) ==> h.ring.start == 0)
  }

  /** The host as a session starts: idle decoder, zeroed ring. */
  function Start(env: Env): (h: Host)
    requires ValidEnv(env)
    ensures Ready(h) && Ring.Contents(h.ring) == []
  {
    Host(AwaitTag, Ring.Empty(), env)
  }

  /**
   * One pass of the loop after a successful read: decode, then reposition an
   * empty ring at the front, or give up when the ring is full.
   */
  function Absorb(h: Host, bytes: seq<byte>): (res: Result<Host, Quit>)
    requires HostValid(h) && |bytes| <= WindowSize(h.ring)
    ensures res.Ok? ==> HostValid(res.value)
  {
    match RingHandle(h.st, ReceiveInto(h.ring, bytes), h.env)
    case Fatal(err) => Fatal(Protocol(err))
    case Ok(snap) =>
      if Ring.IsEmpty(snap.ring) then Ok(Host(snap.st, Normalise(snap.ring), snap.env))
      else if Ring.IsFull(snap.ring) then Fatal(Overflow)
      else Ok(Host(snap.st, snap.ring, snap.env))
  }

  /** One pass decodes the buffered bytes followed by the new ones, and never overflows. */
  lemma AbsorbDecodes(h: Host, bytes: seq<byte>)
    requires Ready(h) && |bytes| <= WindowSize(h.ring)
    ensures var d := Handle(h.st, Ring.Contents(h.ring) + bytes, h.env);
      var res := Absorb(h, bytes);
      && (d.Fatal? ==> res == Fatal(Protocol(d.error)))
      && (d.Ok? ==>
            (res.Ok? && Ready(res.value) && res.value.st == d.value.st
             && res.value.env == d.value.env && Ring.Contents(res.value.ring) == d.value.pending))
  {
    var d := Handle(h.st, Ring.Contents(h.ring) + bytes, h.env);
    HandleKeeps(h.st, Ring.Contents(h.ring) + bytes, h.env);
    if d.Ok? {
      SuspendedBound(d.value.st, d.value.pending, d.value.env);
    }
  }

  /**
   * `Comm_Receive` against the link. A read returns as many bytes as are both
   * pending and fit in the window; a read that returns nothing means end of
   * stream (the peer closed, or the window was empty), and with nothing pending
   * on an open link the read would block and the call returns.
   */
  function Receive(h: Host, link: Link): (res: Result<(Host, Link), Quit>)
    requires HostValid(h)
    ensures res.Ok? ==> HostValid(res.value.0) && res.value.1 == Link([], false)
    decreases |link.incoming|
  {
    var w := WindowSize(h.ring);
    if link.incoming == [] then
      if link.closed then Fatal(EndOfStream) else Ok((h, link))
    else if w == 0 then Fatal(EndOfStream)
    else
      var n := FirstRead(h, link);
      match Absorb(h, link.incoming[..n])
      case Fatal(q) => Fatal(q)
      case Ok(h') => Receive(h', link.(incoming := link.incoming[n..]))
  }

  /**
   * What `Comm_Receive` achieves: however the bytes are split into reads by
   * the window, the outcome is one decoding of all buffered and received bytes.
   * A protocol error ends the session with that error; otherwise the decoder
   * is left suspended on the same leftover bytes, and the session ends only
   * when the peer has closed. The overflow exit is never taken.
   */
  lemma {:induction false} ReceiveDecodesAll(h: Host, link: Link)
    requires Ready(h)
    ensures var d := Handle(h.st, Ring.Contents(h.ring) + link.incoming, h.env);
      var res := Receive(h, link);
      && (d.Fatal? ==> res == Fatal(Protocol(d.error)))
      && (d.Ok? && link.closed ==> res == Fatal(EndOfStream))
      && (d.Ok? && !link.closed ==>
            (res.Ok? && Ready(res.value.0) && res.value.0.st == d.value.st
             && res.value.0.env == d.value.env && Ring.Contents(res.value.0.ring) == d.value.pending))
    decreases |link.incoming|
  {
    var c := Ring.Contents(h.ring);
    if link.incoming == [] {
      assert c + link.incoming == c;
    } else {
      var n := FirstRead(h, link);
      ReceiveStep(h, link);
      match Absorb(h, link.incoming[..n])
      case Fatal(q) =>
      case Ok(h') =>
        ReceiveDecodesAll(h', link.(incoming := link.incoming[n..]));
    }
  }

  /** How many bytes the first read of a loop pass returns: what is pending, up to the window. */
  function FirstRead(h: Host, link: Link): (n: nat)
    requires HostValid(h)
    ensures n <= |link.incoming| && n <= WindowSize(h.ring)
  {
    var w := WindowSize(h.ring);
    if |link.incoming| <= w then |link.incoming| else w
  }

  /**
   * One pass of the receive loop: a protocol error from the first read is the
   * error of decoding everything; otherwise the loop carries on from a ready
   * state whose decoding of the remaining bytes is the decoding of everything.
   */
  lemma ReceiveStep(h: Host, link: Link)
    requires Ready(h) && link.incoming != []
    ensures var n := FirstRead(h, link);
      var rest := link.incoming[n..];
      var d := Handle(h.st, Ring.Contents(h.ring) + link.incoming, h.env);
      var a := Absorb(h, link.incoming[..n]);
      && (a.Fatal? ==> d.Fatal? && a == Fatal(Protocol(d.error)) && Receive(h, link) == Fatal(Protocol(d.error)))
      && (a.Ok? ==>
            && Ready(a.value)
            && Receive(h, link) == Receive(a.value, link.(incoming := rest))
            && Handle(a.value.st, Ring.Contents(a.value.ring) + rest, a.value.env) == d)
  {
    var n := FirstRead(h, link);
    ReceiveUnfold(h, link);
    FirstSplit(h, link);
    AbsorbDecodes(h, link.incoming[..n]);
  }

  /** The receive loop after one read, as its definition says. */
  lemma ReceiveUnfold(h: Host, link: Link)
    requires Ready(h) && link.incoming != []
    ensures var n := FirstRead(h, link);
      var a := Absorb(h, link.incoming[..n]);
      && (a.Fatal? ==> Receive(h, link) == Fatal(a.error))
      && (a.Ok? ==> Receive(h, link) == Receive(a.value, link.(incoming := link.incoming[n..])))
  {
    WindowOpen(h);
  }

  /** Decoding everything is decoding the first read, then resuming on the rest. */
  lemma FirstSplit(h: Host, link: Link)
    requires Ready(h)
    ensures var n := FirstRead(h, link);
      var c := Ring.Contents(h.ring);
      Handle(h.st, c + link.incoming, h.env)
        == Resume(Handle(h.st, c + link.incoming[..n], h.env), link.incoming[n..])
  {
    SplitAt(h.st, Ring.Contents(h.ring), link.incoming, FirstRead(h, link), h.env);
  }

  lemma SplitAt(st: Stage, c: seq<byte>, x: seq<byte>, n: nat, e: Env)
    requires ValidEnv(e) && n <= |x|
    ensures Handle(st, c + x, e) == Resume(Handle(st, c + x[..n], e), x[n..])
  {
    var a, b := c + x[..n], x[n..];
    Rejoin(c, x, n);
    HandleSplit(st, a, b, e);
  }

  lemma Rejoin(c: seq<byte>, x: seq<byte>, n: nat)
    requires n <= |x|
    ensures c + x[..n] + x[n..] == c + x
  {
    assert x[..n] + x[n..] == x;
  }

  /** A ready ring is not full, so the window has room for at least one byte. */
  lemma WindowOpen(h: Host)
    requires Ready(h)
    ensures WindowSize(h.ring) > 0
  {
  }
}

=== FILE: ring.dfy ===
/**
 * The fixed 512-slot circular byte buffer (`ringbuf_t`) used both for received
 * bytes and for queued key events. One slot is always kept free, so that
 * `start == end` can only mean "empty".
 */
module Ring {
  import opened Bytes
  import opened Wrappers

  const SIZE: nat := 512
  /** Usable capacity: one less than the slot count. */
  const CAP: nat := SIZE - 1

  datatype Ring = Ring(data: seq<byte>, start: nat, end: nat)

  /** The backing array has SIZE slots and both indices point into it. */
  predicate Valid(r: Ring) {
    |r.data| == SIZE && r.start < SIZE && r.end < SIZE
  }

  /** A zeroed ring with both indices at the front, as a static ringbuf_t starts. */
  function Empty(): (r: Ring)
    ensures Valid(r) && Contents(r) == []
  {
    Ring(seq(SIZE, _ => 0), 0, 0)
  }

  /** Number of buffered bytes (`Ring_GetLen`). */
  function Len(r: Ring): (n: nat)
    requires Valid(r)
    ensures n <= CAP
    ensures n == (r.end - r.start) % SIZE
  {
    if r.end >= r.start then r.end - r.start else SIZE - r.start + r.end
  }

  /** The buffered bytes in logical order, from `start` round to `end`. */
  function Contents(r: Ring): (c: seq<byte>)
    requires Valid(r)
    ensures |c| == Len(r)
  {
    seq(Len(r), i requires 0 <= i < Len(r) => r.data[(r.start + i) % SIZE])
  }

  /** `Ring_IsEmpty`. */
  function IsEmpty(r: Ring): (b: bool)
    requires Valid(r)
    ensures b <==> Contents(r) == []
  {
    r.start == r.end
  }

  /** `Ring_IsFull`: true exactly when CAP bytes are buffered. */
  function IsFull(r: Ring): (b: bool)
    requires Valid(r)
    ensures b <==> |Contents(r)| == CAP
  {
    (r.end + 1) % SIZE == r.start
  }

  /** Moving `start` forward by k slots drops exactly the first k logical bytes. */
  lemma Advance(r: Ring, k: nat)
    requires Valid(r) && k <= Len(r)
    ensures Valid(r.(start := (r.start + k) % SIZE))
    ensures Contents(r.(start := (r.start + k) % SIZE)) == Contents(r)[k..]
  {
    var r' := r.(start := (r.start + k) % SIZE);
    assert Len(r') == Len(r) - k;
    forall i | 0 <= i < Len(r')
      ensures Contents(r')[i] == Contents(r)[k..][i]
    {
      assert (r'.start + i) % SIZE == (r.start + (k + i)) % SIZE;
    }
  }

  /** `Ring_Read8`: takes the first byte, or fails with the ring untouched when empty. */
  function Read8(r: Ring): (res: Option<(byte, Ring)>)
    requires Valid(r)
    ensures res.None? <==> |Contents(r)| < 1
    ensures res.Some? ==> Valid(res.value.1)
    ensures res.Some? ==> res.value.0 == Contents(r)[0]
    ensures res.Some? ==> Contents(res.value.1) == Contents(r)[1..]
  {
    if IsEmpty(r) then None
    else
      Advance(r, 1);
      Some((r.data[r.start], r.(start := (r.start + 1) % SIZE)))
  }

  /** `Ring_Read16`: the first two bytes as a little-endian value, all or nothing. */
  function Read16(r: Ring): (res: Option<(int, Ring)>)
    requires Valid(r)
    ensures res.None? <==> |Contents(r)| < 2
    ensures res.Some? ==> Valid(res.value.1)
    ensures res.Some? ==> res.value.0 == FromLE16(Contents(r)[0], Contents(r)[1])
    ensures res.Some? ==> Contents(res.value.1) == Contents(r)[2..]
  {
    if Len(r) < 2 then None
    else
      var s1 := (r.start + 1) % SIZE;
      Advance(r, 2);
      assert (r.start + 2) % SIZE == (s1 + 1) % SIZE;
      Some((r.data[r.start] as int + 256 * r.data[s1] as int, r.(start := (s1 + 1) % SIZE)))
  }

  /**
   * `Ring_ReadBytes`: the first n bytes, copied in at most two pieces (up to the
   * end of the array, then from its front). Fails without consuming when fewer
   * than n bytes are buffered; n == 0 always succeeds.
   */
  function ReadBytes(r: Ring, n: nat): (res: Option<(seq<byte>, Ring)>)
    requires Valid(r)
    ensures res.None? <==> |Contents(r)| < n
    ensures res.Some? ==> Valid(res.value.1)
    ensures res.Some? ==> res.value.0 == Contents(r)[..n]
    ensures res.Some? ==> Contents(res.value.1) == Contents(r)[n..]
  {
    if n == 0 then
      assert Contents(r)[..0] == [] && Contents(r)[0..] == Contents(r);
      Some(([], r))
    else if Len(r) < n then None
    else
      var first0 := if r.start <= r.end then r.end - r.start else SIZE - r.start;
      var first := if first0 > n then n else first0;
      var part1 := r.data[r.start .. r.start + first];
      var s1 := (r.start + first) % SIZE;
      var rest := n - first;
      if rest == 0 then
        Advance(r, n);
        OnePiece(r, n);
        Some((part1, r.(start := s1)))
      else
        Wrapped(r, n, first);
        var part2 := r.data[0 .. rest];
        Advance(r, n);
        TwoPieces(r, n);
        Some((part1 + part2, r.(start := rest)))
  }

  /** When the first piece stops short of n, it ran to the end of the array. */
  lemma Wrapped(r: Ring, n: nat, first: nat)
    requires Valid(r) && 0 < n <= Len(r)
    requires first == if r.start <= r.end then (if r.end - r.start > n then n else r.end - r.start)
      else (if SIZE - r.start > n then n else SIZE - r.start)
    requires first < n
    ensures r.start + first == SIZE && r.start + n > SIZE && n - first <= r.end
    ensures (r.start + n) % SIZE == n - first
  {
  }

  /** Without wrapping, the first n logical bytes are one contiguous slice. */
  lemma OnePiece(r: Ring, n: nat)
    requires Valid(r) && n <= Len(r) && r.start + n <= SIZE
    ensures r.data[r.start .. r.start + n] == Contents(r)[..n]
  {
    forall i | 0 <= i < n
      ensures r.data[r.start .. r.start + n][i] == Contents(r)[i]
    {
      assert (r.start + i) % SIZE == r.start + i;
    }
  }

  /** Across the wrap point, the first n logical bytes are the tail of the array
      followed by its front. */
  lemma TwoPieces(r: Ring, n: nat)
    requires Valid(r) && n <= Len(r) && r.start + n > SIZE
    ensures r.data[r.start ..] + r.data[.. r.start + n - SIZE] == Contents(r)[..n]
  {
    var first := SIZE - r.start;
    var whole := r.data[r.start ..] + r.data[.. r.start + n - SIZE];
    forall i | 0 <= i < n
      ensures whole[i] == Contents(r)[i]
    {
      if i < first {
        assert (r.start + i) % SIZE == r.start + i;
      } else {
        assert (r.start + i) % SIZE == i - first;
      }
    }
  }

  /** `Ring_Write8`: appends one byte at the logical end, or fails unchanged when full. */
  function Write8(r: Ring, v: byte): (res: Option<Ring>)
    requires Valid(r)
    ensures res.None? <==> |Contents(r)| == CAP
    ensures res.Some? ==> Valid(res.value) && Contents(res.value) == Contents(r) + [v]
  {
    if IsFull(r) then None
    else
      WriteEnd(r, v);
      Some(Ring(r.data[r.end := v], r.start, (r.end + 1) % SIZE))
  }

  /** Storing at `end` and stepping it appends the byte and disturbs no buffered one. */
  lemma WriteEnd(r: Ring, v: byte)
    requires Valid(r) && Len(r) < CAP
    ensures var r' := Ring(r.data[r.end := v], r.start, (r.end + 1) % SIZE);
      Valid(r') && Contents(r') == Contents(r) + [v]
  {
    var r' := Ring(r.data[r.end := v], r.start, (r.end + 1) % SIZE);
    assert Len(r') == Len(r) + 1;
    forall i | 0 <= i < Len(r)
      ensures Contents(r')[i] == Contents(r)[i]
    {
      assert (r.start + i) % SIZE != r.end;
    }
    assert (r.start + Len(r)) % SIZE == r.end;
  }

  /** The ring is empty exactly when its indices coincide, and full exactly when
      the slot after `end` is `start`; its length never exceeds CAP. */
  lemma IndexCharacterisation(r: Ring)
    requires Valid(r)
    ensures r.start == r.end <==> Len(r) == 0
    ensures (r.end + 1) % SIZE == r.start <==> Len(r) == CAP
    ensures Len(r) <= CAP
  {
  }

  /** Writing a sequence of bytes one at a time then reading the same count back
      returns them unchanged, as long as they fit. */
  lemma {:induction false} WriteThenRead(r: Ring, bs: seq<byte>)
    requires Valid(r) && Len(r) == 0 && |bs| <= CAP
    ensures WriteAll(r, bs).Some?
    ensures Contents(WriteAll(r, bs).value) == bs
    ensures ReadBytes(WriteAll(r, bs).value, |bs|).Some?
    ensures ReadBytes(WriteAll(r, bs).value, |bs|).value.0 == bs
  {
    WriteAllAppends(r, bs);
  }

  /** Byte-by-byte `Ring_Write8` of a whole sequence; fails as soon as one write does. */
  function WriteAll(r: Ring, bs: seq<byte>): (res: Option<Ring>)
    requires Valid(r)
    ensures res.Some? ==> Valid(res.value)
    decreases |bs|
  {
    if bs == [] then Some(r)
    else
      match Write8(r, bs[0])
      case None => None
      case Some(r1) => WriteAll(r1, bs[1..])
  }

  lemma {:induction false} WriteAllAppends(r: Ring, bs: seq<byte>)
    requires Valid(r) && Len(r) + |bs| <= CAP
    ensures WriteAll(r, bs).Some?
    ensures Contents(WriteAll(r, bs).value) == Contents(r) + bs
    decreases |bs|
  {
    if bs != [] {
      var r1 := Write8(r, bs[0]).value;
      WriteAllAppends(r1, bs[1..]);
      assert Contents(r) + [bs[0]] + bs[1..] == Contents(r) + bs;
    }
  }

  /**
   * The low byte as `Ring_Read16` produces it where plain `char` is signed
   * (x86-64): the byte is read from the `char` array and sign-extended into
   * the 16-bit result, so a low byte of 0x80 or more sets all eight high bits
   * and hides the second byte.
   */
  function SignedCharLE16(lo: byte, hi: byte): (v: int)
    ensures 0 <= v < U16_LIMIT
  {
    if lo < 0x80 then lo as int + 256 * hi as int else 0xFF00 + lo as int
  }

  /** `Ring_Read16` as written, on a platform with signed `char`. */
  function Read16AsWritten(r: Ring): (res: Option<(int, Ring)>)
    requires Valid(r)
    ensures res.None? <==> |Contents(r)| < 2
    ensures res.Some? ==> Valid(res.value.1)
    ensures res.Some? ==> res.value.0 == SignedCharLE16(Contents(r)[0], Contents(r)[1])
    ensures res.Some? ==> Contents(res.value.1) == Contents(r)[2..]
  {
    match Read16(r)
    case None => None
    case Some((_, r')) => Some((SignedCharLE16(r.data[r.start], r.data[(r.start + 1) % SIZE]), r'))
  }

  /** The as-written read agrees with the little-endian one exactly when the low
      byte is below 0x80 or the high byte is already 0xFF. */
  lemma SignedReadAgreement(lo: byte, hi: byte)
    ensures SignedCharLE16(lo, hi) == FromLE16(lo, hi) <==> lo < 0x80 || hi == 0xFF
  {
  }

  /** A ring holding the bytes 0x80 0x00 (the value 128) reads back as 0xFF80. */
  lemma SignedReadCounterexample()
    ensures var r := Ring(Empty().data[0 := 0x80], 0, 2);
      Valid(r) && Contents(r) == [0x80, 0x00]
      && Read16(r).value.0 == 0x80 && Read16AsWritten(r).value.0 == 0xFF80
  {
    var r := Ring(Empty().data[0 := 0x80], 0, 2);
    assert Contents(r) == [0x80, 0x00];
  }
}

=== FILE: screen.dfy ===
/** Screen geometry shared by the frame path and the send buffer. */
module Screen {

  /** SCREENWIDTH and SCREENHEIGHT (i_video.h, not part of this model). */
  const SCREENWIDTH: nat := 320
  const SCREENHEIGHT: nat := 200

  /** Bytes per pixel of the R8G8B8 frame. */
  const BYTES_PER_PIXEL: nat := 3

  /** DOOMGENERIC_SCREEN_BUF_SIZE: one R8G8B8 frame. */
  const SCREEN_BUF_SIZE: nat := SCREENWIDTH * SCREENHEIGHT * BYTES_PER_PIXEL
}

=== FILE: screens.dfy ===
/** The menu, intermission and finale frame messages. */
module Screens {
  import opened Bytes
  import opened Wrappers
  import opened SendBuffer
  import opened WireRead
  import opened OutMsg

  // ----- Menu, intermission, finale -----

  /** The menu-specific trailer of AMSG_FRAME_MENU. */
  datatype MenuVars =
    | NoVars
    | OptionsVars(lowDetail: bool, messagesOn: bool, sensitivity: int, screenSize: int)
    | SoundVars(sfxVolume: int, musicVolume: int)
    | SaveSlotsVars(slots: seq<seq<byte>>, editIndex: int)

  /** The C asserts in `DG_DrawMenu`: sizes fit their wire fields. */
  predicate MenuFits(typeCode: int, items: seq<seq<byte>>, selected: int, vars: MenuVars) {
    0 <= typeCode < 256 && |items| < U16_LIMIT && 0 <= selected < 256
    && match vars
       case NoVars => true
       case OptionsVars(_, _, sens, size) => IsI8(sens) && IsI8(size)
       case SoundVars(sfx, music) => IsI8(sfx) && IsI8(music)
       case SaveSlotsVars(slots, edit) => |slots| < U16_LIMIT && IsI8(edit)
  }

  function Strs(ss: seq<seq<byte>>): (fs: seq<Field>)
    ensures |fs| == |ss| && forall i :: 0 <= i < |ss| ==> fs[i] == Str(ss[i])
  {
    seq(|ss|, i requires 0 <= i < |ss| => Str(ss[i]))
  }

  /** Every string fits the u16 length prefix. */
  predicate ShortStrings(ss: seq<seq<byte>>) {
    forall i :: 0 <= i < |ss| ==> |ss[i]| <= MAX_STRING
  }

  lemma StrsEncodable(ss: seq<seq<byte>>)
    ensures Encodable(Strs(ss)) <==> ShortStrings(ss)
  {
    if !ShortStrings(ss) {
      var i :| 0 <= i < |ss| && |ss[i]| > MAX_STRING;
      assert !FieldEncodable(Strs(ss)[i]);
    }
  }

  function MenuVarsFields(vars: MenuVars): seq<Field> {
    match vars
    case NoVars => []
    case OptionsVars(low, msgs, sens, size) =>
      [U8((if low then 1 else 0) + (if msgs then 2 else 0)), U8(sens), U8(size)]
    case SoundVars(sfx, music) => [U8(sfx), U8(music)]
    case SaveSlotsVars(slots, edit) => [U16(|slots|)] + Strs(slots) + [U8(edit)]
  }

  /**
   * AMSG_FRAME_MENU: tag, menu type, the item count followed by that many
   * item names, the selected index, then the menu's own variables.
   */
  function MenuMsg(typeCode: int, items: seq<seq<byte>>, selected: int, vars: MenuVars): (fs: seq<Field>)
    requires MenuFits(typeCode, items, selected, vars)
    ensures |fs| == 4 + |items| + |MenuVarsFields(vars)|
    ensures fs[..3] == [U8(AMSG_FRAME_MENU), U8(typeCode), U16(|items|)]
    ensures fs[3..3 + |items|] == Strs(items)
    ensures fs[3 + |items|] == U8(selected)
    ensures fs[4 + |items|..] == MenuVarsFields(vars)
    ensures Encodable(fs) <==> ShortStrings(items) && (vars.SaveSlotsVars? ==> ShortStrings(vars.slots))
  {
    var head := [U8(AMSG_FRAME_MENU), U8(typeCode), U16(|items|)];
    var fs := head + Strs(items) + [U8(selected)] + MenuVarsFields(vars);
    assert fs[..3] == head && fs[3..3 + |items|] == Strs(items) && fs[3 + |items|] == U8(selected)
      && fs[4 + |items|..] == MenuVarsFields(vars) by {
      Layout(head, Strs(items), U8(selected), MenuVarsFields(vars));
    }
    assert Encodable(fs) <==> ShortStrings(items) && (vars.SaveSlotsVars? ==> ShortStrings(vars.slots)) by {
      MenuEncodable(head, items, U8(selected), vars);
    }
    fs
  }

  /** Where the pieces of a three-field head, a middle, one field and a tail sit. */
  lemma Layout(head: seq<Field>, mid: seq<Field>, x: Field, tail: seq<Field>)
    requires |head| == 3
    ensures var fs := head + mid + [x] + tail;
      && fs[..3] == head && fs[3..3 + |mid|] == mid && fs[3 + |mid|] == x && fs[4 + |mid|..] == tail
  {
  }

  /** The menu fields are encodable exactly when every item name and save-slot name is short. */
  lemma MenuEncodable(head: seq<Field>, items: seq<seq<byte>>, x: Field, vars: MenuVars)
    requires Encodable(head) && FieldEncodable(x)
    ensures Encodable(head + Strs(items) + [x] + MenuVarsFields(vars))
      <==> ShortStrings(items) && (vars.SaveSlotsVars? ==> ShortStrings(vars.slots))
  {
    StrsEncodable(items);
    AppendEncodable(head, Strs(items));
    AppendEncodable(head + Strs(items), [x]);
    AppendEncodable(head + Strs(items) + [x], MenuVarsFields(vars));
    if vars.SaveSlotsVars? {
      StrsEncodable(vars.slots);
      AppendEncodable([U16(|vars.slots|)], Strs(vars.slots));
      AppendEncodable([U16(|vars.slots|)] + Strs(vars.slots), [U8(vars.editIndex)]);
    }
  }

  lemma AppendEncodable(xs: seq<Field>, ys: seq<Field>)
    ensures Encodable(xs + ys) <==> Encodable(xs) && Encodable(ys)
  {
    if Encodable(xs + ys) {
      forall i | 0 <= i < |xs| ensures FieldEncodable(xs[i]) {
        assert xs[i] == (xs + ys)[i];
      }
      forall i | 0 <= i < |ys| ensures FieldEncodable(ys[i]) {
        assert ys[i] == (xs + ys)[|xs| + i];
      }
    }
  }

  /**
   * The client reads the menu message with one string per announced item: the
   * count field equals the number of item names that follow, each read back
   * in order, followed by the selected index.
   */
  lemma MenuRoundTrip(typeCode: int, items: seq<seq<byte>>, selected: int, vars: MenuVars)
    requires MenuFits(typeCode, items, selected, vars)
    requires ShortStrings(items) && (vars.SaveSlotsVars? ==> ShortStrings(vars.slots))
    ensures var fs := MenuMsg(typeCode, items, selected, vars);
      var vs := Values(fs);
      && ReadMessage(Kinds(fs), Encode(fs)) == Some(vs)
      && vs[..3] == [Num(AMSG_FRAME_MENU), Num(typeCode), Num(|items|)]
      && (forall i :: 0 <= i < |items| ==> Kinds(fs)[3 + i] == KStr && vs[3 + i] == Blob(items[i]))
      && vs[3 + |items|] == Num(selected)
  {
    var fs := MenuMsg(typeCode, items, selected, vars);
    ReadMessageEncoded(fs);
    assert fs[0] == U8(AMSG_FRAME_MENU) && fs[1] == U8(typeCode) && fs[2] == U16(|items|);
    forall i | 0 <= i < |items|
      ensures Kinds(fs)[3 + i] == KStr && Values(fs)[3 + i] == Blob(items[i])
    {
      assert fs[3 + i] == fs[3..3 + |items|][i] == Str(items[i]);
    }
  }

  /** The options trailer reads back as the two flags and the signed slider values. */
  lemma OptionsVarsRoundTrip(low: bool, msgs: bool, sens: int, size: int)
    requires IsI8(sens) && IsI8(size)
    ensures var vs := Values(MenuVarsFields(OptionsVars(low, msgs, sens, size)));
      && vs[0].Num? && (vs[0].n % 2 == 1 <==> low) && (vs[0].n / 2 == 1 <==> msgs)
      && vs[1].Num? && vs[1].n < 256 && AsI8(vs[1].n) == sens
      && vs[2].Num? && vs[2].n < 256 && AsI8(vs[2].n) == size
  {
    SignedRoundTrip8(sens);
    SignedRoundTrip8(size);
  }

  /** stateenum_t value for the tally screen, the only state that carries statistics. */
  datatype WiStats = WiStats(kills: int, items: int, secret: int, time: int, par: int)

  predicate StatsFit(w: WiStats) {
    IsI32(w.kills) && IsI32(w.items) && IsI32(w.secret) && IsI32(w.time) && IsI32(w.par)
  }

  /** AMSG_FRAME_INTERMISSION: tag, the state as i8, then five i32 only when statistics are given. */
  function IntermissionMsg(state: int, stats: Option<WiStats>): (fs: seq<Field>)
    requires IsI8(state) && (stats.Some? ==> StatsFit(stats.value))
    ensures Encodable(fs)
    ensures |fs| == if stats.Some? then 7 else 2
  {
    [U8(AMSG_FRAME_INTERMISSION), U8(state)]
    + match stats
      case None => []
      case Some(w) => [U32(w.kills), U32(w.items), U32(w.secret), U32(w.time), U32(w.par)]
  }

  function I32Of(v: Value): int {
    if v.Num? && v.n < U32_LIMIT then AsI32(v.n) else 0
  }

  /** The client's decoding of an intermission message's values. */
  function DecodeIntermission(vs: seq<Value>): Option<(int, Option<WiStats>)> {
    if |vs| < 2 || vs[0] != Num(AMSG_FRAME_INTERMISSION) || !vs[1].Num? || vs[1].n >= 256 then None
    else if |vs| == 2 then Some((AsI8(vs[1].n), None))
    else if |vs| == 7 then
      Some((AsI8(vs[1].n), Some(WiStats(I32Of(vs[2]), I32Of(vs[3]), I32Of(vs[4]), I32Of(vs[5]), I32Of(vs[6])))))
    else None
  }

  /** The field layout the client reads: tag and state, then five u32 when statistics follow. */
  function IntermissionKinds(withStats: bool): seq<Kind> {
    [KU8, KU8] + if withStats then [KU32, KU32, KU32, KU32, KU32] else []
  }

  /** The client decodes the (possibly negative) state and the statistics that were written. */
  lemma IntermissionValues(state: int, stats: Option<WiStats>)
    requires IsI8(state) && (stats.Some? ==> StatsFit(stats.value))
    ensures DecodeIntermission(Values(IntermissionMsg(state, stats))) == Some((state, stats))
  {
    var fs := IntermissionMsg(state, stats);
    var vs := Values(fs);
    SignedRoundTrip8(state);
    assert vs[0] == Num(AMSG_FRAME_INTERMISSION) && vs[1] == Num(ToU8(state));
    if stats.Some? {
      var w := stats.value;
      assert fs[2] == U32(w.kills) && fs[3] == U32(w.items) && fs[4] == U32(w.secret);
      assert fs[5] == U32(w.time) && fs[6] == U32(w.par);
      SignedRoundTrip32(w.kills);
      SignedRoundTrip32(w.items);
      SignedRoundTrip32(w.secret);
      SignedRoundTrip32(w.time);
      SignedRoundTrip32(w.par);
    }
  }

  /**
   * The intermission message has the statistics fields exactly when statistics
   * are given, and the client reads back the state and the statistics.
   */
  lemma IntermissionRoundTrip(state: int, stats: Option<WiStats>)
    requires IsI8(state) && (stats.Some? ==> StatsFit(stats.value))
    ensures var fs := IntermissionMsg(state, stats);
      && Kinds(fs) == IntermissionKinds(stats.Some?)
      && ReadMessage(IntermissionKinds(stats.Some?), Encode(fs)) == Some(Values(fs))
      && DecodeIntermission(Values(fs)) == Some((state, stats))
  {
    var fs := IntermissionMsg(state, stats);
    ReadMessageEncoded(fs);
    assert Kinds(fs) == IntermissionKinds(stats.Some?);
    IntermissionValues(state, stats);
  }

  /** AMSG_FRAME_FINALE: tag, then the count of finale characters shown so far as u16. */
  function FinaleCountMsg(count: int): (fs: seq<Field>)
    requires 0 <= count < U16_LIMIT
    ensures Encodable(fs)
    ensures Encode(fs) == [AMSG_FRAME_FINALE] + LE16(count)
  {
    Encode2(U8(AMSG_FRAME_FINALE), U16(count));
    [U8(AMSG_FRAME_FINALE), U16(count)]
  }

  /** AMSG_FINALE_TEXT: tag, the finale stage as u8, then the text as a string. */
  function FinaleTextMsg(stage: int, text: seq<byte>): (fs: seq<Field>)
    requires 0 <= stage < 256
    ensures Encodable(fs) <==> |text| <= MAX_STRING
    ensures Encodable(fs) ==> Encode(fs) == [AMSG_FINALE_TEXT, stage] + LE16(|text|) + text
  {
    var fs := [U8(AMSG_FINALE_TEXT), U8(stage), Str(text)];
    assert |text| <= MAX_STRING ==> Encodable(fs) && Encode(fs) == [AMSG_FINALE_TEXT, stage] + LE16(|text|) + text by {
      if |text| <= MAX_STRING {
        Encode3(U8(AMSG_FINALE_TEXT), U8(stage), Str(text));
      }
    }
    assert !FieldEncodable(fs[2]) ==> !Encodable(fs);
    fs
  }

  /** The client reads the finale count back as its tag and the count. */
  lemma FinaleCountRoundTrip(count: int)
    requires 0 <= count < U16_LIMIT
    ensures ReadMessage([KU8, KU16], Encode(FinaleCountMsg(count))) == Some([Num(AMSG_FRAME_FINALE), Num(count)])
  {
    var fs := FinaleCountMsg(count);
    ReadMessageEncoded(fs);
    assert Kinds(fs) == [KU8, KU16];
    assert Values(fs) == [Num(AMSG_FRAME_FINALE), Num(count)];
  }

  /** The client reads the finale text back as its tag, the stage and exactly the text. */
  lemma FinaleTextRoundTrip(stage: int, text: seq<byte>)
    requires 0 <= stage < 256 && |text| <= MAX_STRING
    ensures ReadMessage([KU8, KU8, KStr], Encode(FinaleTextMsg(stage, text)))
      == Some([Num(AMSG_FINALE_TEXT), Num(stage), Blob(text)])
  {
    var fs := FinaleTextMsg(stage, text);
    ReadMessageEncoded(fs);
    assert Kinds(fs) == [KU8, KU8, KStr];
    assert Values(fs) == [Num(AMSG_FINALE_TEXT), Num(stage), Blob(text)];
  }
}

=== FILE: sendbuf.dfy ===
/**
 * The bounded outbound staging buffer (`comm_send_buf`) and its little-endian
 * encoders. The socket is abstracted: a flush appends the buffered bytes to
 * `sent`, the log of everything handed to `send()`, and empties the buffer.
 */
module SendBuffer {
  import opened Bytes
  import opened Wrappers
  import Screen

  /** COMM_SEND_BUF_CAP: a whole frame plus the same again of leeway. */
  const CAP: nat := 2 * Screen.SCREEN_BUF_SIZE

  /** Largest length a wire string can carry (UINT16_MAX). */
  const MAX_STRING: nat := 0xFFFF

  /**
   * buf: bytes staged but not yet flushed; sent: everything flushed so far;
   * writing: the `comm_writing_msg` guard of COMM_WRITE_MSG.
   */
  datatype Sender = Sender(buf: seq<byte>, sent: seq<byte>, writing: bool)

  datatype SendError = StringTooLong(len: nat) | NestedMessage

  predicate Valid(s: Sender) {
    |s.buf| <= CAP
  }

  /** Every byte written so far, flushed or not, in order. */
  function Wire(s: Sender): seq<byte> {
    s.sent + s.buf
  }

  function Initial(): (s: Sender)
    ensures Valid(s) && Wire(s) == [] && !s.writing
  {
    Sender([], [], false)
  }

  /** `Comm_FlushSend` as seen from the buffer: the staged bytes leave, in order. */
  function Flush(s: Sender): (s': Sender)
    ensures s'.buf == [] && s'.sent == s.sent + s.buf
    ensures Wire(s') == Wire(s) && s'.writing == s.writing
  {
    Sender([], s.sent + s.buf, s.writing)
  }

  /**
   * Appends an encoded scalar as `Comm_Write8/16/32` do: flush first when the
   * scalar would not fit, so its bytes always land in one buffer.
   */
  function PutScalar(s: Sender, enc: seq<byte>): (s': Sender)
    requires Valid(s) && 0 < |enc| <= 4
    ensures Valid(s') && Wire(s') == Wire(s) + enc && s'.writing == s.writing
    ensures |s.buf| + |enc| <= CAP ==> s'.sent == s.sent && s'.buf == s.buf + enc
    ensures |s.buf| + |enc| > CAP ==> s'.sent == s.sent + s.buf && s'.buf == enc
  {
    if |s.buf| + |enc| > CAP then Sender(enc, s.sent + s.buf, s.writing)
    else s.(buf := s.buf + enc)
  }

  /** `Comm_Write8`: the argument converted to `uint8_t`. */
  function Write8(s: Sender, v: int): (s': Sender)
    requires Valid(s) && s.writing
    ensures Valid(s') && Wire(s') == Wire(s) + [ToU8(v)]
    ensures s'.writing
  {
    PutScalar(s, [ToU8(v)])
  }

  /** `Comm_Write16`: the argument converted to `uint16_t`, low byte first. */
  function Write16(s: Sender, v: int): (s': Sender)
    requires Valid(s) && s.writing
    ensures Valid(s') && Wire(s') == Wire(s) + LE16(ToU16(v))
    ensures s'.writing
  {
    PutScalar(s, LE16(ToU16(v)))
  }

  /** `Comm_Write32`: the argument converted to `uint32_t`, least significant byte first. */
  function Write32(s: Sender, v: int): (s': Sender)
    requires Valid(s) && s.writing
    ensures Valid(s') && Wire(s') == Wire(s) + LE32(ToU32(v))
    ensures s'.writing
  {
    PutScalar(s, LE32(ToU32(v)))
  }

  /** Arithmetic behind the flush count of WriteBytes. */
  lemma FlushCount(total: nat, k: nat, last: nat)
    requires total == k * CAP + last && 0 < last <= CAP
    ensures k == (total - 1) / CAP
  {
  }

  /**
   * `Comm_WriteBytes`: fills the free space, flushes a full buffer, and repeats
   * until every byte is staged. The buffer is only ever flushed when full, so
   * the number of bytes flushed is the least multiple of CAP that leaves a
   * non-empty remainder staged.
   */
  method WriteBytes(s: Sender, p: seq<byte>) returns (s': Sender)
    requires Valid(s) && s.writing
    ensures Valid(s') && s'.writing
    ensures Wire(s') == Wire(s) + p
    ensures |s.buf| + |p| <= CAP ==> s'.sent == s.sent
    ensures |p| > 0 ==> |s'.sent| - |s.sent| == (|s.buf| + |p| - 1) / CAP * CAP
  {
    var cur := s;
    var rest := p;
    ghost var flushes: nat := 0;
    while true
      invariant Valid(cur) && cur.writing
      invariant Wire(cur) + rest == Wire(s) + p
      invariant |cur.sent| == |s.sent| + flushes * CAP
      invariant |p| > 0 ==> |rest| > 0
      invariant flushes == 0 ==> cur.sent == s.sent
      invariant flushes > 0 ==> |s.buf| + |p| > CAP
      decreases |rest|, |cur.buf|
    {
      var free := CAP - |cur.buf|;
      var copyLen := if |rest| <= free then |rest| else free;
      Stage(cur, rest, copyLen);
      cur := cur.(buf := cur.buf + rest[..copyLen]);
      rest := rest[copyLen..];
      if |rest| == 0 {
        break;
      }
      // The buffer is full here.
      cur := Flush(cur);
      flushes := flushes + 1;
    }
    s' := cur;
    if |p| > 0 {
      FlushCount(|s.buf| + |p|, flushes, |cur.buf|);
    }
  }

  /** Staging the first c unwritten bytes moves them from `rest` onto the wire, in order. */
  lemma Stage(cur: Sender, rest: seq<byte>, c: nat)
    requires c <= |rest|
    ensures Wire(cur.(buf := cur.buf + rest[..c])) + rest[c..] == Wire(cur) + rest
  {
    assert rest == rest[..c] + rest[c..];
  }

  /** `Comm_WriteString`: u16 length then the raw bytes; fatal above UINT16_MAX. */
  method WriteString(s: Sender, str: seq<byte>) returns (res: Result<Sender, SendError>)
    requires Valid(s) && s.writing
    ensures res.Fatal? <==> |str| > MAX_STRING
    ensures res.Fatal? ==> res.error == StringTooLong(|str|)
    ensures res.Ok? ==> Valid(res.value) && res.value.writing
    ensures res.Ok? ==> Wire(res.value) == Wire(s) + LE16(|str|) + str
  {
    if |str| > MAX_STRING {
      return Fatal(StringTooLong(|str|));
    }
    var s1 := Write16(s, |str|);
    var s2 := WriteBytes(s1, str);
    return Ok(s2);
  }

  /** One argument of an outbound message, as the message writers pass it. */
  datatype Field =
    | U8(v: int)
    | U16(v: int)
    | U32(v: int)
    | Raw(bytes: seq<byte>)
    | Str(str: seq<byte>)

  predicate FieldEncodable(f: Field) {
    f.Str? ==> |f.str| <= MAX_STRING
  }

  predicate Encodable(fs: seq<Field>) {
    forall i :: 0 <= i < |fs| ==> FieldEncodable(fs[i])
  }

  /** Wire bytes of one field. */
  function EncodeField(f: Field): seq<byte>
    requires FieldEncodable(f)
  {
    match f
    case U8(v) => [ToU8(v)]
    case U16(v) => LE16(ToU16(v))
    case U32(v) => LE32(ToU32(v))
    case Raw(b) => b
    case Str(str) => LE16(|str|) + str
  }

  /** Wire bytes of a message: its fields' encodings back to back. */
  function Encode(fs: seq<Field>): seq<byte>
    requires Encodable(fs)
  {
    if fs == [] then [] else EncodeField(fs[0]) + Encode(fs[1..])
  }

  lemma EncodeAppend(fs: seq<Field>, f: Field)
    requires Encodable(fs) && FieldEncodable(f)
    ensures Encodable(fs + [f])
    ensures Encode(fs + [f]) == Encode(fs) + EncodeField(f)
  {
    if fs != [] {
      assert (fs + [f])[1..] == fs[1..] + [f];
      EncodeAppend(fs[1..], f);
    }
  }

  /** Writes one field with the matching `Comm_Write*` helper. */
  method WriteField(s: Sender, f: Field) returns (res: Result<Sender, SendError>)
    requires Valid(s) && s.writing
    ensures res.Fatal? <==> !FieldEncodable(f)
    ensures res.Ok? ==> Valid(res.value) && res.value.writing
    ensures res.Ok? ==> Wire(res.value) == Wire(s) + EncodeField(f)
  {
    match f {
      case U8(v) => return Ok(Write8(s, v));
      case U16(v) => return Ok(Write16(s, v));
      case U32(v) => return Ok(Write32(s, v));
      case Raw(b) =>
        var s' := WriteBytes(s, b);
        return Ok(s');
      case Str(str) =>
        res := WriteString(s, str);
    }
  }

  /**
   * COMM_WRITE_MSG around a sequence of field writes. The guard refuses to
   * start a message while another is being written; a completed message
   * appears on the wire contiguously and the guard is released.
   */
  method WriteMsg(s: Sender, fs: seq<Field>) returns (res: Result<Sender, SendError>)
    requires Valid(s)
    ensures s.writing ==> res == Fatal(NestedMessage)
    ensures !s.writing ==> (res.Ok? <==> Encodable(fs))
    ensures res.Ok? ==> Valid(res.value) && !res.value.writing
    ensures res.Ok? ==> Encodable(fs) && Wire(res.value) == Wire(s) + Encode(fs)
  {
    if s.writing {
      return Fatal(NestedMessage);
    }
    var cur := s.(writing := true);
    var i := 0;
    while i < |fs|
      invariant 0 <= i <= |fs|
      invariant Valid(cur) && cur.writing
      invariant Encodable(fs[..i])
      invariant Wire(cur) == Wire(s) + Encode(fs[..i])
    {
      var r := WriteField(cur, fs[i]);
      if r.Fatal? {
        assert !FieldEncodable(fs[i]);
        return r;
      }
      FieldWritten(s, fs, i, cur, r.value);
      cur := r.value;
      i := i + 1;
    }
    assert fs[..i] == fs;
    return Ok(cur.(writing := false));
  }

  /** After the i-th field is written, the wire holds the encoding of the first i + 1 fields. */
  lemma FieldWritten(s: Sender, fs: seq<Field>, i: nat, cur: Sender, next: Sender)
    requires i < |fs| && Encodable(fs[..i]) && FieldEncodable(fs[i])
    requires Wire(cur) == Wire(s) + Encode(fs[..i])
    requires Wire(next) == Wire(cur) + EncodeField(fs[i])
    ensures Encodable(fs[..i + 1]) && Wire(next) == Wire(s) + Encode(fs[..i + 1])
  {
    EncodeAppend(fs[..i], fs[i]);
    assert fs[..i + 1] == fs[..i] + [fs[i]];
  }
}

=== FILE: status.dfy ===
/** The AMSG_PLAYER_STATUS message and its change detection. */
module PlayerStatus {
  import opened Bytes
  import opened Wrappers
  import opened SendBuffer
  import opened WireRead
  import opened OutMsg

  // ----- Player status -----

  const NUMAMMO: nat := 4

  /** The player fields the status message is built from. `readyAmmoType` is None for am_noammo. */
  datatype Player = Player(
    health: int, armorPoints: int, readyAmmoType: Option<nat>,
    ammo: seq<int>, maxAmmo: seq<int>, weaponOwned: seq<bool>, cards: seq<bool>)

  /** Array sizes as the player record has them (cards are blue, yellow, red key cards, then skulls). */
  predicate PlayerShape(p: Player) {
    |p.ammo| == NUMAMMO && |p.maxAmmo| == NUMAMMO && |p.weaponOwned| >= 7 && |p.cards| == 6
    && (p.readyAmmoType.Some? ==> p.readyAmmoType.value < NUMAMMO)
  }

  /** `player_status_t`. */
  datatype Status = Status(
    health: int, armor: int, readyAmmo: int, ammo: seq<int>, maxAmmo: seq<int>, armsBits: byte, keyBits: byte)

  /** The zeroed `last_status` before the first send. */
  const INITIAL_STATUS: Status := Status(0, 0, 0, [0, 0, 0, 0], [0, 0, 0, 0], 0, 0)

  /** `arms_bits`: bits 0-5 say whether the weapons in slots 2-7 are owned; bits 6 and 7 are clear. */
  function ArmsBits(owned: seq<bool>): (r: bv8)
    requires |owned| >= 7
    ensures r < 64
    ensures Bit(r, 0) <==> owned[1]
    ensures Bit(r, 1) <==> owned[2]
    ensures Bit(r, 2) <==> owned[3]
    ensures Bit(r, 3) <==> owned[4]
    ensures Bit(r, 4) <==> owned[5]
    ensures Bit(r, 5) <==> owned[6]
  {
    (if owned[1] then 1 else 0) | (if owned[2] then 2 else 0) | (if owned[3] then 4 else 0)
    | (if owned[4] then 8 else 0) | (if owned[5] then 16 else 0) | (if owned[6] then 32 else 0)
  }

  /** `key_bits`: bit 0 blue, bit 1 yellow, bit 2 red, each set for the card or the skull key. */
  function KeyBits(cards: seq<bool>): (r: bv8)
    requires |cards| == 6
    ensures r < 8
    ensures Bit(r, 0) <==> cards[0] || cards[3]
    ensures Bit(r, 1) <==> cards[1] || cards[4]
    ensures Bit(r, 2) <==> cards[2] || cards[5]
  {
    var blue: bv8 := if cards[0] || cards[3] then 1 else 0;
    var yellow: bv8 := if cards[1] || cards[4] then 1 else 0;
    var red: bv8 := if cards[2] || cards[5] then 1 else 0;
    blue | (yellow << 1) | (red << 2)
  }

  /** The status the player record stands for; the ready ammo is -1 for a weapon without ammo. */
  function StatusOf(p: Player): (s: Status)
    requires PlayerShape(p)
    ensures s.health == p.health && s.armor == p.armorPoints
    ensures s.readyAmmo == (if p.readyAmmoType.None? then -1 else p.ammo[p.readyAmmoType.value])
    ensures s.ammo == p.ammo && s.maxAmmo == p.maxAmmo
    ensures s.armsBits == ArmsBits(p.weaponOwned) as int && s.keyBits == KeyBits(p.cards) as int
  {
    Status(p.health, p.armorPoints,
           if p.readyAmmoType.None? then -1 else p.ammo[p.readyAmmoType.value],
           p.ammo, p.maxAmmo, ArmsBits(p.weaponOwned) as int, KeyBits(p.cards) as int)
  }

  /** The status fields fit the wire's signed 16-bit slots (the encoder asserts this). */
  predicate StatusFits(s: Status) {
    IsI16(s.health) && IsI16(s.armor) && IsI16(s.readyAmmo)
    && |s.ammo| == NUMAMMO && |s.maxAmmo| == NUMAMMO
    && (forall i :: 0 <= i < NUMAMMO ==> IsI16(s.ammo[i]))
    && (forall i :: 0 <= i < NUMAMMO ==> IsI16(s.maxAmmo[i]))
  }

  function PlayerStatusMsg(s: Status): (fs: seq<Field>)
    requires StatusFits(s)
    ensures Encodable(fs) && |fs| == 14
  {
    [U8(AMSG_PLAYER_STATUS), U16(s.health), U16(s.armor), U16(s.readyAmmo),
     U16(s.ammo[0]), U16(s.ammo[1]), U16(s.ammo[2]), U16(s.ammo[3]),
     U16(s.maxAmmo[0]), U16(s.maxAmmo[1]), U16(s.maxAmmo[2]), U16(s.maxAmmo[3]),
     U8(s.armsBits), U8(s.keyBits)]
  }

  /** What the client reads a player status message as: tag, eleven i16, two bit sets. */
  const STATUS_KINDS: seq<Kind> := [KU8, KU16, KU16, KU16, KU16, KU16, KU16, KU16, KU16, KU16, KU16, KU16, KU8, KU8]

  function I16Of(v: Value): int {
    if v.Num? && v.n < U16_LIMIT then AsI16(v.n) else 0
  }

  function ByteOf(v: Value): byte {
    if v.Num? && v.n < 256 then v.n else 0
  }

  /** The client's decoding of the values of a player status message. */
  function DecodeStatus(vs: seq<Value>): Option<Status> {
    if |vs| != 14 || vs[0] != Num(AMSG_PLAYER_STATUS) then None
    else Some(Status(I16Of(vs[1]), I16Of(vs[2]), I16Of(vs[3]),
                     [I16Of(vs[4]), I16Of(vs[5]), I16Of(vs[6]), I16Of(vs[7])],
                     [I16Of(vs[8]), I16Of(vs[9]), I16Of(vs[10]), I16Of(vs[11])],
                     ByteOf(vs[12]), ByteOf(vs[13])))
  }

  /** A signed 16-bit field reads back as the value written. */
  lemma I16Field(v: int)
    requires IsI16(v)
    ensures I16Of(ValueOf(U16(v))) == v
  {
    SignedRoundTrip16(v);
  }

  lemma StatusHead(s: Status)
    requires StatusFits(s)
    ensures var vs := Values(PlayerStatusMsg(s));
      && vs[0] == Num(AMSG_PLAYER_STATUS)
      && I16Of(vs[1]) == s.health && I16Of(vs[2]) == s.armor && I16Of(vs[3]) == s.readyAmmo
      && ByteOf(vs[12]) == s.armsBits && ByteOf(vs[13]) == s.keyBits
  {
    var fs := PlayerStatusMsg(s);
    assert fs[1] == U16(s.health) && fs[2] == U16(s.armor) && fs[3] == U16(s.readyAmmo);
    I16Field(s.health);
    I16Field(s.armor);
    I16Field(s.readyAmmo);
  }

  lemma StatusAmmo(s: Status)
    requires StatusFits(s)
    ensures var vs := Values(PlayerStatusMsg(s));
      && [I16Of(vs[4]), I16Of(vs[5]), I16Of(vs[6]), I16Of(vs[7])] == s.ammo
  {
    var fs := PlayerStatusMsg(s);
    assert fs[4] == U16(s.ammo[0]) && fs[5] == U16(s.ammo[1]) && fs[6] == U16(s.ammo[2]) && fs[7] == U16(s.ammo[3]);
    I16Field(s.ammo[0]);
    I16Field(s.ammo[1]);
    I16Field(s.ammo[2]);
    I16Field(s.ammo[3]);
  }

  lemma StatusMaxAmmo(s: Status)
    requires StatusFits(s)
    ensures var vs := Values(PlayerStatusMsg(s));
      && [I16Of(vs[8]), I16Of(vs[9]), I16Of(vs[10]), I16Of(vs[11])] == s.maxAmmo
  {
    var fs := PlayerStatusMsg(s);
    assert fs[8] == U16(s.maxAmmo[0]) && fs[9] == U16(s.maxAmmo[1]) && fs[10] == U16(s.maxAmmo[2]) && fs[11] == U16(s.maxAmmo[3]);
    I16Field(s.maxAmmo[0]);
    I16Field(s.maxAmmo[1]);
    I16Field(s.maxAmmo[2]);
    I16Field(s.maxAmmo[3]);
  }

  /** The client's reading of each status value gives back the signed field that was written. */
  lemma StatusValues(s: Status)
    requires StatusFits(s)
    ensures DecodeStatus(Values(PlayerStatusMsg(s))) == Some(s)
  {
    StatusHead(s);
    StatusAmmo(s);
    StatusMaxAmmo(s);
  }

  /**
   * A player status message is 25 bytes, always of the same layout, and the
   * client reads back exactly the status sent.
   */
  lemma PlayerStatusRoundTrip(s: Status)
    requires StatusFits(s)
    ensures |Encode(PlayerStatusMsg(s))| == 25
    ensures Kinds(PlayerStatusMsg(s)) == STATUS_KINDS
    ensures match ReadMessage(STATUS_KINDS, Encode(PlayerStatusMsg(s)))
      case Some(vs) => DecodeStatus(vs) == Some(s)
      case None => false
  {
    var fs := PlayerStatusMsg(s);
    EncodeLength(fs);
    assert EncodedSize(fs) == 25 by { SizeOfStatus(fs); }
    assert Kinds(fs) == STATUS_KINDS;
    ReadMessageEncoded(fs);
    StatusValues(s);
  }

  lemma SizeOfStatus(fs: seq<Field>)
    requires |fs| == 14 && fs[0].U8? && fs[12].U8? && fs[13].U8?
    requires forall i :: 1 <= i < 12 ==> fs[i].U16?
    ensures EncodedSize(fs) == 25
  {
    var k := 14;
    assert fs[14..] == [];
    while k > 0
      invariant 0 <= k <= 14
      invariant EncodedSize(fs[k..]) == if k >= 12 then 14 - k else if k >= 1 then 2 + 2 * (12 - k) else 25
      decreases k
    {
      k := k - 1;
      assert fs[k..][0] == fs[k] && fs[k..][1..] == fs[k + 1..];
    }
    assert fs[0..] == fs;
  }

  /**
   * `MaybeSendPlayerStatus`: sends the status only when it differs from the
   * last one sent, and then remembers it.
   */
  method MaybeSendPlayerStatus(s: Sender, last: Status, p: Player) returns (res: Result<Sender, SendError>, last': Status)
    requires Valid(s) && PlayerShape(p) && StatusFits(StatusOf(p))
    ensures StatusOf(p) == last ==> res == Ok(s) && last' == last
    ensures StatusOf(p) != last ==> (res.Ok? <==> !s.writing)
    ensures StatusOf(p) != last && res.Ok? ==>
      last' == StatusOf(p) && Valid(res.value) && !res.value.writing
      && Wire(res.value) == Wire(s) + Encode(PlayerStatusMsg(StatusOf(p)))
  {
    var status := StatusOf(p);
    if status == last {
      return Ok(s), last;
    }
    res := WriteMsg(s, PlayerStatusMsg(status));
    last' := if res.Ok? then status else last;
  }

  /**
   * Two calls in a row with the same player send the status at most once: the
   * second call finds it unchanged.
   */
  method StatusSentOnce(s: Sender, last: Status, p: Player) returns (res: Result<Sender, SendError>)
    requires Valid(s) && !s.writing && PlayerShape(p) && StatusFits(StatusOf(p))
    ensures res.Ok? && Valid(res.value) && !res.value.writing
    ensures StatusOf(p) == last ==> res.value == s
    ensures StatusOf(p) != last ==> Wire(res.value) == Wire(s) + Encode(PlayerStatusMsg(StatusOf(p)))
  {
    var first, remembered := MaybeSendPlayerStatus(s, last, p);
    var second, _ := MaybeSendPlayerStatus(first.value, remembered, p);
    res := second;
  }
}

=== FILE: text.dfy ===
/** Messages that carry one string, and the game message. */
module TextMessages {
  import opened Bytes
  import opened Wrappers
  import opened SendBuffer
  import opened WireRead
  import opened OutMsg

  // ----- Text messages -----

  /** `DG_OnMenuMessage`, `DG_OnSetAutomapTitle`, `DG_SetWindowTitle` and AMSG_QUIT. */
  function MenuMessageMsg(msg: seq<byte>): seq<Field> { TextMsg(AMSG_MENU_MESSAGE, msg) }
  function AutomapTitleMsg(title: seq<byte>): seq<Field> { TextMsg(AMSG_AUTOMAP_TITLE, title) }
  function SetTitleMsg(title: seq<byte>): seq<Field> { TextMsg(AMSG_SET_TITLE, title) }
  const QUIT_MSG: seq<Field> := [U8(AMSG_QUIT)]

  /**
   * `DG_OnGameMessage` as written: the prefix and message lengths are summed
   * into a u16 with no range check, then both are written raw. The length
   * field wraps modulo 65536.
   */
  function GameMessageAsWritten(prefix: seq<byte>, msg: seq<byte>): (fs: seq<Field>)
    ensures Encodable(fs)
    ensures Encode(fs) == [AMSG_GAME_MESSAGE] + LE16(ToU16(|prefix| + |msg|)) + (prefix + msg)
  {
    Encode3(U8(AMSG_GAME_MESSAGE), U16(|prefix| + |msg|), Raw(prefix + msg));
    [U8(AMSG_GAME_MESSAGE), U16(|prefix| + |msg|), Raw(prefix + msg)]
  }

  /**
   * The game message as the string its length field announces: fatal, like
   * every other string, when it does not fit a u16 length.
   */
  function GameMessageMsg(prefix: seq<byte>, msg: seq<byte>): (fs: seq<Field>)
    ensures Encodable(fs) <==> |prefix| + |msg| <= MAX_STRING
    ensures Encodable(fs) ==> Encode(fs) == [AMSG_GAME_MESSAGE] + LE16(|prefix| + |msg|) + (prefix + msg)
  {
    TextMsg(AMSG_GAME_MESSAGE, prefix + msg)
  }

  /** Below the limit the two agree, and the client reads the concatenation as one string. */
  lemma GameMessageAgrees(prefix: seq<byte>, msg: seq<byte>)
    requires |prefix| + |msg| <= MAX_STRING
    ensures Encode(GameMessageAsWritten(prefix, msg)) == Encode(GameMessageMsg(prefix, msg))
    ensures ReadMessage([KU8, KStr], Encode(GameMessageMsg(prefix, msg)))
      == Some([Num(AMSG_GAME_MESSAGE), Blob(prefix + msg)])
  {
    var n := |prefix| + |msg|;
    assert ToU16(n) == n;
    var w := GameMessageAsWritten(prefix, msg);
    var c := GameMessageMsg(prefix, msg);
    assert Encode(w) == [AMSG_GAME_MESSAGE] + LE16(n) + (prefix + msg);
    assert Encode(c) == [AMSG_GAME_MESSAGE] + LE16(n) + (prefix + msg);
    TextRoundTrip(AMSG_GAME_MESSAGE, prefix + msg);
  }

  /**
   * A 65536-byte game message is sent with length 0: the bytes are those of an
   * empty game message followed by the text, so the client reads an empty
   * message and then takes the 65536 bytes of text for further messages.
   */
  lemma GameMessageWraps(msg: seq<byte>)
    requires |msg| == U16_LIMIT
    ensures Encode(GameMessageAsWritten([], msg)) == Encode(GameMessageMsg([], [])) + msg
    ensures ReadFields([KU8, KStr], Encode(GameMessageAsWritten([], msg)))
      == Some(([Num(AMSG_GAME_MESSAGE), Blob([])], msg))
    ensures !Encodable(GameMessageMsg([], msg))
  {
    var empty := GameMessageMsg([], []);
    assert ToU16(|msg|) == 0;
    assert [] + msg == msg;
    assert Encode(GameMessageAsWritten([], msg)) == [AMSG_GAME_MESSAGE] + LE16(0) + msg;
    assert Encode(empty) == [AMSG_GAME_MESSAGE] + LE16(0);
    ReadEncoded(empty, msg);
    assert Kinds(empty) == [KU8, KStr];
    assert Values(empty) == [Num(AMSG_GAME_MESSAGE), Blob([])];
  }
}

=== FILE: thinkers.dfy ===
/**
 * The thinker list of p_tick.c: a circular doubly linked list through the
 * sentinel `thinkercap`, modelled as a heap of nodes keyed by address, and
 * related to the sequence of thinkers it holds by `Linked`.
 */
module Thinkers {

  /** A thinker's address; `CAP` is the sentinel `thinkercap`. */
  type Id = nat
  const CAP: Id := 0

  /** The `function` field: null, `THINKER_REMOVED`, or some think routine. */
  datatype Action = NoAction | Removed | Acting(routine: nat)

  datatype Node = Node(prev: Id, next: Id, action: Action)

  type Heap = map<Id, Node>

  function NextIn(order: seq<Id>, i: int): Id
    requires 0 <= i < |order|
  {
    if i + 1 < |order| then order[i + 1] else CAP
  }

  function PrevIn(order: seq<Id>, i: int): Id
    requires 0 <= i < |order|
  {
    if i > 0 then order[i - 1] else CAP
  }

  /**
   * The heap holds the thinkers of `order` as a circular list through the
   * sentinel: distinct live nodes, each linked both ways to its neighbours.
   */
  predicate Linked(h: Heap, order: seq<Id>) {
    && CAP in h
    && (forall i :: 0 <= i < |order| ==> order[i] != CAP && order[i] in h)
    && (forall i, j :: 0 <= i < j < |order| ==> order[i] != order[j])
    && h[CAP].next == (if order == [] then CAP else order[0])
    && h[CAP].prev == (if order == [] then CAP else order[|order| - 1])
    && (forall i {:trigger h[order[i]]} :: 0 <= i < |order| ==> h[order[i]].next == NextIn(order, i))
    && (forall i {:trigger h[order[i]]} :: 0 <= i < |order| ==> h[order[i]].prev == PrevIn(order, i))
  }

  /** `P_InitThinkers`: the sentinel points to itself both ways, so the list is empty. */
  function InitThinkers(h: Heap): (h': Heap)
    ensures Linked(h', [])
    ensures forall id :: id in h && id != CAP ==> id in h' && h'[id] == h[id]
  {
    h[CAP := Node(CAP, CAP, NoAction)]
  }

  /** `P_AddThinker`: link a thinker in after the current tail. */
  function AddThinker(h: Heap, ghost order: seq<Id>, t: Id): (h': Heap)
    requires Linked(h, order) && t in h && t != CAP && t !in order
    ensures Linked(h', order + [t])
    ensures h'.Keys == h.Keys
    ensures forall id :: id in h ==> h'[id].action == h[id].action
  {
    assert Linked(Appended(h, t), order + [t]) by {
      AddLinks(h, order, t);
    }
    Appended(h, t)
  }

  /** The four pointer updates of `P_AddThinker`. */
  function Appended(h: Heap, t: Id): (h': Heap)
    requires CAP in h && h[CAP].prev in h && t in h
    ensures h'.Keys == h.Keys
    ensures forall id :: id in h ==> h'[id].action == h[id].action
  {
    var last := h[CAP].prev;
    var h1 := h[last := h[last].(next := t)];
    var h2 := h1[t := h1[t].(next := CAP, prev := last)];
    h2[CAP := h2[CAP].(prev := t)]
  }

  /** After appending, each earlier thinker keeps its links, except that the old tail now points on to t. */
  lemma AddOne(h: Heap, order: seq<Id>, t: Id, i: int)
    requires Linked(h, order) && t in h && t != CAP && t !in order && 0 <= i < |order|
    ensures var o := order + [t];
      var h' := Appended(h, t);
      h'[o[i]].next == NextIn(o, i) && h'[o[i]].prev == PrevIn(o, i)
  {
    var o := order + [t];
    assert o[i] == order[i] && order[i] != t && order[i] != CAP;
    if i + 1 < |order| {
      assert o[i + 1] == order[i + 1] && order[i] != order[|order| - 1];
    } else {
      assert o[i + 1] == t;
    }
    if i > 0 {
      assert o[i - 1] == order[i - 1];
    }
  }

  /** Appending t links every thinker of the longer list both ways. */
  lemma AddLinks(h: Heap, order: seq<Id>, t: Id)
    requires Linked(h, order) && t in h && t != CAP && t !in order
    ensures Linked(Appended(h, t), order + [t])
  {
    var o := order + [t];
    var h' := Appended(h, t);
    forall i | 0 <= i < |o| ensures h'[o[i]].next == NextIn(o, i) && h'[o[i]].prev == PrevIn(o, i) {
      if i < |order| {
        AddOne(h, order, t, i);
      } else if order != [] {
        assert o[i - 1] == order[|order| - 1];
      }
    }
    forall i, j | 0 <= i < j < |o| ensures o[i] != o[j] {
      assert o[i] == order[i];
      if j < |order| {
        assert o[j] == order[j];
      }
    }
  }

  /** `P_RemoveThinker`: only mark the thinker; its links stay as they are. */
  function RemoveThinker(h: Heap, t: Id): (h': Heap)
    requires t in h
    ensures h'.Keys == h.Keys && h'[t].action == Removed
    ensures forall id :: id in h ==> h'[id].prev == h[id].prev && h'[id].next == h[id].next
    ensures forall id :: id in h && id != t ==> h'[id] == h[id]
  {
    h[t := h[t].(action := Removed)]
  }

  /** Marking a thinker keeps the list it belongs to intact. */
  lemma RemoveKeepsList(h: Heap, order: seq<Id>, t: Id)
    requires Linked(h, order) && t in h && t != CAP
    ensures Linked(RemoveThinker(h, t), order)
  {
  }

  /** The thinkers of `order` that are not marked removed, in their order. */
  function Kept(h: Heap, order: seq<Id>): (k: seq<Id>)
    requires forall i :: 0 <= i < |order| ==> order[i] in h
    ensures |k| <= |order|
    decreases |order|
  {
    if order == [] then []
    else
      var last := order[|order| - 1];
      Kept(h, order[..|order| - 1]) + (if h[last].action == Removed then [] else [last])
  }

  /**
   * The unlink step of `P_RunThinkers`: the neighbours are linked to each
   * other, and the node itself is freed.
   */
  function Unlinked(h: Heap, c: Id): (h': Heap)
    requires c in h && h[c].next in h && h[c].prev in h
    ensures c !in h' && h'.Keys == h.Keys - {c}
    ensures forall id :: id in h' ==> h'[id].action == h[id].action
  {
    var nx := h[c].next;
    var pv := h[c].prev;
    var h1 := h[nx := h[nx].(prev := pv)];
    var h2 := h1[pv := h1[pv].(next := nx)];
    h2 - {c}
  }

  /** What unlinking does to each node, when its neighbours are distinct from it. */
  lemma UnlinkedNodes(h: Heap, c: Id, x: Id)
    requires c in h && h[c].next in h && h[c].prev in h && h[c].next != c && h[c].prev != c
    requires x in h && x != c
    ensures var h' := Unlinked(h, c);
      && h'[x].prev == (if x == h[c].next then h[c].prev else h[x].prev)
      && h'[x].next == (if x == h[c].prev then h[c].next else h[x].next)
  {
  }

  /** A sequence with the element at position i taken out. */
  function Without(order: seq<Id>, i: int): (o: seq<Id>)
    requires 0 <= i < |order|
    ensures |o| == |order| - 1
    ensures forall j :: 0 <= j < |o| ==> o[j] == (if j < i then order[j] else order[j + 1])
  {
    seq(|order| - 1, j requires 0 <= j < |order| - 1 => if j < i then order[j] else order[j + 1])
  }

  /** The neighbours of the node at position i, as its links say. */
  lemma Neighbours(h: Heap, order: seq<Id>, i: int)
    requires Linked(h, order) && 0 <= i < |order|
    ensures h[order[i]].next == NextIn(order, i) && h[order[i]].prev == PrevIn(order, i)
    ensures h[order[i]].next in h && h[order[i]].prev in h
    ensures h[order[i]].next != order[i] && h[order[i]].prev != order[i]
    ensures |order| > 1 ==> h[order[i]].next != h[order[i]].prev
  {
    if i + 1 < |order| {
      assert order[i + 1] != order[i];
    }
    if i > 0 {
      assert order[i - 1] != order[i];
    }
    if i > 0 && i + 1 < |order| {
      assert order[i - 1] != order[i + 1];
    }
  }

  /** The node before the removed one keeps its place; its new successor is the old one's. */
  lemma WithoutPredecessor(order: seq<Id>, i: int)
    requires 0 < i < |order|
    ensures var o := Without(order, i);
      o[i - 1] == order[i - 1] && NextIn(o, i - 1) == NextIn(order, i) && PrevIn(o, i - 1) == PrevIn(order, i - 1)
  {
  }

  /** After unlinking position i, the node that preceded it is linked to its new neighbours. */
  lemma UnlinkPredecessor(h: Heap, order: seq<Id>, i: int)
    requires Linked(h, order) && 0 < i < |order|
    ensures var o := Without(order, i);
      var h' := Unlinked(h, order[i]);
      o[i - 1] in h' && h'[o[i - 1]].next == NextIn(o, i - 1) && h'[o[i - 1]].prev == PrevIn(o, i - 1)
  {
    var c := order[i];
    var x := order[i - 1];
    Neighbours(h, order, i);
    Neighbours(h, order, i - 1);
    assert x == h[c].prev && x != h[c].next;
    UnlinkedNodes(h, c, x);
    WithoutPredecessor(order, i);
  }

  /** Positions before the removed one keep their place, neighbours included. */
  lemma WithoutKeep(order: seq<Id>, i: int, j: int)
    requires 0 <= j < i - 1 && i < |order|
    ensures var o := Without(order, i);
      o[j] == order[j] && NextIn(o, j) == NextIn(order, j) && PrevIn(o, j) == PrevIn(order, j)
  {
  }

  /** After unlinking position i, a node further back is linked to its new neighbours. */
  lemma UnlinkEarlier(h: Heap, order: seq<Id>, i: int, j: int)
    requires Linked(h, order) && 0 <= j < i - 1 && i < |order|
    ensures var o := Without(order, i);
      var h' := Unlinked(h, order[i]);
      o[j] in h' && h'[o[j]].next == NextIn(o, j) && h'[o[j]].prev == PrevIn(o, j)
  {
    var c := order[i];
    var x := order[j];
    Neighbours(h, order, i);
    Neighbours(h, order, j);
    assert x != c && x != h[c].next && x != h[c].prev by {
      assert x != order[i - 1];
      if i + 1 < |order| {
        assert order[i + 1] != x;
      }
    }
    UnlinkedOther(h, c, x);
    WithoutKeep(order, i, j);
  }

  /** The node after the removed one moves into its place and takes over its predecessor. */
  lemma WithoutFollower(order: seq<Id>, i: int)
    requires 0 <= i < |order| - 1
    ensures var o := Without(order, i);
      o[i] == order[i + 1] && NextIn(o, i) == NextIn(order, i + 1) && PrevIn(o, i) == PrevIn(order, i)
  {
  }

  /** After unlinking position i, the node that followed it is linked to its new neighbours. */
  lemma UnlinkFollower(h: Heap, order: seq<Id>, i: int)
    requires Linked(h, order) && 0 <= i < |order| - 1
    ensures var o := Without(order, i);
      var h' := Unlinked(h, order[i]);
      o[i] in h' && h'[o[i]].next == NextIn(o, i) && h'[o[i]].prev == PrevIn(o, i)
  {
    var c := order[i];
    var x := order[i + 1];
    Neighbours(h, order, i);
    Neighbours(h, order, i + 1);
    assert x == h[c].next && x != h[c].prev;
    UnlinkedNodes(h, c, x);
    WithoutFollower(order, i);
  }

  /** Unlinking leaves every node other than the freed one and its neighbours as it was. */
  lemma UnlinkedOther(h: Heap, c: Id, x: Id)
    requires c in h && h[c].next in h && h[c].prev in h
    requires x in h && x != c && x != h[c].next && x != h[c].prev
    ensures x in Unlinked(h, c) && Unlinked(h, c)[x] == h[x]
  {
  }

  /** Positions after the removed one shift down by one, neighbours included. */
  lemma WithoutShift(order: seq<Id>, i: int, j: int)
    requires 0 <= i < j < |order| - 1
    ensures var o := Without(order, i);
      o[j] == order[j + 1] && NextIn(o, j) == NextIn(order, j + 1) && PrevIn(o, j) == PrevIn(order, j + 1)
  {
  }

  /** After unlinking position i, a node further on is linked to its new neighbours. */
  lemma UnlinkFurther(h: Heap, order: seq<Id>, i: int, j: int)
    requires Linked(h, order) && 0 <= i < j < |order| - 1
    ensures var o := Without(order, i);
      var h' := Unlinked(h, order[i]);
      o[j] in h' && h'[o[j]].next == NextIn(o, j) && h'[o[j]].prev == PrevIn(o, j)
  {
    var c := order[i];
    var x := order[j + 1];
    Neighbours(h, order, i);
    Neighbours(h, order, j + 1);
    assert x != c && x != h[c].next && x != h[c].prev by {
      assert x != order[i + 1];
      if i > 0 {
        assert order[i - 1] != x;
      }
    }
    UnlinkedOther(h, c, x);
    WithoutShift(order, i, j);
  }

  /** After unlinking position i, the node now at position j is linked to its new neighbours. */
  lemma UnlinkOne(h: Heap, order: seq<Id>, i: int, j: int)
    requires Linked(h, order) && 0 <= i < |order| && 0 <= j < |order| - 1
    ensures var o := Without(order, i);
      var h' := Unlinked(h, order[i]);
      o[j] in h' && h'[o[j]].next == NextIn(o, j) && h'[o[j]].prev == PrevIn(o, j)
  {
    if j + 1 < i {
      UnlinkEarlier(h, order, i, j);
    } else if j + 1 == i {
      UnlinkPredecessor(h, order, i);
    } else if j == i {
      UnlinkFollower(h, order, i);
    } else {
      UnlinkFurther(h, order, i, j);
    }
  }

  /** After unlinking position i, every remaining node is linked to its new neighbours. */
  lemma UnlinkNodes(h: Heap, order: seq<Id>, i: int)
    requires Linked(h, order) && 0 <= i < |order|
    ensures var o := Without(order, i);
      var h' := Unlinked(h, order[i]);
      forall j :: 0 <= j < |o| ==> o[j] in h' && h'[o[j]].next == NextIn(o, j) && h'[o[j]].prev == PrevIn(o, j)
  {
    var o := Without(order, i);
    var h' := Unlinked(h, order[i]);
    forall j | 0 <= j < |o|
      ensures o[j] in h' && h'[o[j]].next == NextIn(o, j) && h'[o[j]].prev == PrevIn(o, j)
    {
      UnlinkOne(h, order, i, j);
    }
  }

  /** Taking an element out keeps the others distinct and off the sentinel. */
  lemma WithoutDistinct(order: seq<Id>, i: int)
    requires 0 <= i < |order|
    requires forall j :: 0 <= j < |order| ==> order[j] != CAP
    requires forall j, k :: 0 <= j < k < |order| ==> order[j] != order[k]
    ensures var o := Without(order, i);
      && (forall j :: 0 <= j < |o| ==> o[j] != CAP)
      && (forall j, k :: 0 <= j < k < |o| ==> o[j] != o[k])
  {
    var o := Without(order, i);
    forall j, k | 0 <= j < k < |o| ensures o[j] != o[k] {
      var j' := if j < i then j else j + 1;
      var k' := if k < i then k else k + 1;
      assert o[j] == order[j'] && o[k] == order[k'] && j' < k';
    }
  }

  /** After unlinking position i, the sentinel points at the new first and last thinkers. */
  lemma UnlinkCap(h: Heap, order: seq<Id>, i: int)
    requires Linked(h, order) && 0 <= i < |order|
    ensures var o := Without(order, i);
      var h' := Unlinked(h, order[i]);
      && CAP in h'
      && h'[CAP].next == (if o == [] then CAP else o[0])
      && h'[CAP].prev == (if o == [] then CAP else o[|o| - 1])
  {
    var c := order[i];
    if i + 1 < |order| {
      assert order[i + 1] != c;
    }
    if i > 0 {
      assert order[i - 1] != c;
    }
    if |order| > 1 {
      UnlinkedNodes(h, c, CAP);
      if i == 0 {
        assert order[|order| - 1] != order[1] || |order| == 2;
      }
    }
  }

  /** Unlinking the node at position i and freeing it leaves the list without it. */
  lemma Unlink(h: Heap, order: seq<Id>, i: int)
    requires Linked(h, order) && 0 <= i < |order|
    ensures Linked(Unlinked(h, order[i]), Without(order, i))
  {
    UnlinkCap(h, order, i);
    UnlinkNodes(h, order, i);
    WithoutDistinct(order, i);
  }

  /** The list the sweep has produced after visiting the first k thinkers. */
  function Swept(h0: Heap, order: seq<Id>, k: int): seq<Id>
    requires 0 <= k <= |order| && forall i :: 0 <= i < |order| ==> order[i] in h0
  {
    Kept(h0, order[..k]) + order[k..]
  }

  /** The element at position k of the swept list is the k-th thinker, whatever was unlinked before it. */
  lemma SweptAt(h0: Heap, order: seq<Id>, k: int)
    requires 0 <= k < |order| && forall i :: 0 <= i < |order| ==> order[i] in h0
    ensures var kept := Kept(h0, order[..k]);
      && |kept| < |Swept(h0, order, k)|
      && Swept(h0, order, k)[|kept|] == order[k]
      && (k + 1 < |order| ==> Swept(h0, order, k)[|kept| + 1] == order[k + 1])
      && (k + 1 == |order| ==> |Swept(h0, order, k)| == |kept| + 1)
  {
  }

  /** Dropping a marked thinker from the swept list is the swept list one step further. */
  lemma SweptDrop(h0: Heap, order: seq<Id>, k: int)
    requires 0 <= k < |order| && forall i :: 0 <= i < |order| ==> order[i] in h0
    requires h0[order[k]].action == Removed
    ensures Without(Swept(h0, order, k), |Kept(h0, order[..k])|) == Swept(h0, order, k + 1)
  {
    var kept := Kept(h0, order[..k]);
    assert order[..k + 1][..k] == order[..k];
    assert Kept(h0, order[..k + 1]) == kept;
    var l := Swept(h0, order, k);
    var w := Without(l, |kept|);
    var s := Swept(h0, order, k + 1);
    assert |w| == |s|;
    forall j | 0 <= j < |w| ensures w[j] == s[j] {
      if j < |kept| {
        assert w[j] == l[j] == kept[j];
      } else {
        assert w[j] == l[j + 1] == order[k + (j + 1 - |kept|)];
      }
    }
  }

  /** Visiting a marked thinker: unlinking it gives the list for one step further. */
  lemma SweepRemoved(h0: Heap, h: Heap, order: seq<Id>, k: int)
    requires 0 <= k < |order| && forall i :: 0 <= i < |order| ==> order[i] in h0
    requires Linked(h, Swept(h0, order, k)) && h0[order[k]].action == Removed
    ensures order[k] in h && h[order[k]].next in h && h[order[k]].prev in h
    ensures Linked(Unlinked(h, order[k]), Swept(h0, order, k + 1))
  {
    var l := Swept(h0, order, k);
    var p := |Kept(h0, order[..k])|;
    SweptAt(h0, order, k);
    Neighbours(h, l, p);
    Unlink(h, l, p);
    SweptDrop(h0, order, k);
  }

  /** Visiting an unmarked thinker leaves the list as it is, one step further. */
  lemma SweepKept(h0: Heap, order: seq<Id>, k: int)
    requires 0 <= k < |order| && forall i :: 0 <= i < |order| ==> order[i] in h0
    requires h0[order[k]].action != Removed
    ensures Swept(h0, order, k + 1) == Swept(h0, order, k)
  {
    assert order[..k + 1][..k] == order[..k];
    assert Kept(h0, order[..k + 1]) == Kept(h0, order[..k]) + [order[k]];
    assert order[k..] == [order[k]] + order[k + 1..];
  }

  /** The thinker after position k of the swept list, as its links say. */
  lemma SweepNext(h0: Heap, h: Heap, order: seq<Id>, k: int)
    requires 0 <= k < |order| && forall i :: 0 <= i < |order| ==> order[i] in h0
    requires Linked(h, Swept(h0, order, k))
    ensures order[k] in h && h[order[k]].next == (if k + 1 < |order| then order[k + 1] else CAP)
  {
    var l := Swept(h0, order, k);
    SweptAt(h0, order, k);
    Neighbours(h, l, |Kept(h0, order[..k])|);
  }

  /**
   * Where the sweep stands after visiting the first k thinkers: the list holds
   * the unmarked visited ones and all unvisited ones, marked visited ones are
   * freed, and nothing else is touched.
   */
  predicate SweptHeap(h0: Heap, h: Heap, order: seq<Id>, k: int)
    requires 0 <= k <= |order| && forall i :: 0 <= i < |order| ==> order[i] in h0
  {
    && Linked(h, Swept(h0, order, k))
    && (forall id :: id in h ==> id in h0 && h[id].action == h0[id].action)
    && (forall i :: 0 <= i < k ==> (order[i] in h <==> h0[order[i]].action != Removed))
    && (forall i :: k <= i < |order| ==> order[i] in h)
  }

  /** One step of the sweep, over a marked thinker. */
  lemma StepRemoved(h0: Heap, h: Heap, order: seq<Id>, k: int)
    requires Linked(h0, order) && 0 <= k < |order|
    requires SweptHeap(h0, h, order, k) && h[order[k]].action == Removed
    ensures order[k] in h && h[order[k]].next in h && h[order[k]].prev in h
    ensures SweptHeap(h0, Unlinked(h, order[k]), order, k + 1)
  {
    SweepRemoved(h0, h, order, k);
    var h' := Unlinked(h, order[k]);
    forall i | 0 <= i < |order| && i != k ensures order[i] in h' <==> order[i] in h {
      assert order[i] != order[k];
    }
  }

  /** One step of the sweep, over an unmarked thinker. */
  lemma StepKept(h0: Heap, h: Heap, order: seq<Id>, k: int)
    requires Linked(h0, order) && 0 <= k < |order|
    requires SweptHeap(h0, h, order, k) && h[order[k]].action != Removed
    ensures SweptHeap(h0, h, order, k + 1)
  {
    SweepKept(h0, order, k);
  }

  /** The sweep's starting point: nothing visited, the list as it was. */
  lemma StepStart(h0: Heap, order: seq<Id>)
    requires Linked(h0, order)
    ensures SweptHeap(h0, h0, order, 0)
  {
    assert Swept(h0, order, 0) == order;
  }

  /** The sweep's end: everything visited. */
  lemma StepEnd(h0: Heap, h: Heap, order: seq<Id>)
    requires Linked(h0, order) && SweptHeap(h0, h, order, |order|)
    ensures Linked(h, Kept(h0, order))
  {
    assert Swept(h0, order, |order|) == Kept(h0, order) by {
      assert order[..|order|] == order;
    }
  }

  /**
   * The sweep of `P_RunThinkers`, with the think routines as no-ops: walk the
   * list from the sentinel, unlinking and freeing every marked thinker. The
   * list left behind holds exactly the unmarked thinkers, in their order.
   */
  method RunThinkers(h: Heap, ghost order: seq<Id>) returns (h': Heap)
    requires Linked(h, order)
    ensures Linked(h', Kept(h, order))
    ensures forall id :: id in h' ==> id in h && h'[id].action == h[id].action
    ensures forall i :: 0 <= i < |order| ==> (order[i] in h' <==> h[order[i]].action != Removed)
  {
    h' := h;
    var cur := h[CAP].next;
    ghost var k := 0;
    StepStart(h, order);
    while cur != CAP
      invariant 0 <= k <= |order|
      invariant cur == if k < |order| then order[k] else CAP
      invariant SweptHeap(h, h', order, k)
      decreases |order| - k
    {
      SweepNext(h, h', order, k);
      var next := h'[cur].next;
      if h'[cur].action == Removed {
        StepRemoved(h, h', order, k);
        h' := Unlinked(h', cur);
      } else {
        StepKept(h, h', order, k);
      }
      cur := next;
      k := k + 1;
    }
    StepEnd(h, h', order);
  }

  /**
   * `P_Ticker`'s bookkeeping: nothing runs while paused, nor in a local game
   * with the menu up (unless a demo plays or the view height is still 1);
   * otherwise the thinkers are swept and `leveltime` advances by one.
   */
  method Ticker(h: Heap, ghost order: seq<Id>, leveltime: int,
                paused: bool, netgame: bool, menuActive: bool, demoPlayback: bool, viewzIsOne: bool)
    returns (h': Heap, leveltime': int)
    requires Linked(h, order)
    ensures var halted := paused || (!netgame && menuActive && !demoPlayback && !viewzIsOne);
      && (halted ==> h' == h && leveltime' == leveltime)
      && (!halted ==> leveltime' == leveltime + 1 && Linked(h', Kept(h, order)))
  {
    if paused || (!netgame && menuActive && !demoPlayback && !viewzIsOne) {
      return h, leveltime;
    }
    h' := RunThinkers(h, order);
    leveltime' := leveltime + 1;
  }
}

=== FILE: video.dfy ===
/**
 * The video glue of i_video.c: the gamma-corrected palette, the conversion of
 * the 8-bit indexed screen into the R8G8B8 frame, the RGB565 helpers and the
 * closest-colour search.
 */
module Video {
  import opened Bytes
  import opened Screen

  /** One palette entry (`col_t`). */
  datatype Color = Color(r: byte, g: byte, b: byte)

  /** The three frame bytes of a colour, red first. */
  function Rgb(c: Color): (bs: seq<byte>)
    ensures |bs| == BYTES_PER_PIXEL && bs[0] == c.r && bs[1] == c.g && bs[2] == c.b
  {
    [c.r, c.g, c.b]
  }

  const PALETTE_SIZE: nat := 256

  // ----- I_SetPalette -----

  /**
   * `I_SetPalette`: entry i of `colors` is the palette's triple at 3i, each
   * component looked up in the gamma table for the current `usegamma`.
   */
  method SetPalette(gamma: seq<byte>, palette: seq<byte>) returns (colors: seq<Color>)
    requires |gamma| == 256 && |palette| == 3 * PALETTE_SIZE
    ensures |colors| == PALETTE_SIZE
    ensures forall i :: 0 <= i < PALETTE_SIZE ==>
      Rgb(colors[i]) == [gamma[palette[3 * i]], gamma[palette[3 * i + 1]], gamma[palette[3 * i + 2]]]
  {
    colors := [];
    var i := 0;
    while i < PALETTE_SIZE
      invariant 0 <= i <= PALETTE_SIZE && |colors| == i
      invariant forall j :: 0 <= j < i ==>
        Rgb(colors[j]) == [gamma[palette[3 * j]], gamma[palette[3 * j + 1]], gamma[palette[3 * j + 2]]]
    {
      colors := colors + [Color(gamma[palette[3 * i]], gamma[palette[3 * i + 1]], gamma[palette[3 * i + 2]])];
      i := i + 1;
    }
  }

  // ----- cmap_to_fb and I_FinishUpdate -----

  /** Reference conversion: each indexed pixel becomes its colour's three bytes, in order. */
  function Cmap(colors: seq<Color>, px: seq<byte>): (out: seq<byte>)
    requires |colors| == PALETTE_SIZE
    ensures |out| == BYTES_PER_PIXEL * |px|
    decreases |px|
  {
    if px == [] then [] else Cmap(colors, px[..|px| - 1]) + Rgb(colors[px[|px| - 1]])
  }

  /** Converting two runs of pixels is converting each and joining the results. */
  lemma {:induction false} CmapAppend(colors: seq<Color>, a: seq<byte>, b: seq<byte>)
    requires |colors| == PALETTE_SIZE
    ensures Cmap(colors, a + b) == Cmap(colors, a) + Cmap(colors, b)
    decreases |b|
  {
    if b == [] {
      assert a + b == a;
    } else {
      var b' := b[..|b| - 1];
      assert (a + b)[..|a + b| - 1] == a + b';
      assert (a + b)[|a + b| - 1] == b[|b| - 1];
      CmapAppend(colors, a, b');
    }
  }

  /** Pixel i of the input is bytes 3i to 3i+2 of the output: its colour. */
  lemma {:induction false} CmapPixel(colors: seq<Color>, px: seq<byte>, i: int)
    requires |colors| == PALETTE_SIZE && 0 <= i < |px|
    ensures Cmap(colors, px)[3 * i..3 * i + 3] == Rgb(colors[px[i]])
    decreases |px|
  {
    var p' := px[..|px| - 1];
    if i < |px| - 1 {
      CmapPixel(colors, p', i);
      assert p'[i] == px[i];
    }
  }

  /** `cmap_to_fb`: convert one run of indexed pixels. */
  method CmapToFb(colors: seq<Color>, px: seq<byte>) returns (out: seq<byte>)
    requires |colors| == PALETTE_SIZE
    ensures out == Cmap(colors, px)
  {
    out := [];
    var i := 0;
    while i < |px|
      invariant 0 <= i <= |px|
      invariant out == Cmap(colors, px[..i])
    {
      assert px[..i + 1][..i] == px[..i];
      out := out + Rgb(colors[px[i]]);
      i := i + 1;
    }
    assert px[..|px|] == px;
  }

  /**
   * `I_FinishUpdate`: convert the screen one row at a time into the frame
   * buffer; the result is the whole screen converted, one frame in size.
   */
  method FinishUpdate(colors: seq<Color>, video: seq<byte>) returns (frame: seq<byte>)
    requires |colors| == PALETTE_SIZE && |video| == SCREENWIDTH * SCREENHEIGHT
    ensures frame == Cmap(colors, video) && |frame| == SCREEN_BUF_SIZE
  {
    frame := [];
    var y := 0;
    while y < SCREENHEIGHT
      invariant 0 <= y <= SCREENHEIGHT
      invariant frame == Cmap(colors, video[..y * SCREENWIDTH])
    {
      var row := video[y * SCREENWIDTH..(y + 1) * SCREENWIDTH];
      var line := CmapToFb(colors, row);
      assert video[..y * SCREENWIDTH] + row == video[..(y + 1) * SCREENWIDTH];
      CmapAppend(colors, video[..y * SCREENWIDTH], row);
      frame := frame + line;
      y := y + 1;
    }
    assert video[..SCREENHEIGHT * SCREENWIDTH] == video;
  }

  /** Every pixel of the frame is the palette colour of the screen pixel it comes from. */
  lemma FramePixel(colors: seq<Color>, video: seq<byte>, x: int, y: int)
    requires |colors| == PALETTE_SIZE && |video| == SCREENWIDTH * SCREENHEIGHT
    requires 0 <= x < SCREENWIDTH && 0 <= y < SCREENHEIGHT
    ensures var i := y * SCREENWIDTH + x;
      Cmap(colors, video)[3 * i..3 * i + 3] == Rgb(colors[video[i]])
  {
    CmapPixel(colors, video, y * SCREENWIDTH + x);
  }

  // ----- RGB565 -----

  /** `GFX_RGB565`: the top 5, 6 and 5 bits of red, green and blue, packed high to low. */
  function Rgb565(r: byte, g: byte, b: byte): (c: int)
    ensures 0 <= c < 0x1_0000
  {
    (r / 8) * 2048 + (g / 4) * 32 + b / 8
  }

  /** `GFX_RGB565_R`, `_G` and `_B` on a 16-bit colour. */
  function Red565(c: int): int
    requires 0 <= c < 0x1_0000
  {
    c / 2048
  }

  function Green565(c: int): int
    requires 0 <= c < 0x1_0000
  {
    (c / 32) % 64
  }

  function Blue565(c: int): int
    requires 0 <= c < 0x1_0000
  {
    c % 32
  }

  /** Unpacking a packed colour gives back the kept top bits of each component. */
  lemma Rgb565RoundTrip(r: byte, g: byte, b: byte)
    ensures Red565(Rgb565(r, g, b)) == r / 8
    ensures Green565(Rgb565(r, g, b)) == g / 4
    ensures Blue565(Rgb565(r, g, b)) == b / 8
  {
    var c := Rgb565(r, g, b);
    var low := (g / 4) * 32 + b / 8;
    assert 0 <= low < 2048;
    assert c == (r / 8) * 2048 + low;
    assert c / 32 == (r / 8) * 64 + g / 4;
  }

  /** A 16-bit colour as the palette search reads it: its three fields, unscaled. */
  function Unpack565(c: int): (col: Color)
    requires 0 <= c < 0x1_0000
    ensures col.r < 32 && col.g < 64 && col.b < 32
  {
    Color(Red565(c), Green565(c), Blue565(c))
  }

  // ----- I_GetPaletteIndex -----

  const INT_MAX := 0x7fff_ffff

  /** Squared distance between a palette entry and an RGB value. */
  function Dist(c: Color, r: byte, g: byte, b: byte): int {
    (r - c.r) * (r - c.r) + (g - c.g) * (g - c.g) + (b - c.b) * (b - c.b)
  }

  /** Multiplying by a non-negative number keeps an inequality. */
  lemma MulLe(a: int, b: int, c: int)
    requires 0 <= c && a <= b
    ensures a * c <= b * c
  {
    assert b * c - a * c == (b - a) * c;
  }

  lemma Square(x: int)
    requires -255 <= x <= 255
    ensures 0 <= x * x <= 65025 && (x * x == 0 <==> x == 0)
  {
    var a := if x < 0 then -x else x;
    assert x * x == a * a;
    MulLe(0, a, a);
    MulLe(a, 255, a);
    MulLe(a, 255, 255);
    if a != 0 {
      MulLe(1, a, a);
    }
  }

  /** The distance fits an int and is zero exactly for the same colour. */
  lemma DistBounds(c: Color, r: byte, g: byte, b: byte)
    ensures 0 <= Dist(c, r, g, b) < INT_MAX
    ensures Dist(c, r, g, b) == 0 <==> c == Color(r, g, b)
  {
    Square(r - c.r);
    Square(g - c.g);
    Square(b - c.b);
  }

  /**
   * The search loop of `I_GetPaletteIndex` over a given palette: the first
   * entry of least distance, stopping early at an exact match.
   */
  method ClosestIndex(pal: seq<Color>, r: byte, g: byte, b: byte) returns (best: int)
    requires |pal| == PALETTE_SIZE
    ensures 0 <= best < PALETTE_SIZE
    ensures forall j :: 0 <= j < PALETTE_SIZE ==> Dist(pal[best], r, g, b) <= Dist(pal[j], r, g, b)
    ensures forall j :: 0 <= j < best ==> Dist(pal[best], r, g, b) < Dist(pal[j], r, g, b)
  {
    best := 0;
    var bestDiff := INT_MAX;
    var i := 0;
    while i < PALETTE_SIZE
      invariant 0 <= i <= PALETTE_SIZE && 0 <= best < PALETTE_SIZE
      invariant i == 0 ==> best == 0 && bestDiff == INT_MAX
      invariant i > 0 ==> best < i && bestDiff == Dist(pal[best], r, g, b)
      invariant forall j :: 0 <= j < i ==> bestDiff <= Dist(pal[j], r, g, b)
      invariant forall j :: 0 <= j < best ==> bestDiff < Dist(pal[j], r, g, b)
    {
      var diff := Dist(pal[i], r, g, b);
      DistBounds(pal[i], r, g, b);
      if diff < bestDiff {
        best := i;
        bestDiff := diff;
      }
      if diff == 0 {
        forall j | 0 <= j < PALETTE_SIZE ensures bestDiff <= Dist(pal[j], r, g, b) {
          DistBounds(pal[j], r, g, b);
        }
        return;
      }
      i := i + 1;
    }
  }

  /**
   * `I_GetPaletteIndex` as written: it searches `rgb565_palette`, which
   * nothing fills (the loop of `I_SetPalette` that would is commented out), so
   * every entry unpacks to black and the first entry always wins.
   */
  method PaletteIndexAsWritten(r: byte, g: byte, b: byte) returns (best: int)
    ensures best == 0
  {
    var rgb565 := seq(PALETTE_SIZE, _ => 0);
    var pal := seq(PALETTE_SIZE, i requires 0 <= i < PALETTE_SIZE => Unpack565(rgb565[i]));
    best := ClosestIndex(pal, r, g, b);
    assert pal[best] == pal[0];
  }

  /**
   * The search as intended: over the colours `I_SetPalette` installed. An
   * exact match, when the palette has one, is found.
   */
  method PaletteIndex(colors: seq<Color>, r: byte, g: byte, b: byte) returns (best: int)
    requires |colors| == PALETTE_SIZE
    ensures 0 <= best < PALETTE_SIZE
    ensures forall j :: 0 <= j < PALETTE_SIZE ==> Dist(colors[best], r, g, b) <= Dist(colors[j], r, g, b)
    ensures Color(r, g, b) in colors ==> colors[best] == Color(r, g, b)
  {
    best := ClosestIndex(colors, r, g, b);
    if Color(r, g, b) in colors {
      var k :| 0 <= k < PALETTE_SIZE && colors[k] == Color(r, g, b);
      DistBounds(colors[k], r, g, b);
      DistBounds(colors[best], r, g, b);
    }
  }

  /** Asking for white when the palette holds white away from entry 0 shows the difference. */
  method WhiteIsMissed(colors: seq<Color>) returns (asWritten: int, intended: int)
    requires |colors| == PALETTE_SIZE && colors[0] != Color(255, 255, 255) && Color(255, 255, 255) in colors
    ensures asWritten == 0 && 0 <= intended < PALETTE_SIZE
    ensures colors[intended] == Color(255, 255, 255) && intended != asWritten
  {
    asWritten := PaletteIndexAsWritten(255, 255, 255);
    intended := PaletteIndex(colors, 255, 255, 255);
  }
}

=== FILE: wire.dfy ===
/**
 * How the client reads the host's messages: each field kind is read back from
 * the byte stream. This is the partner of the host's encoders; ReadEncoded
 * shows that reading an encoded field list returns exactly the values written.
 */
module WireRead {
  import opened Bytes
  import opened Wrappers
  import opened SendBuffer

  /** The shape of a field as the reader expects it. */
  datatype Kind = KU8 | KU16 | KU32 | KBytes(n: nat) | KStr

  /** A field's value as the reader sees it: an unsigned number or a byte string. */
  datatype Value = Num(n: nat) | Blob(b: seq<byte>)

  function KindOf(f: Field): Kind {
    match f
    case U8(_) => KU8
    case U16(_) => KU16
    case U32(_) => KU32
    case Raw(b) => KBytes(|b|)
    case Str(_) => KStr
  }

  /** What writing a field means to the reader: numbers arrive truncated to the field's width. */
  function ValueOf(f: Field): Value {
    match f
    case U8(v) => Num(ToU8(v))
    case U16(v) => Num(ToU16(v))
    case U32(v) => Num(ToU32(v))
    case Raw(b) => Blob(b)
    case Str(s) => Blob(s)
  }

  function Kinds(fs: seq<Field>): (ks: seq<Kind>)
    ensures |ks| == |fs| && forall i :: 0 <= i < |fs| ==> ks[i] == KindOf(fs[i])
  {
    seq(|fs|, i requires 0 <= i < |fs| => KindOf(fs[i]))
  }

  function Values(fs: seq<Field>): (vs: seq<Value>)
    ensures |vs| == |fs| && forall i :: 0 <= i < |fs| ==> vs[i] == ValueOf(fs[i])
  {
    seq(|fs|, i requires 0 <= i < |fs| => ValueOf(fs[i]))
  }

  /** Reads one field from the front of the stream, or nothing if it is incomplete. */
  function ReadField(k: Kind, bs: seq<byte>): (res: Option<(Value, seq<byte>)>)
    ensures res.Some? ==> |res.value.1| <= |bs|
  {
    match k
    case KU8 => if |bs| < 1 then None else Some((Num(bs[0]), bs[1..]))
    case KU16 => if |bs| < 2 then None else Some((Num(FromLE16(bs[0], bs[1])), bs[2..]))
    case KU32 => if |bs| < 4 then None else Some((Num(FromLE32(bs[..4])), bs[4..]))
    case KBytes(n) => if |bs| < n then None else Some((Blob(bs[..n]), bs[n..]))
    case KStr =>
      if |bs| < 2 then None
      else
        var len := FromLE16(bs[0], bs[1]);
        if |bs| < 2 + len then None else Some((Blob(bs[2..2 + len]), bs[2 + len..]))
  }

  /** Reads fields of the given kinds in order, returning the values and the unread bytes. */
  function ReadFields(ks: seq<Kind>, bs: seq<byte>): Option<(seq<Value>, seq<byte>)>
    decreases |ks|
  {
    if ks == [] then Some(([], bs))
    else
      match ReadField(ks[0], bs)
      case None => None
      case Some((v, rest)) =>
        match ReadFields(ks[1..], rest)
        case None => None
        case Some((vs, rest')) => Some(([v] + vs, rest'))
  }

  /** A field written by the host reads back as its value, whatever follows it. */
  lemma ReadFieldEncoded(f: Field, more: seq<byte>)
    requires FieldEncodable(f)
    ensures ReadField(KindOf(f), EncodeField(f) + more) == Some((ValueOf(f), more))
  {
    var b := EncodeField(f) + more;
    match f
    case U8(v) =>
      assert b[1..] == more;
    case U16(v) =>
      assert b[0] == LE16(ToU16(v))[0] && b[1] == LE16(ToU16(v))[1] && b[2..] == more;
    case U32(v) =>
      assert b[..4] == LE32(ToU32(v)) && b[4..] == more;
    case Raw(bytes) =>
      assert b[..|bytes|] == bytes && b[|bytes|..] == more;
    case Str(s) =>
      assert b[0] == LE16(|s|)[0] && b[1] == LE16(|s|)[1];
      assert b[2..2 + |s|] == s && b[2 + |s|..] == more;
  }

  /**
   * Round trip of the host encoders: reading the kinds of an encodable field
   * list from its encoding returns exactly the fields' values, and nothing
   * after the message is consumed.
   */
  lemma {:induction false} ReadEncoded(fs: seq<Field>, more: seq<byte>)
    requires Encodable(fs)
    ensures ReadFields(Kinds(fs), Encode(fs) + more) == Some((Values(fs), more))
    decreases |fs|
  {
    if fs != [] {
      var tail := Encode(fs[1..]) + more;
      SplitFirst(fs, more);
      ReadFieldEncoded(fs[0], tail);
      ReadEncoded(fs[1..], more);
    } else {
      assert Kinds(fs) == [] && Values(fs) == [];
      assert Encode(fs) + more == more;
    }
  }

  /** A non-empty field list: its first field, then the rest, in kinds, values and bytes. */
  lemma SplitFirst(fs: seq<Field>, more: seq<byte>)
    requires Encodable(fs) && fs != []
    ensures Encodable(fs[1..])
    ensures Kinds(fs)[0] == KindOf(fs[0]) && Kinds(fs)[1..] == Kinds(fs[1..])
    ensures Values(fs) == [ValueOf(fs[0])] + Values(fs[1..])
    ensures Encode(fs) + more == EncodeField(fs[0]) + (Encode(fs[1..]) + more)
  {
    EncodableTail(fs);
    KindsTail(fs);
    ValuesTail(fs);
  }

  lemma EncodableTail(fs: seq<Field>)
    requires Encodable(fs) && fs != []
    ensures Encodable(fs[1..])
  {
    forall i | 0 <= i < |fs[1..]| ensures FieldEncodable(fs[1..][i]) {
      assert fs[1..][i] == fs[i + 1];
    }
  }

  lemma KindsTail(fs: seq<Field>)
    requires fs != []
    ensures Kinds(fs)[0] == KindOf(fs[0]) && Kinds(fs)[1..] == Kinds(fs[1..])
  {
  }

  lemma ValuesTail(fs: seq<Field>)
    requires fs != []
    ensures Values(fs) == [ValueOf(fs[0])] + Values(fs[1..])
  {
  }

  /** A whole message: its fields, with nothing left over. */
  function ReadMessage(ks: seq<Kind>, bs: seq<byte>): Option<seq<Value>> {
    match ReadFields(ks, bs)
    case Some((vs, rest)) => if rest == [] then Some(vs) else None
    case None => None
  }

  lemma ReadMessageEncoded(fs: seq<Field>)
    requires Encodable(fs)
    ensures ReadMessage(Kinds(fs), Encode(fs)) == Some(Values(fs))
  {
    ReadEncoded(fs, []);
    assert Encode(fs) + [] == Encode(fs);
  }
}

=== FILE: wrappers.dfy ===
/** Option and Result types used for the all-or-nothing reads and the fatal paths. */
module Wrappers {

  datatype Option<+T> = None | Some(value: T)

  /** A computation that either yields a value or ends the session with a fatal error. */
  datatype Result<+T, +E> = Ok(value: T) | Fatal(error: E)
}
